=== FILE: README.md ===
# CorridorComply core, modelled in Dafny

CorridorComply is a KYC/AML compliance service. This project models its pure decision
rules and proves properties about them:

- the integer geometry of the MRZ (machine-readable zone) detector: which contour rectangles
  count as MRZ lines, how the lines are united, padded and clamped to the image;
- the KYC field validators (date, document type, nationality, document number, full name) and
  `validate_kyc_fields`, together with the ISO 3166-1 country table and its two lookups;
- the risk engine's thresholds and the additive AML risk score, `AMLService.screen`, and the
  status and details that `KYCService.verify` derives;
- the pure helpers of the four sanctions-list converters (OFAC, UK, EU, UN): name splitting,
  whitespace cleaning, the OFAC line re-joining loop, record types, date standardisation,
  and the choice of the latest update date;
- the decision logic of `update_sanctions.py`: which conversions run, in which order, and
  the exit code.

Python's string and date primitives that the code depends on are modelled in their own
modules: `Text` (`str.isspace`, `strip`, `split()`, `" ".join`, ASCII `upper`/`lower`,
`str.find`, `str(n)`) and `Calendar` (`datetime.date`, `strptime` and `strftime` for the
format `%Y-%m-%d`). `Wrappers` and `Seqs` hold `Option`, a Python value as the validators see
it (`None`, a `str`, or another object with its truthiness), and order-preserving filtering.
Their general lemmas, such as `Text.SplitJoinSpace` or `Seqs.FilterAscending`, have no row of
their own. The rows below cite them through the repository code that relies on them.

Everything the original obtains from outside is a parameter of the model:

- the current date;
- the similarity function (rapidfuzz's token-sort ratio);
- the KYC risk calculation;
- the outcome of each download and each subprocess run;
- the contour rectangles produced by OpenCV.

## Model

| member | source | states |
|---|---|---|
| MrzDetect.KernelSize | app/core/mrz_detect.py:34-37 | The horizontal kernel is at least 15 × 5, never below 3% and 1% of the image width, and equals either the floor or that percentage. |
| MrzDetect.PercentOf | app/core/mrz_detect.py:156-157 | `int(v * p / 100)` truncates towards zero: for a non-negative `v` the result is the largest `r` with `100r <= v·p`; negative values mirror this. |
| MrzDetect.StrictIsCandidate | app/core/mrz_detect.py:90-101 | Every rectangle that passes the strict line test (over 70% wide, over 2% tall, bottom half) is also recorded as a candidate. |
| MrzDetect.VeryLenientOnCandidates | app/core/mrz_detect.py:90-124 | Among candidates, the 50%-width tier only asks for the bottom half. It never admits a line narrower than 60% of the image. |
| MrzDetect.InsertByWidth | app/core/mrz_detect.py:107-108 | Inserting into a list sorted by decreasing width keeps it sorted and adds exactly that element (as a multiset). Among rectangles of the inserted one's width, it goes first. |
| MrzDetect.SortByWidth | app/core/mrz_detect.py:107-108 | `candidates.sort(key=width, reverse=True)` returns a permutation of the candidates, sorted by decreasing width. The sort is stable: for every width, the rectangles of that width keep their input order. |
| MrzDetect.FilterKeepsSorted | app/core/mrz_detect.py:115-127 | Picking the lines of a tier from width-sorted candidates leaves them width-sorted. |
| MrzDetect.Ordered | app/core/mrz_detect.py:104-108 | Sorting in debug mode changes only the order of the candidates, never which ones there are. |
| MrzDetect.LenientLines | app/core/mrz_detect.py:115-127 | Each line a lenient tier picks is one of the candidates and lies in the bottom half. |
| MrzDetect.SelectLines | app/core/mrz_detect.py:82-127 | Each chosen MRZ line is one of the input rectangles, is a candidate and lies in the bottom half. |
| MrzDetect.StrictTierWins | app/core/mrz_detect.py:98-104 | When some rectangle passes the strict test, the strict lines are the answer. With no strict line and no candidate, no line is chosen. |
| MrzDetect.SelectEmptyIff | app/core/mrz_detect.py:82-127 | No line is chosen exactly when no rectangle is both a candidate and in the bottom half. |
| MrzDetect.LenientEmpty | app/core/mrz_detect.py:115-127 | Both lenient tiers come back empty only when no candidate lies in the bottom half. |
| MrzDetect.LenientTierChoice | app/core/mrz_detect.py:104-127 | With no strict line and some candidate, the first lenient tier over the (possibly re-sorted) candidates is the answer when it is non-empty, and the second tier otherwise. |
| MrzDetect.DebugOffKeepsOrder | app/core/mrz_detect.py:82-127 | With debug off, the chosen lines are, in contour order, the strict lines if any; else the candidates passing the first lenient tier if any; else those passing the second tier. |
| MrzDetect.DebugOnSortsByWidth | app/core/mrz_detect.py:104-127 | With debug on and no strict line, the chosen lines come widest first. |
| MrzDetect.UnionBox | app/core/mrz_detect.py:132-139 | The combined box of two lines covers both. |
| MrzDetect.UnionBoxSmallest | app/core/mrz_detect.py:132-139 | Any rectangle that covers both lines also covers their combined box, so it is the smallest such box. |
| MrzDetect.UnionInImage | app/core/mrz_detect.py:132-139 | The union of two rectangles inside the image stays inside it. |
| MrzDetect.MrzBox | app/core/mrz_detect.py:132-153 | There is no box exactly when no line was found. One line is its own box. Two or more give the smallest box covering the first two: it covers both, and every box covering both covers it. |
| MrzDetect.PadAndClamp | app/core/mrz_detect.py:155-163 | The box is padded by `int(0.03 w)` on the left and right and `int(0.04 h)` on the top and bottom, then clamped to the image. Without a clamp, the edges move out by exactly those amounts. A clamped edge stops at the image border. The box never grows past the padding. A box inside the image stays inside and is covered by its padded version. |
| MrzDetect.LinesInImage | app/core/mrz_detect.py:82-153 | For rectangles inside the image, the chosen lines and their unpadded box are inside it. |
| MrzDetect.DetectMrzBox | app/core/mrz_detect.py:82-163 | A box is found exactly when the chosen lines give an unpadded box, and it is that box padded and clamped. It lies within the image bounds. |
| MrzDetect.DetectFindsIff | app/core/mrz_detect.py:82-163 | A box is found exactly when some rectangle is a candidate in the bottom half. The box then lies in the image and covers the chosen lines' unpadded box. |
| MrzDetect.SelectThreeOff | app/core/mrz_detect.py:115-119 | Three lenient, non-strict lines keep their contour order when debug is off. |
| MrzDetect.SelectThreeOn | app/core/mrz_detect.py:104-119 | The same three lines come back reversed, widest first, when debug is on. |
| MrzDetect.WitnessOff | app/core/mrz_detect.py:132-139 | With debug off, lines of widths 65, 68 and 69 in a 100 × 100 image unite the first two lines into (0, 80, 68, 15). |
| MrzDetect.WitnessOn | app/core/mrz_detect.py:104-139 | With debug on, the same lines unite the two widest into (0, 60, 69, 25). |
| MrzDetect.WitnessPadding | app/core/mrz_detect.py:155-163 | Those two boxes pad to (0, 80, 72, 15) and (0, 59, 73, 27). |
| MrzDetect.DebugChangesBox | app/core/mrz_detect.py:104-163 | The debug flag changes the detected MRZ box for one concrete input. |
| Calendar.DaysInMonth | app/core/validation.py:51 | Every month has 28 to 31 days. |
| Calendar.Strptime | app/core/validation.py:51 | `strptime(s, '%Y-%m-%d')` gives only dates that `datetime.date` accepts. |
| Calendar.MonthField | app/core/validation.py:51 | The `%m` field is a month from 1 to 12, read from one or two characters and followed by '-'. |
| Calendar.DayField | app/core/validation.py:51 | The `%d` field is a day from 1 to 31, read from one or two characters. |
| Calendar.FormatIso | scripts/convert_un_to_csv.py:193-194 | `strftime('%Y-%m-%d')` yields ten characters with '-' at positions 4 and 7. |
| Calendar.FormatIsoShape | scripts/convert_un_to_csv.py:193-194 | A formatted date has the shape `\d{4}-\d{2}-\d{2}`. |
| Calendar.ParseFormatted | scripts/convert_un_to_csv.py:193-194 | Round trip: parsing a formatted valid date gives back that date. |
| Calendar.FormatParsed | scripts/convert_un_to_csv.py:193-194 | Converse round trip: a `\d{4}-\d{2}-\d{2}` string that parses formats back to itself. |
| Calendar.MonthThirteenNoMatch | app/core/validation.py:51 | Month "13" matches none of the `%m` alternatives, so parsing reports a format mismatch. |
| Calendar.Pad4Value | scripts/convert_un_to_csv.py:194 | A four-digit zero-padded year reads back as the same number. |
| Calendar.Pad4Digits | scripts/convert_un_to_csv.py:194 | A four-digit string is the zero-padded form of its value. |
| Validation.ValidateDate | app/core/validation.py:40-67 | A falsy or non-string value is "required". An accepted date has a stripped text of the ISO shape, is a real calendar date, is not before 1900-01-01 and is not after today. |
| Validation.DateTextVerdict | app/core/validation.py:43-67 | The checks on the stripped text accept only an ISO-shaped, real date between 1900-01-01 and today. |
| Validation.DateAcceptIff | app/core/validation.py:40-67 | A string is accepted as date `d` exactly when its stripped text is the `YYYY-MM-DD` form of the real date `d`, from 1900-01-01 up to today. |
| Validation.DateTextAcceptIff | app/core/validation.py:43-67 | The same if-and-only-if for the stripped text. |
| Validation.MonthThirteenRejected | app/core/validation.py:47-67 | A well-shaped date with month 13 is reported through the `ValueError` branch, with strptime's message after "<field> is invalid: ". |
| Validation.SortedDocumentTypes | app/core/validation.py:86-87 | The listing in the error message holds only valid document types. |
| Validation.SortedDocumentTypesSorted | app/core/validation.py:86-87 | The listing holds every valid type, in strictly increasing string order, as `sorted` gives it. |
| Validation.ValidateDocumentType | app/core/validation.py:80-81 | A falsy or non-string document type is reported as "required". |
| Validation.DocumentTypeAcceptIff | app/core/validation.py:80-89 | A document type is accepted exactly when, lower-cased and then stripped, it is one of the five valid types. |
| Validation.DocumentTypesTrimmed | app/core/validation.py:11-17 | The five valid types are non-empty and carry no surrounding whitespace. |
| Validation.DocumentTypeAccepted | app/core/validation.py:83-89 | Each valid type is accepted in any letter case. |
| Validation.DocumentTypeIgnoresCase | app/core/validation.py:83-89 | Upper-casing the input never changes the verdict. |
| Validation.TypeFollowsLower | app/core/validation.py:83-89 | Two inputs with the same lower-case form get the same verdict. |
| Validation.ValidateNationality | app/core/validation.py:102-120 | A falsy or non-string value is "required". An accepted nationality is two upper-case letters once stripped and upper-cased. |
| Validation.CodeVerdict | app/core/validation.py:105-120 | The checks on the normalised code accept only two upper-case letters. |
| Validation.TwoLetterCode | app/data/countries/__init__.py:286-294 | A two-character code is valid exactly when it is an alpha-2 key of the table. |
| Validation.NationalityAcceptIff | app/core/validation.py:102-120 | A nationality is accepted exactly when, stripped and upper-cased, it is two letters forming an alpha-2 key of the country table. |
| Validation.ThreeLetterNationalityRejected | app/core/validation.py:105-109 | Every three-character code fails the format check, including valid alpha-3 codes such as "GBR". |
| Validation.NationalityNeverInvalidCode | app/core/validation.py:112-118 | The "Invalid country code" branch can never be reached. |
| Validation.ValidateDocumentNumber | app/core/validation.py:134-144 | A falsy or non-string value is "required". An accepted number has 3 to 50 characters once stripped. |
| Validation.NumberVerdict | app/core/validation.py:137-159 | The checks on the stripped number accept only 3 to 50 characters. |
| Validation.DocumentNumberCharUpper | app/core/validation.py:147 | After upper-casing, a character is in `[A-Z0-9\s\-_]` exactly when it is an ASCII letter of either case, a digit, whitespace, '-' or '_'. |
| Validation.DocumentNumberAcceptIff | app/core/validation.py:134-159 | A document number is accepted exactly when it has 3 to 50 characters once stripped, each a letter, digit, whitespace, '-' or '_'. |
| Validation.NumberAcceptIff | app/core/validation.py:137-159 | The same if-and-only-if for the stripped number. |
| Validation.DocumentNumberIgnoresType | app/core/validation.py:151-157 | The document type never changes the verdict, because the passport branch does nothing. |
| Validation.ValidateFullName | app/core/validation.py:172-191 | A falsy or non-string value is "required". An accepted name has 2 to 100 characters once stripped and contains a space. |
| Validation.FullNameAcceptIff | app/core/validation.py:172-191 | A full name is accepted exactly when, stripped, it has 2 to 100 characters, all ASCII letters, whitespace, '-', apostrophe or '.', with at least one space. |
| Validation.AgeIssues | app/core/validation.py:237-243 | At most one remark is made. There is one exactly when the age in whole 365-day years is below 16 or above 120. |
| Validation.DobIssues | app/core/validation.py:230-243 | An age remark is made only for a present date of birth that was accepted. |
| Validation.MissingOf | app/core/validation.py:218-264 | Every field reported as missing is one of the fields examined. |
| Validation.MissingOfIff | app/core/validation.py:223-259 | A field is listed as missing exactly when its value is absent or empty. |
| Validation.MissingOfAscending | app/core/validation.py:223-259 | The missing fields are listed in examination order. |
| Validation.MissingOfEmptyIff | app/core/validation.py:223-259 | No field is missing exactly when every value is present and non-empty. |
| Validation.FieldErrors | app/core/validation.py:223-264 | At most one error per field is reported, five at most. |
| Validation.ValidateKycFields | app/core/validation.py:218-273 | At most five validation errors and one data-quality remark are reported. A remark implies the date of birth was present and accepted. |
| Validation.KycMissingFields | app/core/validation.py:223-259 | `missing_fields` holds exactly the absent or empty fields, in the order full name, date of birth, nationality, document type, document number. |
| Validation.FieldErrorEmpty | app/core/validation.py:226-228 | A present field adds an error exactly when its validator rejects it. |
| Validation.DobErrorEmpty | app/core/validation.py:233-235 | A present date of birth adds an error exactly when `validate_date` rejects it. |
| Validation.PresentErrors | app/core/validation.py:223-264 | With every field present, no error is reported exactly when all five validators accept. |
| Validation.KycNeedsAllPresent | app/core/validation.py:266 | The fields never pass while one of them is missing. |
| Validation.NoneMissing | app/core/validation.py:223-259 | With every value present, nothing is listed as missing. |
| Validation.KycValidIff | app/core/validation.py:266 | With every field present, `is_valid` holds exactly when each validator accepts its field. The document number is checked against the given document type. |
| Countries.ValidCodes | app/data/countries/__init__.py:286-288 | `VALID_COUNTRY_CODES` is exactly the alpha-2 keys together with the alpha-3 codes, so each valid code has 2 or 3 characters. |
| Countries.IsValidCodeIn | app/data/countries/__init__.py:290-294 | A code is valid exactly when it is a non-empty string whose upper-cased form is an alpha-2 key or an alpha-3 code of the table. A valid code therefore has two or three characters. |
| Countries.FindAlpha2 | app/data/countries/__init__.py:311-315 | The lookup finds the row whose key is the code. It finds nothing exactly when no key matches. |
| Countries.FindAlpha3 | app/data/countries/__init__.py:317-322 | The search returns the first row in table order with that alpha-3 code, or nothing when none has it. |
| Countries.CountryInfoIn | app/data/countries/__init__.py:296-324 | Found info comes from a string input and copies a row of the table. Its alpha-2 or alpha-3 field is the upper-cased input. |
| Countries.InfoNoneIff | app/data/countries/__init__.py:290-324 | `get_country_info` returns `None` exactly when `is_valid_country_code` is false. |
| Countries.IsValidCountryCode | app/data/countries/__init__.py:290-294 | `is_valid_country_code` over the repository table. The predicate has no contract of its own; IsValidCodeIn and ValidCodeIgnoresCase state it for every table, this one included. |
| Countries.GetCountryInfo | app/data/countries/__init__.py:296-324 | `get_country_info` over the repository table. The function has no contract of its own; CountryInfoIn, InfoNoneIff, InfoOfAlpha2 and InfoOfAlpha3 state it for every table, this one included. |
| Countries.InfoOfAlpha2 | app/data/countries/__init__.py:309-315 | An alpha-2 input gives the row with that key. The reported alpha-2 is the upper-cased input. |
| Countries.InfoOfAlpha3 | app/data/countries/__init__.py:317-322 | A valid three-letter input gives the first row with that alpha-3 code, reporting the row's key as alpha-2. |
| Countries.ValidCodeIgnoresCase | app/data/countries/__init__.py:290-294 | Validity ignores letter case. |
| RiskEngine.CalculateRiskLevel | app/services/risk_engine.py:21-36 | The level is high from 70 on, medium from 40 to 69, and low below 40. |
| RiskEngine.RiskLevelMonotone | app/services/risk_engine.py:21-36 | A higher score never gives a lower level. |
| RiskEngine.GetConfidenceLevel | app/services/risk_engine.py:39-54 | The confidence class is high from 95 on, medium from 85 up to but not including 95, and low below 85. |
| RiskEngine.ConfidenceMonotone | app/services/risk_engine.py:49-54 | A higher similarity never gives a lower confidence class. |
| RiskEngine.MaxSimilarity | app/services/risk_engine.py:84 | The maximum similarity bounds every match and is attained by one of them. |
| RiskEngine.AmlFactors | app/services/risk_engine.py:74-103 | A sanctions factor appears exactly on a sanctions match, and a PEP factor exactly on a PEP match without sanctions. A confidence factor appears exactly on a sanctions match with matches and names the class of the best similarity; a multiple-matches factor appears exactly with more than one match and carries their number. Factors come in the order sanctions, confidence, PEP, multiple matches. |
| RiskEngine.CalculateAmlRiskScore | app/services/risk_engine.py:57-114 | The score is the recorded factors' points capped at 100, so it lies in 0..100. The level is that of the score. |
| RiskEngine.FactorWeights | app/services/risk_engine.py:77-103 | The points add up to 50 for sanctions, plus 30, 15 or 5 by the best similarity's confidence, plus 30 for PEP without sanctions, plus min(20, 5n) for n > 1 matches. |
| RiskEngine.QuietScreening | app/services/risk_engine.py:74-114 | No sanctions match, no PEP match and at most one match scores 0 at level low, with no factors. |
| RiskEngine.SanctionsScore | app/services/risk_engine.py:77-108 | A sanctions match on a single match scores 50 + 30/15/5, whatever the PEP flag. Only high confidence reaches the high level. |
| RiskEngine.ConfidenceFactorText | app/services/risk_engine.py:85-93 | The confidence factor is named "<level>_confidence_match" after the best similarity's class. |
| AmlService.FuzzyNameMatch | app/core/fuzzy_match.py:3-10 | An empty name on either side scores 0 without consulting the ratio. Otherwise the score is the ratio of the lower-cased names. |
| AmlService.FuzzyIgnoresCase | app/core/fuzzy_match.py:7-10 | The score ignores letter case in either name. |
| AmlService.MatchingRows | app/services/aml_service.py:15-24 | The selected rows are exactly those scoring at least 85, in table order. |
| AmlService.Screen | app/services/aml_service.py:10-44 | The matches are the rows scoring at least 85, in table order. Sanctions and PEP flags are both set exactly when there is a match. The score lies between 5 and 100. |
| AmlService.NoMatchScreen | app/services/aml_service.py:31-42 | Without a qualifying row, the result is the fixed answer: no match, score 5, "No matches found". |
| AmlService.NoMatchingRows | app/services/aml_service.py:15-17 | Rows that all score below the threshold select nothing. |
| AmlService.MatchScreen | app/services/aml_service.py:18-41 | With n ≥ 1 qualifying rows, the score is min(100, 50 + 10n), the detail reads "Found n similar names", and every qualifying row is reported. |
| AmlService.EmptyNameNoMatch | app/core/fuzzy_match.py:7-8 | An empty name matches nothing, whatever the ratio function. |
| KycService.DocumentValid | app/services/kyc_service.py:51 | The document number is valid exactly when it has at least four characters. The emptiness test adds nothing. |
| KycService.StatusOf | app/services/kyc_service.py:66-72 | The status is fail for a high risk level, review for medium and pass for low. |
| KycService.FactorDescriptions | app/services/kyc_service.py:95-97 | The lines are, position by position, the dictionary factors in order, each giving its "description" or "Risk factor detected" when it has none; other entries add nothing. |
| KycService.FactorDescriptionsCover | app/services/kyc_service.py:95-97 | Every dictionary factor's line is among the descriptions, and there are none exactly when no factor is a dictionary. |
| KycService.FaceDetails | app/services/kyc_service.py:81-84 | A face-match line is written exactly when a result is given, and says which result. |
| KycService.ExpiryDetails | app/services/kyc_service.py:86-89 | "Document expired" appears exactly when the document is expired. "Document expiring soon" appears only when it is not expired but expires soon. |
| KycService.MissingDetails | app/services/kyc_service.py:91-92 | A missing-fields line is written exactly when some fields are missing. |
| KycService.OwnDetails | app/services/kyc_service.py:75-92 | The service's own lines: the format line first, then the face line, the expiry line and the missing-fields line, each present exactly under its condition and in that strict order. |
| KycService.Verify | app/services/kyc_service.py:51-103 | The risk calculation receives document validity (length above 3) and the inputs, with an absent list taken as an empty one. Score and level pass through, the status follows the level, and the first detail reports validity. |
| KycService.VerifyDetails | app/services/kyc_service.py:75-97 | The details are the service's own lines followed by exactly the descriptions of the calculation's dictionary risk factors, in order. Never both expiry lines; a missing-fields line exactly when some fields are missing. |
| OfacConvert.SplitAtComma | scripts/convert_ofac_to_csv.py:27 | `split(",", 1)` cuts at the first comma: the two parts rejoined with a comma give the name back. |
| OfacConvert.SplitNameParts | scripts/convert_ofac_to_csv.py:22-23 | A NaN or non-string name gives four empty parts. |
| OfacConvert.SplitNoComma | scripts/convert_ofac_to_csv.py:43-49 | Without a comma, the parts are the first three tokens and the rest. Together they hold exactly the name's tokens. |
| OfacConvert.SplitWithComma | scripts/convert_ofac_to_csv.py:26-37 | With a comma, the second part is the stripped text before it. The other three parts hold exactly the tokens after it, in order. |
| OfacConvert.SpreadRejoin | scripts/convert_ofac_to_csv.py:34-49 | Spreading tokens over fields loses and reorders nothing: the non-empty fields rejoined are the tokens joined. |
| OfacConvert.SpreadFour | scripts/convert_ofac_to_csv.py:45-49 | The four fields of a comma-free name are the tokens spread over four fields. |
| OfacConvert.SpreadThree | scripts/convert_ofac_to_csv.py:31-37 | The three fields after the comma are the tokens after it spread over three fields. |
| OfacConvert.IsRecordStart | scripts/convert_ofac_to_csv.py:84 | A line starts a record exactly when it is non-empty, begins with a digit and has a comma among its first ten characters. |
| OfacConvert.Cleaned | scripts/convert_ofac_to_csv.py:77-80 | The lines kept are the non-blank ones, stripped. |
| OfacConvert.JoinRecordLines | scripts/convert_ofac_to_csv.py:73-96 | The joined records hold exactly the text of the non-blank lines, in order. No record is empty, every record after the first opens with a record-start line, and there is one record per record start (plus one for a leading continuation). Each record is exactly the lines from one boundary (the first line, or a later record-start line) up to the next, joined by single spaces. |
| OfacConvert.BoundariesAt | scripts/convert_ofac_to_csv.py:84-93 | A cleaned line begins a record exactly when it is the first line or a record-start line. |
| OfacConvert.GroupedTwoStarts | scripts/convert_ofac_to_csv.py:84-96 | Two lines that both open a record, `1,a 3,q` and `2,b`, can only be grouped as those two records. |
| OfacConvert.AbsorbKeeps | scripts/convert_ofac_to_csv.py:84-93 | One pass of the loop body keeps the joined text and the record shape. |
| OfacConvert.AbsorbCount | scripts/convert_ofac_to_csv.py:84-93 | One pass adds a record exactly for a record-start line, or for the first line. |
| OfacConvert.ExtendKeepsStart | scripts/convert_ofac_to_csv.py:84-90 | A record that opened with a record-start line still is one after a continuation is appended. |
| OfacConvert.RecordType | scripts/convert_ofac_to_csv.py:352 | The record type is "individual" exactly when the upper-cased type is "INDIVIDUAL", and "entity" otherwise. |
| OfacConvert.RecordTypeIgnoresCase | scripts/convert_ofac_to_csv.py:352 | The record type ignores letter case. |
| UkConvert.CleanText | scripts/convert_uk_to_csv.py:144-156 | A missing value cleans to "". The result has no whitespace at either end, and each whitespace character in it is a single ' ' between two non-whitespace characters. |
| UkConvert.CleanTextWords | scripts/convert_uk_to_csv.py:144-156 | Cleaning keeps the whitespace-separated words. |
| UkConvert.CleanTextIdempotent | scripts/convert_uk_to_csv.py:144-156 | Cleaning twice is cleaning once. |
| UkConvert.NameTokens | scripts/convert_uk_to_csv.py:169-179 | Each kept token is non-empty, has no separator and is neither a listed title nor a listed suffix. |
| UkConvert.ParseName | scripts/convert_uk_to_csv.py:158-194 | A missing or empty name gives four empty parts. Otherwise the name is the kept tokens joined by spaces. |
| UkConvert.ParseNameParts | scripts/convert_uk_to_csv.py:182-187 | One token is both the first and the last name. From two tokens on, the first and last tokens are the first and last names and the inner tokens form the middle name. |
| UkConvert.ParseNameTokens | scripts/convert_uk_to_csv.py:176-182 | Re-splitting the parsed name gives back exactly the kept tokens. |
| UkConvert.ParseNameRebuild | scripts/convert_uk_to_csv.py:182-187 | From two tokens on, first, middle and last name rejoined give the name. |
| UkConvert.ParseNameSingle | scripts/convert_uk_to_csv.py:185-186 | With a single token, first and last name repeat it, so the three parts rejoined spell it twice. |
| UkConvert.TokensUpper | scripts/convert_uk_to_csv.py:169-179 | The kept tokens are already upper case. |
| UkConvert.ParseNameIdempotent | scripts/convert_uk_to_csv.py:158-194 | Parsing the parsed name again changes nothing. |
| UkConvert.RecordType | scripts/convert_uk_to_csv.py:298-306 | The type is individual when the upper-cased, stripped column contains INDIVIDUAL. Otherwise it is entity for ENTITY or ORGANIZATION, vessel for VESSEL, SHIP or BOAT, and other for anything else. |
| UkConvert.RecordTypeIgnoresCase | scripts/convert_uk_to_csv.py:298-306 | The record type ignores letter case. |
| EuConvert.LookupName | scripts/convert_eu_to_csv.py:202-216 | `COUNTRY_CODES.get` finds a name exactly when some entry has the code, and the name is that entry's. |
| EuConvert.CountryNameIn | scripts/convert_eu_to_csv.py:202-216 | A missing, empty or non-string code gives "". Otherwise the upper-cased, stripped code is looked up, and unknown codes come back as they are. |
| EuConvert.CountryNameIgnoresCase | scripts/convert_eu_to_csv.py:215-216 | The country name ignores letter case. |
| EuConvert.CountryNameKnown | scripts/convert_eu_to_csv.py:215-216 | A known code in any case and with surrounding whitespace gives the table's name. An unknown code gives back the normalised code. |
| EuConvert.GetCountryName | scripts/convert_eu_to_csv.py:202-216 | `get_country_name` with the converter's table. The function has no contract of its own; CountryNameIn, CountryNameIgnoresCase and CountryNameKnown state its result for every table, this one included. |
| EuConvert.CleanName | scripts/convert_eu_to_csv.py:179-199 | NaN or a missing cell cleans to "". The result has no whitespace at either end, and each whitespace character in it is a single ' ' between two non-whitespace characters. |
| EuConvert.CleanNameWords | scripts/convert_eu_to_csv.py:179-199 | Cleaning keeps the words, and it gives "" exactly for blank input. |
| EuConvert.AddressLine | scripts/convert_eu_to_csv.py:337-343 | The address line is "" exactly when every part and the place are blank. |
| EuConvert.ExtractAddresses | scripts/convert_eu_to_csv.py:300-343 | The address is "" exactly when the street, city, region, postal code, country and place are all missing or blank. |
| EuConvert.AddressLineIgnoresPlace | scripts/convert_eu_to_csv.py:337-343 | Once some part is non-blank, the place is ignored and the line is the non-blank parts joined by ", ". |
| EuConvert.AddressLineOnlyPlace | scripts/convert_eu_to_csv.py:337-343 | With every part blank, the line is the place alone. |
| EuConvert.IdType | scripts/convert_eu_to_csv.py:360 | A document without a type column is labelled "ID". |
| EuConvert.CountrySuffix | scripts/convert_eu_to_csv.py:363-368 | A present country description wins over the ISO code. Without a description, a present ISO code gives " (<country name of the code>)". Without either there is no suffix. |
| EuConvert.IdentificationShape | scripts/convert_eu_to_csv.py:356-372 | The identification is "" exactly when the number is missing or blank. Otherwise it is "<type>: <stripped number>" followed by the country suffix and nothing else. |
| EuConvert.ExtractIdentification | scripts/convert_eu_to_csv.py:346-372 | `extract_identification` with the converter's country table. The function has no contract of its own; IdentificationShape and CountrySuffix state its result for every table, this one included. |
| EuConvert.IdentificationPrefersDescription | scripts/convert_eu_to_csv.py:365-368 | With a country description present, the ISO code is not read. |
| EuConvert.KindOf | scripts/convert_eu_to_csv.py:424-427 | A key the map does not hold defaults to entity. |
| EuConvert.SubjectType | scripts/convert_eu_to_csv.py:424-427 | The stripped, lower-cased type is looked up in the map. A key the map holds gives its value, and any other gives entity. |
| EuConvert.SubjectTypeWords | scripts/convert_eu_to_csv.py:397-427 | The map's words are found in any letter case, with surrounding whitespace; the empty type maps to other. |
| EuConvert.SingleLetterCodesIgnored | scripts/convert_eu_to_csv.py:397-427 | As written, the codes P, E, G, T and O are lower-cased before the lookup, miss the map's capital keys and all become entity. |
| EuConvert.SingleLowerNotKey | scripts/convert_eu_to_csv.py:397-409 | No single lower-case letter is a key of the map. |
| EuConvert.SubjectTypeIntended | scripts/convert_eu_to_csv.py:397-427 | The corrected lookup gives a key's own value to a stripped subject type that is a key of the map. Otherwise it behaves as written. |
| EuConvert.SubjectTypeIntendedCodes | scripts/convert_eu_to_csv.py:397-409 | Under the corrected lookup, P, E, G, T and O give individual, entity, government, vessel and organization. |
| EuConvert.SubjectTypeIntendedAgrees | scripts/convert_eu_to_csv.py:424-427 | Outside the single-letter codes, the corrected lookup agrees with the written one. |
| EuConvert.FilledNames | scripts/convert_eu_to_csv.py:445-451 | A given first or last name is never replaced. |
| EuConvert.FilledNamesFill | scripts/convert_eu_to_csv.py:445-451 | A missing first name becomes the primary name's first word, and a missing last name its remaining words. |
| EuConvert.FilledNamesRebuild | scripts/convert_eu_to_csv.py:446-451 | With neither name given and two or more words, the first and last names rejoined are the primary name with its whitespace collapsed. |
| EuConvert.ThirdName | scripts/convert_eu_to_csv.py:529 | `third_name` is the last name, or "" exactly when the last name is empty or repeats the first or middle name. |
| EuConvert.PrimaryName | scripts/convert_eu_to_csv.py:429-438 | A non-blank cleaned whole name is the primary name. Otherwise it is the non-empty cleaned first, middle and last names joined by single spaces, and the final strip changes nothing. |
| EuConvert.EuRecordNames | scripts/convert_eu_to_csv.py:429-529 | A given whole name is the record's name; otherwise the name is the non-empty cleaned first, middle and last names joined by single spaces. A given first name is kept; the second name is the cleaned middle name. The third name is the last name unless that repeats the first or middle name, and never repeats either. |
| UnConvert.ExtractText | scripts/convert_un_to_csv.py:30-62 | A missing or empty tag gives the default. Otherwise the text keeps the tag's words, has no leading or trailing whitespace, and separates words by single spaces. |
| UnConvert.JoinList | scripts/convert_un_to_csv.py:111-124 | The joined list is "" exactly when every item is blank. |
| UnConvert.JoinListClean | scripts/convert_un_to_csv.py:111-124 | A list of non-blank, already stripped items is joined as it stands, in order. |
| UnConvert.NameParts | scripts/convert_un_to_csv.py:145-148 | The four name parts are each trimmed. |
| UnConvert.FullName | scripts/convert_un_to_csv.py:150-159 | The full name is upper case. |
| UnConvert.FullNameFromParts | scripts/convert_un_to_csv.py:150-159 | With some name part present, the full name is the non-empty parts joined by spaces, upper-cased. |
| UnConvert.FullNameFromTitle | scripts/convert_un_to_csv.py:154-159 | With every name part blank, the full name is the title, upper-cased. |
| UnConvert.AliasOf | scripts/convert_un_to_csv.py:166-170 | An entry gives an alias exactly when its name is non-empty and its quality is "good" in any case or missing. The alias is the name upper-cased. |
| UnConvert.AliasesComplete | scripts/convert_un_to_csv.py:161-170 | Every kept entry's alias is collected, and every collected alias comes from a kept entry. |
| UnConvert.AliasesConcat | scripts/convert_un_to_csv.py:161-170 | Aliases are collected entry by entry in order: those of two runs of entries are those of the first followed by those of the second. |
| UnConvert.AliasesSingle | scripts/convert_un_to_csv.py:161-170 | A single entry contributes its own alias, when it is kept. |
| UnConvert.GoodQualityIgnoresCase | scripts/convert_un_to_csv.py:167-169 | The quality test ignores letter case. |
| UnConvert.StandardiseDate | scripts/convert_un_to_csv.py:191-196 | A date string that does not parse is kept as it is. |
| UnConvert.StandardiseParsed | scripts/convert_un_to_csv.py:191-194 | A parsed date comes back in `YYYY-MM-DD` form and still denotes the same date. |
| UnConvert.StandardiseIdempotent | scripts/convert_un_to_csv.py:191-196 | Standardising twice is standardising once, and a date already in that shape is kept. |
| UnConvert.ListedOn | scripts/convert_un_to_csv.py:301-310 | Without the tag, listed_on is "". Present text is standardised: text that does not parse is kept as it is, and text that parses comes back in YYYY-MM-DD form denoting the same date. |
| UnConvert.DobOf | scripts/convert_un_to_csv.py:184-202 | A present DATE gives its standardised text. Otherwise a four-digit YEAR gives the year, and anything else gives nothing. |
| UnConvert.DobDatePrecedence | scripts/convert_un_to_csv.py:188-200 | When a DATE is present, the YEAR tag is not read. |
| UnConvert.DobYearsAreYears | scripts/convert_un_to_csv.py:199-202 | Every year collected has four digits. |
| UnConvert.DobLists | scripts/convert_un_to_csv.py:182-207 | At most one date or year is collected per entry. DobListsConcat and DobListsSingle give the contents and order. |
| UnConvert.DobListsSingle | scripts/convert_un_to_csv.py:186-202 | One entry contributes its standardised DATE, or else its four-digit YEAR, or nothing. |
| UnConvert.DobListsConcat | scripts/convert_un_to_csv.py:182-202 | Collection goes entry by entry, in order: the dates and years of two runs of entries are those of the first run followed by those of the second. |
| UnConvert.DobDatesComplete | scripts/convert_un_to_csv.py:186-197 | Every entry's date is collected, and every collected date comes from an entry. |
| UnConvert.DobYearsComplete | scripts/convert_un_to_csv.py:198-202 | Every entry's year is collected, and every collected year comes from an entry. |
| UnConvert.LatestUnique | scripts/convert_un_to_csv.py:326-329 | At most one value is the latest, first-listed parseable one. |
| UnConvert.BeforeOrder | scripts/convert_un_to_csv.py:328 | Date order is a strict total order, as the sort key needs. |
| UnConvert.LastUpdated | scripts/convert_un_to_csv.py:312-329 | last_updated is "" exactly when no value parses. Otherwise it is the original text of the latest parseable value, the first listed among equal dates. |
| UpdateSanctions.DownloadOfac | scripts/update_sanctions.py:123-146 | Success means at least one of the three files downloaded. The files reported are exactly those that downloaded, in fetch order, and none are reported on failure. |
| UpdateSanctions.DownloadedFiles | scripts/update_sanctions.py:130-140 | The files kept are exactly those that downloaded, in the order sdn, alt, add. |
| UpdateSanctions.RunConversionScript | scripts/update_sanctions.py:318-346 | A script counts as run exactly when it exists and exits with code 0. A timeout, another exit code or an exception makes it fail. |
| UpdateSanctions.ConversionsRun | scripts/update_sanctions.py:406-430 | A source's conversion script runs exactly when its download succeeded. |
| UpdateSanctions.ConversionsAscending | scripts/update_sanctions.py:406-430 | Conversions run in the order UN, OFAC, UK, EU. |
| UpdateSanctions.UpdateSanctionsLists | scripts/update_sanctions.py:349-473 | Each source's conversion counts only after a successful download, and combining always runs. The exit code is 0 exactly when UN and OFAC were both downloaded and converted and combining succeeded; otherwise it is 1. |
| UpdateSanctions.ScriptsRun | scripts/update_sanctions.py:406-437 | A conversion script runs exactly when its download succeeded. The combining script runs once, last. |
| UpdateSanctions.ScriptsOrder | scripts/update_sanctions.py:406-437 | Scripts run in the order UN, OFAC, UK, EU, then combining. |
| UpdateSanctions.ExitIgnoresUkEu | scripts/update_sanctions.py:460-473 | The UK and EU outcomes never change the exit code. |
| UpdateSanctions.ForceIgnored | scripts/update_sanctions.py:349-358 | The `force` argument changes nothing: the body never reads it, whatever its docstring says. |

## Left out

- The OpenCV pipeline is not modelled: grayscale, blur, morphology, contour finding and Otsu thresholding, and the final crop. The detector starts from the bounding rectangles in contour order; the crop is the padded box.
- Floating point: percentages are compared exactly by integer cross-multiplication, `int(w * 0.03)` is `⌊3w/100⌋`, and similarities are exact reals.
- MrzDetect.PercentOf: computes the exact truncated percentage. The float product `w * 0.03` can round just below an integer, which would make the source's value one less.
- Unicode: `clean_name` and `clean_text` are modelled on their effect on whitespace. NFKC normalisation, control-character and quote replacement and the `isprintable` filter are left out. Case mapping, `\d` and `str.isdigit` cover ASCII digits and letters only. `str.isdigit` also accepts other Unicode digits, such as superscripts, that even `\d` rejects; whitespace follows `str.isspace`.
- Validation.ValidateDate: `\d` and strptime's digits are ASCII here, while Python also accepts other Unicode decimal digits.
- Calendar.FormatIso: pads years below 1000 to four digits. Whether `strftime('%Y')` does so depends on the platform.
- The MRZ text parsing, OCR and face matching of the KYC flow are not part of this model.
- The similarity function (rapidfuzz's `token_sort_ratio`) is a parameter.
- The KYC risk calculation (`RiskEngine.calculate_kyc_risk_score`) is a parameter; `KYCService.verify` is modelled against any such function.
- Reading and writing files, pandas data frames, XML parsing, logging and network downloads are left out. An XML tag is an optional text; a pandas cell is absent, NaN or a string.
- `str()` of a non-string cell is not modelled. Cells that the converters read as text are strings here.
- `date.today()` is the parameter `today`.
- Countries: the lookups are proved for any table (`Countries.CountryInfoIn` and the lemmas after it). The 249-row table itself is given as data. `get_country_info` returns a fresh copy; values are immutable here, so copying is invisible.
- Validation.ValidateDocumentNumber: the document type is an optional string. A non-string type would only reach the passport branch, which has no effect.
- Validation.KycMissingFields: missing fields are reported as values of the `Field` datatype rather than as their key strings.
- The OFAC `else` branch after `split(",", 1)` is not modelled. It is unreachable, since a name containing a comma always splits into two parts.
- UnConvert.LastUpdated: the exception fallback to the first value is left out. The loop catches each parse error itself, so the outer handler never fires.
- The UN, UK and EU downloads and the subprocess runs are given as their outcomes. The `force` argument is never read, although its docstring promises an update even when the files are recent; no file-age check exists to model.
- The sanctions loader, the alias and nationality collection of the converters, and the CSV writing are outside this model.

## Findings

| source | as written | input that shows it | evidently intended | confidence | as-written member | corrected member |
|---|---|---|---|---|---|---|
| scripts/convert_eu_to_csv.py:424-427 | The subject type is lower-cased before it is looked up in a map whose single-letter keys are capitals, so the codes P, E, G, T and O never match and all default to "entity". | `Entity_SubjectType = "P"` gives record type "entity" | "P" gives "individual", "G" "government", "T" "vessel", "O" "organization", as the map states | not executed | EuConvert.SingleLetterCodesIgnored | EuConvert.SubjectTypeIntendedCodes |

=== FILE: aml_service.dfy ===
/** `AMLService.screen`: fuzzy screening of a name against the sanctions rows. The similarity
    function (rapidfuzz's token-sort ratio) is a parameter. */
module AmlService {
  import opened Wrappers
  import opened Text

  /** `SIMILARITY_THRESHOLD`. */
  const SimilarityThreshold: real := 85.0

  /** One row of the combined sanctions table. */
  datatype SanctionRow = SanctionRow(name: string, source: string, dob: Option<string>, country: Option<string>)

  /** One reported match. */
  datatype AmlMatch = AmlMatch(
    sanctionedName: string, source: string, similarity: real, dob: Option<string>, country: Option<string>)

  datatype ScreenResult = ScreenResult(
    sanctionsMatch: bool, pepMatch: bool, riskScore: int, details: seq<string>, matches: seq<AmlMatch>)

  /** `fuzzy_name_match`: 0 when either name is empty, else the ratio of the lower-cased names. */
  function FuzzyNameMatch(ratio: (string, string) -> real, a: string, b: string): (r: real)
    ensures |a| == 0 || |b| == 0 ==> r == 0.0
    ensures |a| > 0 && |b| > 0 ==> r == ratio(Lower(a), Lower(b))
  {
    if |a| == 0 || |b| == 0 then 0.0 else ratio(Lower(a), Lower(b))
  }

  /** The comparison ignores letter case in both names. */
  lemma FuzzyIgnoresCase(ratio: (string, string) -> real, a: string, b: string)
    ensures FuzzyNameMatch(ratio, Upper(a), b) == FuzzyNameMatch(ratio, a, b)
    ensures FuzzyNameMatch(ratio, a, Upper(b)) == FuzzyNameMatch(ratio, a, b)
  {
    LowerOfUpper(a);
    LowerOfUpper(b);
  }

  function Score(ratio: (string, string) -> real, name: string, row: SanctionRow): real {
    FuzzyNameMatch(ratio, name, row.name)
  }

  /** The indices, from `from` on, of the rows scoring at least the threshold, ascending. */
  function MatchingRows(ratio: (string, string) -> real, name: string, rows: seq<SanctionRow>, from: nat)
    : (r: seq<nat>)
    requires from <= |rows|
    ensures forall k :: 0 <= k < |r| ==> from <= r[k] < |rows|
    ensures forall k :: 0 <= k < |r| ==> Score(ratio, name, rows[r[k]]) >= SimilarityThreshold
    ensures forall j, k :: 0 <= j < k < |r| ==> r[j] < r[k]
    ensures forall j :: from <= j < |rows| && Score(ratio, name, rows[j]) >= SimilarityThreshold ==> j in r
    decreases |rows| - from
  {
    if from == |rows| then []
    else if Score(ratio, name, rows[from]) >= SimilarityThreshold then [from] + MatchingRows(ratio, name, rows, from + 1)
    else MatchingRows(ratio, name, rows, from + 1)
  }

  function MatchOf(ratio: (string, string) -> real, name: string, row: SanctionRow): AmlMatch {
    AmlMatch(row.name, row.source, Score(ratio, name, row), row.dob, row.country)
  }

  /** `AMLService.screen(full_name, ...)` over the rows of the sanctions table. */
  function Screen(ratio: (string, string) -> real, fullName: string, rows: seq<SanctionRow>): (r: ScreenResult)
    ensures var idx := MatchingRows(ratio, fullName, rows, 0);
      |r.matches| == |idx|
      && forall k :: 0 <= k < |idx| ==> r.matches[k] == MatchOf(ratio, fullName, rows[idx[k]])
    ensures forall k :: 0 <= k < |r.matches| ==> r.matches[k].similarity >= SimilarityThreshold
    ensures r.sanctionsMatch == r.pepMatch == (|r.matches| > 0)
    ensures 5 <= r.riskScore <= 100
  {
    var idx := MatchingRows(ratio, fullName, rows, 0);
    var matches := seq(|idx|, k requires 0 <= k < |idx| => MatchOf(ratio, fullName, rows[idx[k]]));
    var n := |matches|;
    if n > 0 then
      ScreenResult(true, true, Min(100, 50 + n * 10), ["Found " + NatToString(n) + " similar names"], matches)
    else
      ScreenResult(false, false, 5, ["No matches found"], matches)
  }

  /** Without a qualifying row the result is the fixed low-risk answer. */
  lemma NoMatchScreen(ratio: (string, string) -> real, fullName: string, rows: seq<SanctionRow>)
    requires forall j :: 0 <= j < |rows| ==> Score(ratio, fullName, rows[j]) < SimilarityThreshold
    ensures Screen(ratio, fullName, rows) == ScreenResult(false, false, 5, ["No matches found"], [])
  {
    NoMatchingRows(ratio, fullName, rows, 0);
  }

  /** No row index is selected when no row from `from` on reaches the threshold. */
  lemma {:induction false} NoMatchingRows(ratio: (string, string) -> real, name: string, rows: seq<SanctionRow>, from: nat)
    requires from <= |rows|
    requires forall j :: from <= j < |rows| ==> Score(ratio, name, rows[j]) < SimilarityThreshold
    ensures MatchingRows(ratio, name, rows, from) == []
    decreases |rows| - from
  {
    if from < |rows| {
      NoMatchingRows(ratio, name, rows, from + 1);
    }
  }

  /** With `n` qualifying rows the score is `min(100, 50 + 10n)` and the detail counts them. */
  lemma MatchScreen(ratio: (string, string) -> real, fullName: string, rows: seq<SanctionRow>, j: nat)
    requires j < |rows| && Score(ratio, fullName, rows[j]) >= SimilarityThreshold
    ensures var r := Screen(ratio, fullName, rows);
      var n := |MatchingRows(ratio, fullName, rows, 0)|;
      n >= 1 && r.riskScore == Min(100, 50 + 10 * n)
      && r.details == ["Found " + NatToString(n) + " similar names"]
      && MatchOf(ratio, fullName, rows[j]) in r.matches
  {
    var idx := MatchingRows(ratio, fullName, rows, 0);
    var r := Screen(ratio, fullName, rows);
    assert j in idx;
    var k :| 0 <= k < |idx| && idx[k] == j;
    assert r.matches[k] == MatchOf(ratio, fullName, rows[j]);
    assert r.riskScore == Min(100, 50 + |idx| * 10);
  }

  /** An empty name matches nothing, whatever the ratio function. */
  lemma EmptyNameNoMatch(ratio: (string, string) -> real, rows: seq<SanctionRow>)
    ensures Screen(ratio, "", rows).matches == []
  {
    NoMatchScreen(ratio, "", rows);
  }
}

=== FILE: calendar.dfy ===
/** Proleptic Gregorian dates as Python's `datetime.date` represents them, and the
    behaviour of `datetime.strptime(s, '%Y-%m-%d')` / `strftime('%Y-%m-%d')`. */
module Calendar {
  import opened Wrappers
  import opened Text

  datatype Date = Date(year: int, month: int, day: int)

  predicate IsLeapYear(y: int) { y % 4 == 0 && (y % 100 != 0 || y % 400 == 0) }

  function DaysInMonth(y: int, m: int): (n: int)
    requires 1 <= m <= 12
    ensures 28 <= n <= 31
  {
    if m == 2 then (if IsLeapYear(y) then 29 else 28)
    else if m == 4 || m == 6 || m == 9 || m == 11 then 30
    else 31
  }

  /** The dates `datetime.date(year, month, day)` accepts (MINYEAR 1 to MAXYEAR 9999). */
  predicate IsValid(d: Date) {
    1 <= d.year <= 9999 && 1 <= d.month <= 12 && 1 <= d.day <= DaysInMonth(d.year, d.month)
  }

  /** Chronological order, which is Python's comparison of `date` objects. */
  predicate Before(a: Date, b: Date) {
    a.year < b.year
    || (a.year == b.year && (a.month < b.month || (a.month == b.month && a.day < b.day)))
  }

  function DaysBeforeYear(y: int): int
    requires y >= 1
  {
    var p := y - 1;
    p * 365 + p / 4 - p / 100 + p / 400
  }

  function DaysBeforeMonth(y: int, m: int): int
    requires 1 <= m <= 12
  {
    [0, 31, 59, 90, 120, 151, 181, 212, 243, 273, 304, 334][m - 1]
    + (if m > 2 && IsLeapYear(y) then 1 else 0)
  }

  /** `date.toordinal()`: 0001-01-01 is day 1. */
  function Ordinal(d: Date): int
    requires IsValid(d)
  {
    DaysBeforeYear(d.year) + DaysBeforeMonth(d.year, d.month) + d.day
  }

  // ---------------------------------------------------------------------------
  // strptime with the format '%Y-%m-%d'

  /** What `datetime.strptime(s, '%Y-%m-%d')` does with `s`: a date, or which
      `ValueError` it raises. */
  datatype StrptimeOutcome =
    | Parsed(date: Date)
    | NoMatch                  // "time data ... does not match format ..."
    | Unconverted(rest: string) // "unconverted data remains: ..."
    | YearOutOfRange(year: int) // raised by the date constructor
    | DayOutOfRange            // raised by the date constructor

  predicate InRange(c: char, lo: char, hi: char) { lo <= c <= hi }

  /** The `%m` field, matched right after "YYYY-" by the alternatives
      `1[0-2]|0[1-9]|[1-9]`, each of which must be followed by '-'.
      Gives the month and the length of its text. */
  function MonthField(t: string): (r: Option<(int, nat)>)
    ensures r.Some? ==> 1 <= r.value.0 <= 12 && 1 <= r.value.1 <= 2
    ensures r.Some? ==> r.value.1 < |t| && t[r.value.1] == '-'
  {
    if |t| >= 3 && t[0] == '1' && InRange(t[1], '0', '2') && t[2] == '-' then
      Some((10 + DigitValue(t[1]), 2))
    else if |t| >= 3 && t[0] == '0' && InRange(t[1], '1', '9') && t[2] == '-' then
      Some((DigitValue(t[1]), 2))
    else if |t| >= 2 && InRange(t[0], '1', '9') && t[1] == '-' then
      Some((DigitValue(t[0]), 1))
    else None
  }

  /** The `%d` field: the first of the alternatives `3[01]|[12]\d|0[1-9]|[1-9]| [1-9]`
      that matches at the start of `t`. Gives the day and the length matched. */
  function DayField(t: string): (r: Option<(int, nat)>)
    ensures r.Some? ==> 1 <= r.value.0 <= 31 && 1 <= r.value.1 <= 2 && r.value.1 <= |t|
  {
    if |t| >= 2 && t[0] == '3' && InRange(t[1], '0', '1') then Some((30 + DigitValue(t[1]), 2))
    else if |t| >= 2 && InRange(t[0], '1', '2') && IsDigit(t[1]) then
      Some((10 * DigitValue(t[0]) + DigitValue(t[1]), 2))
    else if |t| >= 2 && t[0] == '0' && InRange(t[1], '1', '9') then Some((DigitValue(t[1]), 2))
    else if |t| >= 1 && InRange(t[0], '1', '9') then Some((DigitValue(t[0]), 1))
    else if |t| >= 2 && t[0] == ' ' && InRange(t[1], '1', '9') then Some((DigitValue(t[1]), 2))
    else None
  }

  /** `datetime.strptime(s, '%Y-%m-%d')`: the format's regular expression is matched at the
      start of `s`; text left over is an error; then the date constructor checks the values. */
  function Strptime(s: string): (o: StrptimeOutcome)
    ensures o.Parsed? ==> IsValid(o.date)
  {
    if !(|s| >= 5 && AllDigits(s[..4]) && s[4] == '-') then NoMatch
    else
      match MonthField(s[5..])
      case None => NoMatch
      case Some(mf) =>
        var rest := s[5 + mf.1 + 1..];
        match DayField(rest)
        case None => NoMatch
        case Some(df) =>
          if df.1 < |rest| then Unconverted(rest[df.1..])
          else
            var y := DigitsValue(s[..4]);
            Pad4Digits(s[..4]);
            if y < 1 then YearOutOfRange(y)
            else if df.0 > DaysInMonth(y, mf.0) then DayOutOfRange
            else Parsed(Date(y, mf.0, df.0))
  }

  /** The text of the `ValueError` raised for a failed parse of `s`. */
  function StrptimeError(o: StrptimeOutcome, s: string): string
  {
    match o
    case Parsed(_) => ""
    case NoMatch => "time data '" + s + "' does not match format '%Y-%m-%d'"
    case Unconverted(rest) => "unconverted data remains: " + rest
    case YearOutOfRange(y) => "year " + (if y >= 0 then NatToString(y) else "-" + NatToString(-y)) + " is out of range"
    case DayOutOfRange => "day is out of range for month"
  }

  function Pad2(n: int): (r: string)
    requires 0 <= n <= 99
    ensures |r| == 2 && AllDigits(r)
  {
    [DigitChar(n / 10), DigitChar(n % 10)]
  }

  function Pad4(n: int): (r: string)
    requires 0 <= n <= 9999
    ensures |r| == 4 && AllDigits(r)
  {
    [DigitChar(n / 1000), DigitChar(n / 100 % 10), DigitChar(n / 10 % 10), DigitChar(n % 10)]
  }

  /** `date.strftime('%Y-%m-%d')` (and `date.isoformat()`), with a zero-padded year. */
  function FormatIso(d: Date): (r: string)
    requires IsValid(d)
    ensures |r| == 10 && r[4] == '-' && r[7] == '-'
  {
    Pad4(d.year) + "-" + Pad2(d.month) + "-" + Pad2(d.day)
  }

  /** The shape `\d{4}-\d{2}-\d{2}`. */
  predicate IsIsoShape(s: string) {
    |s| == 10 && AllDigits(s[..4]) && s[4] == '-' && AllDigits(s[5..7]) && s[7] == '-'
    && AllDigits(s[8..])
  }

  /** Formatted dates have that shape. */
  lemma FormatIsoShape(d: Date)
    requires IsValid(d)
    ensures IsIsoShape(FormatIso(d))
  {
    var s := FormatIso(d);
    assert s[..4] == Pad4(d.year);
    assert s[5..7] == Pad2(d.month);
    assert s[8..] == Pad2(d.day);
  }

  lemma DigitsValue4(s: string)
    requires |s| == 4 && AllDigits(s)
    ensures DigitsValue(s)
         == 1000 * DigitValue(s[0]) + 100 * DigitValue(s[1]) + 10 * DigitValue(s[2]) + DigitValue(s[3])
  {
    assert s[..1][..0] == [];
    assert DigitsValue(s[..1]) == DigitValue(s[0]);
    assert s[..2][..1] == s[..1];
    assert DigitsValue(s[..2]) == DigitsValue(s[..1]) * 10 + DigitValue(s[1]);
    assert s[..3][..2] == s[..2];
    assert DigitsValue(s[..3]) == DigitsValue(s[..2]) * 10 + DigitValue(s[2]);
    assert s[..3] == s[..|s| - 1];
  }

  lemma Pad4Digits(s: string)
    requires |s| == 4 && AllDigits(s)
    ensures DigitsValue(s) <= 9999 && Pad4(DigitsValue(s)) == s
  {
    DigitsValue4(s);
    var a, b, c, d := DigitValue(s[0]), DigitValue(s[1]), DigitValue(s[2]), DigitValue(s[3]);
    var n := DigitsValue(s);
    assert n / 10 == 100 * a + 10 * b + c && n % 10 == d;
    assert n / 100 == 10 * a + b && n / 10 % 10 == c;
    assert n / 1000 == a && n / 100 % 10 == b;
  }

  lemma Pad4Value(n: int)
    requires 0 <= n <= 9999
    ensures DigitsValue(Pad4(n)) == n
  {
    var s := Pad4(n);
    DigitsValue4(s);
    assert n == 10 * (n / 10) + n % 10;
    assert n / 10 == 10 * (n / 100) + n / 10 % 10;
    assert n / 100 == 10 * (n / 1000) + n / 100 % 10;
  }

  lemma Pad2Digits(a: char, b: char)
    requires IsDigit(a) && IsDigit(b)
    ensures Pad2(10 * DigitValue(a) + DigitValue(b)) == [a, b]
  {
  }

  /** Round trip: formatting a valid date and parsing it back gives the date. */
  lemma ParseFormatted(d: Date)
    requires IsValid(d)
    ensures Strptime(FormatIso(d)) == Parsed(d)
  {
    var s := FormatIso(d);
    assert s[..4] == Pad4(d.year);
    Pad4Value(d.year);
    assert s[5..][..3] == Pad2(d.month) + "-";
    assert s[8..] == Pad2(d.day);
  }

  /** Month 13 matches none of the `%m` alternatives, so the whole pattern fails. */
  lemma MonthThirteenNoMatch(s: string)
    requires IsIsoShape(s) && s[5] == '1' && s[6] == '3'
    ensures Strptime(s) == NoMatch
  {
    var t := s[5..];
    assert t[0] == '1' && t[1] == '3';
    assert MonthField(t) == None;
  }

  lemma MonthOfShape(s: string)
    requires IsIsoShape(s) && MonthField(s[5..]).Some?
    ensures MonthField(s[5..]).value == (10 * DigitValue(s[5]) + DigitValue(s[6]), 2)
  {
    var t := s[5..];
    assert t[0] == s[5] && t[1] == s[6] && t[2] == s[7];
    assert IsDigit(s[6]);
  }

  lemma DayOfShape(s: string)
    requires IsIsoShape(s) && DayField(s[8..]).Some? && DayField(s[8..]).value.1 == 2
    ensures DayField(s[8..]).value.0 == 10 * DigitValue(s[8]) + DigitValue(s[9])
  {
    var t := s[8..];
    assert t[0] == s[8] && t[1] == s[9];
    assert IsDigit(s[8]) && IsDigit(s[9]);
  }

  /** Conversely, a string of the shape `\d{4}-\d{2}-\d{2}` that parses is the
      formatted form of the date it denotes. */
  lemma FormatParsed(s: string)
    requires IsIsoShape(s) && Strptime(s).Parsed?
    ensures FormatIso(Strptime(s).date) == s
  {
    var d := Strptime(s).date;
    MonthOfShape(s);
    assert s[5 + 2 + 1..] == s[8..];
    DayOfShape(s);
    Pad4Digits(s[..4]);
    assert IsDigit(s[5]) && IsDigit(s[6]);
    Pad2Digits(s[5], s[6]);
    Pad2Digits(s[8], s[9]);
    assert Pad2(d.month) == s[5..7];
    assert Pad2(d.day) == s[8..];
    assert s == s[..4] + "-" + s[5..7] + "-" + s[8..];
  }
}

=== FILE: countries.dfy ===
/** The ISO 3166-1 country table and the two lookups built on it. */
module Countries {
  import opened Wrappers
  import opened Text

  /** One row of the table: an alpha-2 key, a name and an alpha-3 code. The codes are kept
      letter by letter, so that their lengths (2 and 3) are part of the type. */
  datatype Country = Country(k0: char, k1: char, name: string, c0: char, c1: char, c2: char) {
    function Alpha2(): (r: string)
      ensures |r| == 2
    {
      [k0, k1]
    }

    function Alpha3(): (r: string)
      ensures |r| == 3
    {
      [c0, c1, c2]
    }
  }

  /** `COUNTRIES`, in the order of its definition (249 rows, distinct keys). */
  function Table(): seq<Country>
  {
    [
      Country('A', 'F', "Afghanistan", 'A', 'F', 'G'),
      Country('A', 'X', "Åland Islands", 'A', 'L', 'A'),
      Country('A', 'L', "Albania", 'A', 'L', 'B'),
      Country('D', 'Z', "Algeria", 'D', 'Z', 'A'),
      Country('A', 'S', "American Samoa", 'A', 'S', 'M'),
      Country('A', 'D', "Andorra", 'A', 'N', 'D'),
      Country('A', 'O', "Angola", 'A', 'G', 'O'),
      Country('A', 'I', "Anguilla", 'A', 'I', 'A'),
      Country('A', 'Q', "Antarctica", 'A', 'T', 'A'),
      Country('A', 'G', "Antigua and Barbuda", 'A', 'T', 'G'),
      Country('A', 'R', "Argentina", 'A', 'R', 'G'),
      Country('A', 'M', "Armenia", 'A', 'R', 'M'),
      Country('A', 'W', "Aruba", 'A', 'B', 'W'),
      Country('A', 'U', "Australia", 'A', 'U', 'S'),
      Country('A', 'T', "Austria", 'A', 'U', 'T'),
      Country('A', 'Z', "Azerbaijan", 'A', 'Z', 'E'),
      Country('B', 'S', "Bahamas", 'B', 'H', 'S'),
      Country('B', 'H', "Bahrain", 'B', 'H', 'R'),
      Country('B', 'D', "Bangladesh", 'B', 'G', 'D'),
      Country('B', 'B', "Barbados", 'B', 'R', 'B'),
      Country('B', 'Y', "Belarus", 'B', 'L', 'R'),
      Country('B', 'E', "Belgium", 'B', 'E', 'L'),
      Country('B', 'Z', "Belize", 'B', 'L', 'Z'),
      Country('B', 'J', "Benin", 'B', 'E', 'N'),
      Country('B', 'M', "Bermuda", 'B', 'M', 'U'),
      Country('B', 'T', "Bhutan", 'B', 'T', 'N'),
      Country('B', 'O', "Bolivia (Plurinational State of)", 'B', 'O', 'L'),
      Country('B', 'Q', "Bonaire, Sint Eustatius and Saba", 'B', 'E', 'S'),
      Country('B', 'A', "Bosnia and Herzegovina", 'B', 'I', 'H'),
      Country('B', 'W', "Botswana", 'B', 'W', 'A'),
      Country('B', 'V', "Bouvet Island", 'B', 'V', 'T'),
      Country('B', 'R', "Brazil", 'B', 'R', 'A'),
      Country('I', 'O', "British Indian Ocean Territory", 'I', 'O', 'T'),
      Country('B', 'N', "Brunei Darussalam", 'B', 'R', 'N'),
      Country('B', 'G', "Bulgaria", 'B', 'G', 'R'),
      Country('B', 'F', "Burkina Faso", 'B', 'F', 'A'),
      Country('B', 'I', "Burundi", 'B', 'D', 'I'),
      Country('C', 'V', "Cabo Verde", 'C', 'P', 'V'),
      Country('K', 'H', "Cambodia", 'K', 'H', 'M'),
      Country('C', 'M', "Cameroon", 'C', 'M', 'R'),
      Country('C', 'A', "Canada", 'C', 'A', 'N'),
      Country('K', 'Y', "Cayman Islands", 'C', 'Y', 'M'),
      Country('C', 'F', "Central African Republic", 'C', 'A', 'F'),
      Country('T', 'D', "Chad", 'T', 'C', 'D'),
      Country('C', 'L', "Chile", 'C', 'H', 'L'),
      Country('C', 'N', "China", 'C', 'H', 'N'),
      Country('C', 'X', "Christmas Island", 'C', 'X', 'R'),
      Country('C', 'C', "Cocos (Keeling) Islands", 'C', 'C', 'K'),
      Country('C', 'O', "Colombia", 'C', 'O', 'L'),
      Country('K', 'M', "Comoros", 'C', 'O', 'M'),
      Country('C', 'G', "Congo", 'C', 'O', 'G'),
      Country('C', 'D', "Congo, Democratic Republic of the", 'C', 'O', 'D'),
      Country('C', 'K', "Cook Islands", 'C', 'O', 'K'),
      Country('C', 'R', "Costa Rica", 'C', 'R', 'I'),
      Country('C', 'I', "Côte d'Ivoire", 'C', 'I', 'V'),
      Country('H', 'R', "Croatia", 'H', 'R', 'V'),
      Country('C', 'U', "Cuba", 'C', 'U', 'B'),
      Country('C', 'W', "Curaçao", 'C', 'U', 'W'),
      Country('C', 'Y', "Cyprus", 'C', 'Y', 'P'),
      Country('C', 'Z', "Czechia", 'C', 'Z', 'E'),
      Country('D', 'K', "Denmark", 'D', 'N', 'K'),
      Country('D', 'J', "Djibouti", 'D', 'J', 'I'),
      Country('D', 'M', "Dominica", 'D', 'M', 'A'),
      Country('D', 'O', "Dominican Republic", 'D', 'O', 'M'),
      Country('E', 'C', "Ecuador", 'E', 'C', 'U'),
      Country('E', 'G', "Egypt", 'E', 'G', 'Y'),
      Country('S', 'V', "El Salvador", 'S', 'L', 'V'),
      Country('G', 'Q', "Equatorial Guinea", 'G', 'N', 'Q'),
      Country('E', 'R', "Eritrea", 'E', 'R', 'I'),
      Country('E', 'E', "Estonia", 'E', 'S', 'T'),
      Country('S', 'Z', "Eswatini", 'S', 'W', 'Z'),
      Country('E', 'T', "Ethiopia", 'E', 'T', 'H'),
      Country('F', 'K', "Falkland Islands (Malvinas)", 'F', 'L', 'K'),
      Country('F', 'O', "Faroe Islands", 'F', 'R', 'O'),
      Country('F', 'J', "Fiji", 'F', 'J', 'I'),
      Country('F', 'I', "Finland", 'F', 'I', 'N'),
      Country('F', 'R', "France", 'F', 'R', 'A'),
      Country('G', 'F', "French Guiana", 'G', 'U', 'F'),
      Country('P', 'F', "French Polynesia", 'P', 'Y', 'F'),
      Country('T', 'F', "French Southern Territories", 'A', 'T', 'F'),
      Country('G', 'A', "Gabon", 'G', 'A', 'B'),
      Country('G', 'M', "Gambia", 'G', 'M', 'B'),
      Country('G', 'E', "Georgia", 'G', 'E', 'O'),
      Country('D', 'E', "Germany", 'D', 'E', 'U'),
      Country('G', 'H', "Ghana", 'G', 'H', 'A'),
      Country('G', 'I', "Gibraltar", 'G', 'I', 'B'),
      Country('G', 'R', "Greece", 'G', 'R', 'C'),
      Country('G', 'L', "Greenland", 'G', 'R', 'L'),
      Country('G', 'D', "Grenada", 'G', 'R', 'D'),
      Country('G', 'P', "Guadeloupe", 'G', 'L', 'P'),
      Country('G', 'U', "Guam", 'G', 'U', 'M'),
      Country('G', 'T', "Guatemala", 'G', 'T', 'M'),
      Country('G', 'G', "Guernsey", 'G', 'G', 'Y'),
      Country('G', 'N', "Guinea", 'G', 'I', 'N'),
      Country('G', 'W', "Guinea-Bissau", 'G', 'N', 'B'),
      Country('G', 'Y', "Guyana", 'G', 'U', 'Y'),
      Country('H', 'T', "Haiti", 'H', 'T', 'I'),
      Country('H', 'M', "Heard Island and McDonald Islands", 'H', 'M', 'D'),
      Country('V', 'A', "Holy See", 'V', 'A', 'T'),
      Country('H', 'N', "Honduras", 'H', 'N', 'D'),
      Country('H', 'K', "Hong Kong", 'H', 'K', 'G'),
      Country('H', 'U', "Hungary", 'H', 'U', 'N'),
      Country('I', 'S', "Iceland", 'I', 'S', 'L'),
      Country('I', 'N', "India", 'I', 'N', 'D'),
      Country('I', 'D', "Indonesia", 'I', 'D', 'N'),
      Country('I', 'R', "Iran (Islamic Republic of)", 'I', 'R', 'N'),
      Country('I', 'Q', "Iraq", 'I', 'R', 'Q'),
      Country('I', 'E', "Ireland", 'I', 'R', 'L'),
      Country('I', 'M', "Isle of Man", 'I', 'M', 'N'),
      Country('I', 'L', "Israel", 'I', 'S', 'R'),
      Country('I', 'T', "Italy", 'I', 'T', 'A'),
      Country('J', 'M', "Jamaica", 'J', 'A', 'M'),
      Country('J', 'P', "Japan", 'J', 'P', 'N'),
      Country('J', 'E', "Jersey", 'J', 'E', 'Y'),
      Country('J', 'O', "Jordan", 'J', 'O', 'R'),
      Country('K', 'Z', "Kazakhstan", 'K', 'A', 'Z'),
      Country('K', 'E', "Kenya", 'K', 'E', 'N'),
      Country('K', 'I', "Kiribati", 'K', 'I', 'R'),
      Country('K', 'P', "Korea (Democratic People's Republic of)", 'P', 'R', 'K'),
      Country('K', 'R', "Korea, Republic of", 'K', 'O', 'R'),
      Country('K', 'W', "Kuwait", 'K', 'W', 'T'),
      Country('K', 'G', "Kyrgyzstan", 'K', 'G', 'Z'),
      Country('L', 'A', "Lao People's Democratic Republic", 'L', 'A', 'O'),
      Country('L', 'V', "Latvia", 'L', 'V', 'A'),
      Country('L', 'B', "Lebanon", 'L', 'B', 'N'),
      Country('L', 'S', "Lesotho", 'L', 'S', 'O'),
      Country('L', 'R', "Liberia", 'L', 'B', 'R'),
      Country('L', 'Y', "Libya", 'L', 'B', 'Y'),
      Country('L', 'I', "Liechtenstein", 'L', 'I', 'E'),
      Country('L', 'T', "Lithuania", 'L', 'T', 'U'),
      Country('L', 'U', "Luxembourg", 'L', 'U', 'X'),
      Country('M', 'O', "Macao", 'M', 'A', 'C'),
      Country('M', 'G', "Madagascar", 'M', 'D', 'G'),
      Country('M', 'W', "Malawi", 'M', 'W', 'I'),
      Country('M', 'Y', "Malaysia", 'M', 'Y', 'S'),
      Country('M', 'V', "Maldives", 'M', 'D', 'V'),
      Country('M', 'L', "Mali", 'M', 'L', 'I'),
      Country('M', 'T', "Malta", 'M', 'L', 'T'),
      Country('M', 'H', "Marshall Islands", 'M', 'H', 'L'),
      Country('M', 'Q', "Martinique", 'M', 'T', 'Q'),
      Country('M', 'R', "Mauritania", 'M', 'R', 'T'),
      Country('M', 'U', "Mauritius", 'M', 'U', 'S'),
      Country('Y', 'T', "Mayotte", 'M', 'Y', 'T'),
      Country('M', 'X', "Mexico", 'M', 'E', 'X'),
      Country('F', 'M', "Micronesia (Federated States of)", 'F', 'S', 'M'),
      Country('M', 'D', "Moldova, Republic of", 'M', 'D', 'A'),
      Country('M', 'C', "Monaco", 'M', 'C', 'O'),
      Country('M', 'N', "Mongolia", 'M', 'N', 'G'),
      Country('M', 'E', "Montenegro", 'M', 'N', 'E'),
      Country('M', 'S', "Montserrat", 'M', 'S', 'R'),
      Country('M', 'A', "Morocco", 'M', 'A', 'R'),
      Country('M', 'Z', "Mozambique", 'M', 'O', 'Z'),
      Country('M', 'M', "Myanmar", 'M', 'M', 'R'),
      Country('N', 'A', "Namibia", 'N', 'A', 'M'),
      Country('N', 'R', "Nauru", 'N', 'R', 'U'),
      Country('N', 'P', "Nepal", 'N', 'P', 'L'),
      Country('N', 'L', "Netherlands", 'N', 'L', 'D'),
      Country('N', 'C', "New Caledonia", 'N', 'C', 'L'),
      Country('N', 'Z', "New Zealand", 'N', 'Z', 'L'),
      Country('N', 'I', "Nicaragua", 'N', 'I', 'C'),
      Country('N', 'E', "Niger", 'N', 'E', 'R'),
      Country('N', 'G', "Nigeria", 'N', 'G', 'A'),
      Country('N', 'U', "Niue", 'N', 'I', 'U'),
      Country('N', 'F', "Norfolk Island", 'N', 'F', 'K'),
      Country('M', 'K', "North Macedonia", 'M', 'K', 'D'),
      Country('M', 'P', "Northern Mariana Islands", 'M', 'N', 'P'),
      Country('N', 'O', "Norway", 'N', 'O', 'R'),
      Country('O', 'M', "Oman", 'O', 'M', 'N'),
      Country('P', 'K', "Pakistan", 'P', 'A', 'K'),
      Country('P', 'W', "Palau", 'P', 'L', 'W'),
      Country('P', 'S', "Palestine, State of", 'P', 'S', 'E'),
      Country('P', 'A', "Panama", 'P', 'A', 'N'),
      Country('P', 'G', "Papua New Guinea", 'P', 'N', 'G'),
      Country('P', 'Y', "Paraguay", 'P', 'R', 'Y'),
      Country('P', 'E', "Peru", 'P', 'E', 'R'),
      Country('P', 'H', "Philippines", 'P', 'H', 'L'),
      Country('P', 'N', "Pitcairn", 'P', 'C', 'N'),
      Country('P', 'L', "Poland", 'P', 'O', 'L'),
      Country('P', 'T', "Portugal", 'P', 'R', 'T'),
      Country('P', 'R', "Puerto Rico", 'P', 'R', 'I'),
      Country('Q', 'A', "Qatar", 'Q', 'A', 'T'),
      Country('R', 'E', "Réunion", 'R', 'E', 'U'),
      Country('R', 'O', "Romania", 'R', 'O', 'U'),
      Country('R', 'U', "Russian Federation", 'R', 'U', 'S'),
      Country('R', 'W', "Rwanda", 'R', 'W', 'A'),
      Country('B', 'L', "Saint Barthélemy", 'B', 'L', 'M'),
      Country('S', 'H', "Saint Helena, Ascension and Tristan da Cunha", 'S', 'H', 'N'),
      Country('K', 'N', "Saint Kitts and Nevis", 'K', 'N', 'A'),
      Country('L', 'C', "Saint Lucia", 'L', 'C', 'A'),
      Country('M', 'F', "Saint Martin (French part)", 'M', 'A', 'F'),
      Country('P', 'M', "Saint Pierre and Miquelon", 'S', 'P', 'M'),
      Country('V', 'C', "Saint Vincent and the Grenadines", 'V', 'C', 'T'),
      Country('W', 'S', "Samoa", 'W', 'S', 'M'),
      Country('S', 'M', "San Marino", 'S', 'M', 'R'),
      Country('S', 'T', "Sao Tome and Principe", 'S', 'T', 'P'),
      Country('S', 'A', "Saudi Arabia", 'S', 'A', 'U'),
      Country('S', 'N', "Senegal", 'S', 'E', 'N'),
      Country('R', 'S', "Serbia", 'S', 'R', 'B'),
      Country('S', 'C', "Seychelles", 'S', 'Y', 'C'),
      Country('S', 'L', "Sierra Leone", 'S', 'L', 'E'),
      Country('S', 'G', "Singapore", 'S', 'G', 'P'),
      Country('S', 'X', "Sint Maarten (Dutch part)", 'S', 'X', 'M'),
      Country('S', 'K', "Slovakia", 'S', 'V', 'K'),
      Country('S', 'I', "Slovenia", 'S', 'V', 'N'),
      Country('S', 'B', "Solomon Islands", 'S', 'L', 'B'),
      Country('S', 'O', "Somalia", 'S', 'O', 'M'),
      Country('Z', 'A', "South Africa", 'Z', 'A', 'F'),
      Country('G', 'S', "South Georgia and the South Sandwich Islands", 'S', 'G', 'S'),
      Country('S', 'S', "South Sudan", 'S', 'S', 'D'),
      Country('E', 'S', "Spain", 'E', 'S', 'P'),
      Country('L', 'K', "Sri Lanka", 'L', 'K', 'A'),
      Country('S', 'D', "Sudan", 'S', 'D', 'N'),
      Country('S', 'R', "Suriname", 'S', 'U', 'R'),
      Country('S', 'J', "Svalbard and Jan Mayen", 'S', 'J', 'M'),
      Country('S', 'E', "Sweden", 'S', 'W', 'E'),
      Country('C', 'H', "Switzerland", 'C', 'H', 'E'),
      Country('S', 'Y', "Syrian Arab Republic", 'S', 'Y', 'R'),
      Country('T', 'W', "Taiwan, Province of China", 'T', 'W', 'N'),
      Country('T', 'J', "Tajikistan", 'T', 'J', 'K'),
      Country('T', 'Z', "Tanzania, United Republic of", 'T', 'Z', 'A'),
      Country('T', 'H', "Thailand", 'T', 'H', 'A'),
      Country('T', 'L', "Timor-Leste", 'T', 'L', 'S'),
      Country('T', 'G', "Togo", 'T', 'G', 'O'),
      Country('T', 'K', "Tokelau", 'T', 'K', 'L'),
      Country('T', 'O', "Tonga", 'T', 'O', 'N'),
      Country('T', 'T', "Trinidad and Tobago", 'T', 'T', 'O'),
      Country('T', 'N', "Tunisia", 'T', 'U', 'N'),
      Country('T', 'R', "Türkiye", 'T', 'U', 'R'),
      Country('T', 'M', "Turkmenistan", 'T', 'K', 'M'),
      Country('T', 'C', "Turks and Caicos Islands", 'T', 'C', 'A'),
      Country('T', 'V', "Tuvalu", 'T', 'U', 'V'),
      Country('U', 'G', "Uganda", 'U', 'G', 'A'),
      Country('U', 'A', "Ukraine", 'U', 'K', 'R'),
      Country('A', 'E', "United Arab Emirates", 'A', 'R', 'E'),
      Country('G', 'B', "United Kingdom of Great Britain and Northern Ireland", 'G', 'B', 'R'),
      Country('U', 'S', "United States of America", 'U', 'S', 'A'),
      Country('U', 'M', "United States Minor Outlying Islands", 'U', 'M', 'I'),
      Country('U', 'Y', "Uruguay", 'U', 'R', 'Y'),
      Country('U', 'Z', "Uzbekistan", 'U', 'Z', 'B'),
      Country('V', 'U', "Vanuatu", 'V', 'U', 'T'),
      Country('V', 'E', "Venezuela (Bolivarian Republic of)", 'V', 'E', 'N'),
      Country('V', 'N', "Viet Nam", 'V', 'N', 'M'),
      Country('V', 'G', "Virgin Islands (British)", 'V', 'G', 'B'),
      Country('V', 'I', "Virgin Islands (U.S.)", 'V', 'I', 'R'),
      Country('W', 'F', "Wallis and Futuna", 'W', 'L', 'F'),
      Country('E', 'H', "Western Sahara", 'E', 'S', 'H'),
      Country('Y', 'E', "Yemen", 'Y', 'E', 'M'),
      Country('Z', 'M', "Zambia", 'Z', 'M', 'B'),
      Country('Z', 'W', "Zimbabwe", 'Z', 'W', 'E')
    ]
  }

  /** `c` is the alpha-2 key or the alpha-3 code of some row of `t`. */
  predicate IsCodeOf(t: seq<Country>, c: string) {
    exists k :: 0 <= k < |t| && (t[k].Alpha2() == c || t[k].Alpha3() == c)
  }

  /** `VALID_COUNTRY_CODES` of a table: the alpha-2 keys together with the alpha-3 codes. */
  function ValidCodes(t: seq<Country>): (r: set<string>)
    ensures forall c :: c in r <==> IsCodeOf(t, c)
    ensures forall c :: c in r ==> |c| == 2 || |c| == 3
  {
    var r := (set e | e in t :: e.Alpha2()) + (set e | e in t :: e.Alpha3());
    assert forall c :: IsCodeOf(t, c) ==> c in r by {
      forall c | IsCodeOf(t, c) ensures c in r {
        var k :| 0 <= k < |t| && (t[k].Alpha2() == c || t[k].Alpha3() == c);
        assert t[k] in t;
      }
    }
    r
  }

  /** `is_valid_country_code` against table `t`: false for a falsy or non-string value,
      otherwise whether the upper-cased text is a code of the table. */
  function IsValidCodeIn(t: seq<Country>, v: PyValue): (ok: bool)
    ensures ok <==> v.PyStr? && v.s != "" && IsCodeOf(t, Upper(v.s))
    ensures ok ==> |v.s| == 2 || |v.s| == 3
  {
    !v.IsFalsy() && v.PyStr? && Upper(v.s) in ValidCodes(t)
  }

  /** The first row whose alpha-2 key is `code` (a dictionary lookup, the keys being distinct). */
  function FindAlpha2(t: seq<Country>, code: string): (r: Option<nat>)
    ensures r.Some? ==> r.value < |t| && t[r.value].Alpha2() == code
    ensures r.Some? ==> forall j :: 0 <= j < r.value ==> t[j].Alpha2() != code
    ensures r.None? <==> forall j :: 0 <= j < |t| ==> t[j].Alpha2() != code
  {
    if |t| == 0 then None
    else if t[0].Alpha2() == code then Some(0)
    else match FindAlpha2(t[1..], code)
      case None => None
      case Some(k) => Some(k + 1)
  }

  /** The first row, in table order, whose alpha-3 code is `code`. */
  function FindAlpha3(t: seq<Country>, code: string): (r: Option<nat>)
    ensures r.Some? ==> r.value < |t| && t[r.value].Alpha3() == code
    ensures r.Some? ==> forall j :: 0 <= j < r.value ==> t[j].Alpha3() != code
    ensures r.None? <==> forall j :: 0 <= j < |t| ==> t[j].Alpha3() != code
  {
    if |t| == 0 then None
    else if t[0].Alpha3() == code then Some(0)
    else match FindAlpha3(t[1..], code)
      case None => None
      case Some(k) => Some(k + 1)
  }

  /** The dictionary `get_country_info` returns: a fresh copy of a row plus its alpha-2 key. */
  datatype CountryInfo = CountryInfo(name: string, alpha2: string, alpha3: string)

  function InfoOf(c: Country): CountryInfo {
    CountryInfo(c.name, c.Alpha2(), c.Alpha3())
  }

  /** `get_country_info` against table `t`: `None` for a falsy or non-string value; then the
      row keyed by the upper-cased code; then the first row carrying it as alpha-3 code. */
  function CountryInfoIn(t: seq<Country>, v: PyValue): (r: Option<CountryInfo>)
    ensures r.Some? ==> v.PyStr? && (r.value.alpha2 == Upper(v.s) || r.value.alpha3 == Upper(v.s))
    ensures r.Some? ==> exists k :: 0 <= k < |t| && r.value == InfoOf(t[k])
  {
    if v.IsFalsy() || !v.PyStr? then None
    else
      var code := Upper(v.s);
      match FindAlpha2(t, code)
      case Some(k) => Some(InfoOf(t[k]))
      case None =>
        match FindAlpha3(t, code)
        case Some(k) => Some(InfoOf(t[k]))
        case None => None
  }

  /** A lookup fails exactly when the code is not valid. */
  lemma InfoNoneIff(t: seq<Country>, v: PyValue)
    ensures CountryInfoIn(t, v).None? <==> !IsValidCodeIn(t, v)
  {
    if v.PyStr? && !v.IsFalsy() {
      var code := Upper(v.s);
      if code in ValidCodes(t) {
        var k :| 0 <= k < |t| && (t[k].Alpha2() == code || t[k].Alpha3() == code);
        if FindAlpha2(t, code).None? {
          assert t[k].Alpha3() == code;
        }
      }
    }
  }

  /** An alpha-2 input gives the row with that key, its alpha-2 field being the upper-cased
      input. */
  lemma InfoOfAlpha2(t: seq<Country>, s: string)
    requires |s| > 0 && FindAlpha2(t, Upper(s)).Some?
    ensures CountryInfoIn(t, PyStr(s)) == Some(InfoOf(t[FindAlpha2(t, Upper(s)).value]))
    ensures CountryInfoIn(t, PyStr(s)).value.alpha2 == Upper(s)
  {
  }

  /** A valid three-letter input gives a row whose alpha-3 code is the upper-cased input and
      whose alpha-2 field is that row's key; it is the first such row. */
  lemma InfoOfAlpha3(t: seq<Country>, s: string)
    requires |s| == 3 && IsValidCodeIn(t, PyStr(s))
    ensures var r := CountryInfoIn(t, PyStr(s));
      r.Some? && r.value.alpha3 == Upper(s)
      && exists k :: 0 <= k < |t| && t[k].Alpha2() == r.value.alpha2 && t[k].Alpha3() == Upper(s)
           && (forall j :: 0 <= j < k ==> t[j].Alpha3() != Upper(s))
  {
    InfoNoneIff(t, PyStr(s));
    assert FindAlpha2(t, Upper(s)).None?;
    var k := FindAlpha3(t, Upper(s)).value;
    assert t[k].Alpha2() == CountryInfoIn(t, PyStr(s)).value.alpha2;
  }

  /** Validity ignores letter case. */
  lemma ValidCodeIgnoresCase(t: seq<Country>, s: string)
    ensures IsValidCodeIn(t, PyStr(s)) == IsValidCodeIn(t, PyStr(Upper(s)))
    ensures IsValidCodeIn(t, PyStr(s)) == IsValidCodeIn(t, PyStr(Lower(s)))
  {
    UpperIdempotent(s);
    UpperOfLower(s);
  }

  // ---------------------------------------------------------------------------
  // The repository's table. Every property above is proved for an arbitrary table, so
  // these instances carry no contract of their own.

  /** `is_valid_country_code(code)`. */
  predicate IsValidCountryCode(v: PyValue) {
    IsValidCodeIn(Table(), v)
  }

  /** `get_country_info(code)`. */
  function GetCountryInfo(v: PyValue): Option<CountryInfo> {
    CountryInfoIn(Table(), v)
  }
}

=== FILE: eu_convert.dfy ===
/** The pure helpers of the EU converter: country-code names, the address and identity-document
    lines, the record type from the subject type, and the name fallbacks. */
module EuConvert {
  import opened Wrappers
  import opened Text

  /** A cell of the pandas row: the column is absent, holds NaN, or holds a string. */
  datatype Cell = Absent | Nan | Val(s: string) {
    /** `pd.notna(row.get(column))`. */
    predicate NotNa() { Val? }
  }

  /** One entry of `COUNTRY_CODES`: a two-letter code and a country name. The converter keeps
      its own table, apart from the application's country table in `Countries`, with its own
      entries and spellings, so it is modelled as a table of its own. */
  datatype CodeName = CodeName(k0: char, k1: char, name: string) {
    function Code(): (r: string)
      ensures |r| == 2
    {
      [k0, k1]
    }
  }

  /** `COUNTRY_CODES`, in the order of its definition (198 entries, distinct codes). */
  function CountryCodes(): seq<CodeName>
  {
    [
      CodeName('A', 'F', "Afghanistan"),
      CodeName('A', 'L', "Albania"),
      CodeName('D', 'Z', "Algeria"),
      CodeName('A', 'D', "Andorra"),
      CodeName('A', 'O', "Angola"),
      CodeName('A', 'G', "Antigua and Barbuda"),
      CodeName('A', 'R', "Argentina"),
      CodeName('A', 'M', "Armenia"),
      CodeName('A', 'U', "Australia"),
      CodeName('A', 'T', "Austria"),
      CodeName('A', 'Z', "Azerbaijan"),
      CodeName('B', 'S', "Bahamas"),
      CodeName('B', 'H', "Bahrain"),
      CodeName('B', 'D', "Bangladesh"),
      CodeName('B', 'B', "Barbados"),
      CodeName('B', 'Y', "Belarus"),
      CodeName('B', 'E', "Belgium"),
      CodeName('B', 'Z', "Belize"),
      CodeName('B', 'J', "Benin"),
      CodeName('B', 'T', "Bhutan"),
      CodeName('B', 'O', "Bolivia"),
      CodeName('B', 'A', "Bosnia and Herzegovina"),
      CodeName('B', 'W', "Botswana"),
      CodeName('B', 'R', "Brazil"),
      CodeName('B', 'N', "Brunei Darussalam"),
      CodeName('B', 'G', "Bulgaria"),
      CodeName('B', 'F', "Burkina Faso"),
      CodeName('B', 'I', "Burundi"),
      CodeName('C', 'V', "Cabo Verde"),
      CodeName('K', 'H', "Cambodia"),
      CodeName('C', 'M', "Cameroon"),
      CodeName('C', 'A', "Canada"),
      CodeName('C', 'F', "Central African Republic"),
      CodeName('T', 'D', "Chad"),
      CodeName('C', 'L', "Chile"),
      CodeName('C', 'N', "China"),
      CodeName('C', 'O', "Colombia"),
      CodeName('K', 'M', "Comoros"),
      CodeName('C', 'G', "Congo"),
      CodeName('C', 'D', "Democratic Republic of the Congo"),
      CodeName('C', 'R', "Costa Rica"),
      CodeName('C', 'I', "Côte d'Ivoire"),
      CodeName('H', 'R', "Croatia"),
      CodeName('C', 'U', "Cuba"),
      CodeName('C', 'Y', "Cyprus"),
      CodeName('C', 'Z', "Czech Republic"),
      CodeName('D', 'K', "Denmark"),
      CodeName('D', 'J', "Djibouti"),
      CodeName('D', 'M', "Dominica"),
      CodeName('D', 'O', "Dominican Republic"),
      CodeName('E', 'C', "Ecuador"),
      CodeName('E', 'G', "Egypt"),
      CodeName('S', 'V', "El Salvador"),
      CodeName('G', 'Q', "Equatorial Guinea"),
      CodeName('E', 'R', "Eritrea"),
      CodeName('E', 'E', "Estonia"),
      CodeName('S', 'Z', "Eswatini"),
      CodeName('E', 'T', "Ethiopia"),
      CodeName('F', 'J', "Fiji"),
      CodeName('F', 'I', "Finland"),
      CodeName('F', 'R', "France"),
      CodeName('G', 'A', "Gabon"),
      CodeName('G', 'M', "Gambia"),
      CodeName('G', 'E', "Georgia"),
      CodeName('D', 'E', "Germany"),
      CodeName('G', 'H', "Ghana"),
      CodeName('G', 'R', "Greece"),
      CodeName('G', 'D', "Grenada"),
      CodeName('G', 'T', "Guatemala"),
      CodeName('G', 'N', "Guinea"),
      CodeName('G', 'W', "Guinea-Bissau"),
      CodeName('G', 'Y', "Guyana"),
      CodeName('H', 'T', "Haiti"),
      CodeName('H', 'N', "Honduras"),
      CodeName('H', 'U', "Hungary"),
      CodeName('I', 'S', "Iceland"),
      CodeName('I', 'N', "India"),
      CodeName('I', 'D', "Indonesia"),
      CodeName('I', 'R', "Iran"),
      CodeName('I', 'Q', "Iraq"),
      CodeName('I', 'E', "Ireland"),
      CodeName('I', 'L', "Israel"),
      CodeName('I', 'T', "Italy"),
      CodeName('J', 'M', "Jamaica"),
      CodeName('J', 'P', "Japan"),
      CodeName('J', 'O', "Jordan"),
      CodeName('K', 'Z', "Kazakhstan"),
      CodeName('K', 'E', "Kenya"),
      CodeName('K', 'I', "Kiribati"),
      CodeName('K', 'P', "Korea (Democratic People's Republic of)"),
      CodeName('K', 'R', "Korea, Republic of"),
      CodeName('K', 'W', "Kuwait"),
      CodeName('K', 'G', "Kyrgyzstan"),
      CodeName('L', 'A', "Lao People's Democratic Republic"),
      CodeName('L', 'V', "Latvia"),
      CodeName('L', 'B', "Lebanon"),
      CodeName('L', 'S', "Lesotho"),
      CodeName('L', 'R', "Liberia"),
      CodeName('L', 'Y', "Libya"),
      CodeName('L', 'I', "Liechtenstein"),
      CodeName('L', 'T', "Lithuania"),
      CodeName('L', 'U', "Luxembourg"),
      CodeName('M', 'G', "Madagascar"),
      CodeName('M', 'W', "Malawi"),
      CodeName('M', 'Y', "Malaysia"),
      CodeName('M', 'V', "Maldives"),
      CodeName('M', 'L', "Mali"),
      CodeName('M', 'T', "Malta"),
      CodeName('M', 'H', "Marshall Islands"),
      CodeName('M', 'R', "Mauritania"),
      CodeName('M', 'U', "Mauritius"),
      CodeName('M', 'X', "Mexico"),
      CodeName('F', 'M', "Micronesia (Federated States of)"),
      CodeName('M', 'C', "Monaco"),
      CodeName('M', 'N', "Mongolia"),
      CodeName('M', 'E', "Montenegro"),
      CodeName('M', 'A', "Morocco"),
      CodeName('M', 'Z', "Mozambique"),
      CodeName('M', 'M', "Myanmar"),
      CodeName('N', 'A', "Namibia"),
      CodeName('N', 'R', "Nauru"),
      CodeName('N', 'P', "Nepal"),
      CodeName('N', 'L', "Netherlands"),
      CodeName('N', 'Z', "New Zealand"),
      CodeName('N', 'I', "Nicaragua"),
      CodeName('N', 'E', "Niger"),
      CodeName('N', 'G', "Nigeria"),
      CodeName('M', 'K', "North Macedonia"),
      CodeName('N', 'O', "Norway"),
      CodeName('O', 'M', "Oman"),
      CodeName('P', 'K', "Pakistan"),
      CodeName('P', 'W', "Palau"),
      CodeName('P', 'A', "Panama"),
      CodeName('P', 'G', "Papua New Guinea"),
      CodeName('P', 'Y', "Paraguay"),
      CodeName('P', 'E', "Peru"),
      CodeName('P', 'H', "Philippines"),
      CodeName('P', 'L', "Poland"),
      CodeName('P', 'T', "Portugal"),
      CodeName('Q', 'A', "Qatar"),
      CodeName('R', 'O', "Romania"),
      CodeName('R', 'U', "Russian Federation"),
      CodeName('R', 'W', "Rwanda"),
      CodeName('K', 'N', "Saint Kitts and Nevis"),
      CodeName('L', 'C', "Saint Lucia"),
      CodeName('V', 'C', "Saint Vincent and the Grenadines"),
      CodeName('W', 'S', "Samoa"),
      CodeName('S', 'M', "San Marino"),
      CodeName('S', 'T', "Sao Tome and Principe"),
      CodeName('S', 'A', "Saudi Arabia"),
      CodeName('S', 'N', "Senegal"),
      CodeName('R', 'S', "Serbia"),
      CodeName('S', 'C', "Seychelles"),
      CodeName('S', 'L', "Sierra Leone"),
      CodeName('S', 'G', "Singapore"),
      CodeName('S', 'K', "Slovakia"),
      CodeName('S', 'I', "Slovenia"),
      CodeName('S', 'B', "Solomon Islands"),
      CodeName('S', 'O', "Somalia"),
      CodeName('Z', 'A', "South Africa"),
      CodeName('S', 'S', "South Sudan"),
      CodeName('E', 'S', "Spain"),
      CodeName('L', 'K', "Sri Lanka"),
      CodeName('S', 'D', "Sudan"),
      CodeName('S', 'R', "Suriname"),
      CodeName('S', 'E', "Sweden"),
      CodeName('C', 'H', "Switzerland"),
      CodeName('S', 'Y', "Syrian Arab Republic"),
      CodeName('T', 'J', "Tajikistan"),
      CodeName('T', 'Z', "Tanzania, United Republic of"),
      CodeName('T', 'H', "Thailand"),
      CodeName('T', 'L', "Timor-Leste"),
      CodeName('T', 'G', "Togo"),
      CodeName('T', 'O', "Tonga"),
      CodeName('T', 'T', "Trinidad and Tobago"),
      CodeName('T', 'N', "Tunisia"),
      CodeName('T', 'R', "Türkiye"),
      CodeName('T', 'M', "Turkmenistan"),
      CodeName('T', 'V', "Tuvalu"),
      CodeName('U', 'G', "Uganda"),
      CodeName('U', 'A', "Ukraine"),
      CodeName('A', 'E', "United Arab Emirates"),
      CodeName('G', 'B', "United Kingdom of Great Britain and Northern Ireland"),
      CodeName('U', 'S', "United States of America"),
      CodeName('U', 'Y', "Uruguay"),
      CodeName('U', 'Z', "Uzbekistan"),
      CodeName('V', 'U', "Vanuatu"),
      CodeName('V', 'A', "Holy See"),
      CodeName('V', 'E', "Venezuela (Bolivarian Republic of)"),
      CodeName('V', 'N', "Viet Nam"),
      CodeName('Y', 'E', "Yemen"),
      CodeName('Z', 'M', "Zambia"),
      CodeName('Z', 'W', "Zimbabwe"),
      CodeName('T', 'W', "Taiwan, Province of China"),
      CodeName('H', 'K', "Hong Kong"),
      CodeName('M', 'O', "Macao"),
      CodeName('P', 'S', "Palestine, State of"),
      CodeName('X', 'K', "Kosovo")
    ]
  }

  /** `COUNTRY_CODES.get(code)`: the name of the first entry with that code. */
  function LookupName(t: seq<CodeName>, code: string): (r: Option<string>)
    ensures r.Some? <==> exists k :: 0 <= k < |t| && t[k].Code() == code
    ensures r.Some? ==> exists k :: 0 <= k < |t| && t[k].Code() == code && t[k].name == r.value
  {
    if |t| == 0 then None
    else if t[0].Code() == code then Some(t[0].name)
    else
      var r := LookupName(t[1..], code);
      assert forall k :: 1 <= k < |t| ==> t[k] == t[1..][k - 1];
      r
  }

  /** `get_country_name` over a code table `t`: "" for a missing, empty or non-string value;
      otherwise the name the table gives the upper-cased, stripped code, or that code itself. */
  function CountryNameIn(t: seq<CodeName>, v: PyValue): (r: string)
    ensures !v.PyStr? || v.s == "" ==> r == ""
    ensures v.PyStr? && v.s != "" ==>
      var code := Strip(Upper(v.s));
      r == LookupName(t, code).GetOr(code)
  {
    if !v.PyStr? || |v.s| == 0 then ""
    else
      var code := Strip(Upper(v.s));
      LookupName(t, code).GetOr(code)
  }

  /** The country name ignores letter case. */
  lemma CountryNameIgnoresCase(t: seq<CodeName>, s: string)
    ensures CountryNameIn(t, PyStr(Lower(s))) == CountryNameIn(t, PyStr(s))
  {
    UpperOfLower(s);
  }

  /** A known code, in any case and with surrounding whitespace, gives the table's name; an
      unknown one comes back upper-cased and stripped. */
  lemma CountryNameKnown(t: seq<CodeName>, s: string)
    requires |s| > 0
    ensures var code := Strip(Upper(s));
      (forall k :: 0 <= k < |t| && t[k].Code() == code ==>
        exists j :: 0 <= j < |t| && t[j].Code() == code && CountryNameIn(t, PyStr(s)) == t[j].name)
      && ((forall k :: 0 <= k < |t| ==> t[k].Code() != code) ==> CountryNameIn(t, PyStr(s)) == code)
  {
  }

  /** `get_country_name` with the converter's table. */
  function GetCountryName(v: PyValue): string {
    CountryNameIn(CountryCodes(), v)
  }

  // ---------------------------------------------------------------------------
  // Cleaning

  /** `clean_name` on printable text: "" for NaN or blank input, else whitespace runs
      collapsed to one space with the ends trimmed. */
  function CleanName(c: Cell): (r: string)
    ensures !c.Val? ==> r == ""
    ensures Collapsed(r)
  {
    if !c.Val? || |Strip(c.s)| == 0 then ""
    else
      CollapseSpacesCollapsed(c.s);
      CollapseSpaces(c.s)
  }

  /** The cleaned name is blank exactly when the input is, and keeps its words. */
  lemma CleanNameWords(s: string)
    ensures Words(CleanName(Val(s))) == Words(s)
    ensures CleanName(Val(s)) == "" <==> Words(s) == []
  {
    WordsOfCollapse(s);
    if |Strip(s)| == 0 {
      BlankWords(s);
    }
    JoinEmpty(" ", Words(s));
  }

  /** A string of whitespace has no words. */
  lemma {:induction false} BlankWords(s: string)
    requires forall i :: 0 <= i < |s| ==> IsSpace(s[i])
    ensures Words(s) == []
    decreases |s|
  {
    if |s| > 0 {
      BlankWords(s[1..]);
    }
  }

  // ---------------------------------------------------------------------------
  // Address and identification

  /** An address cell's contribution: its stripped text when present, else "". */
  function AddressPart(c: Cell): string {
    if c.Val? then Strip(c.s) else ""
  }

  /** The address line from the stripped parts: the non-blank parts joined by ", ", or the
      place when every part is blank. */
  function AddressLine(parts: seq<string>, place: string): (r: string)
    ensures r == "" <==> (forall k :: 0 <= k < |parts| ==> parts[k] == "") && place == ""
  {
    NonEmptyEmptyIff(parts);
    NonEmptyEmptyIff([place]);
    assert [place][0] == place;
    JoinEmpty(", ", NonEmpty(parts));
    JoinEmpty(", ", NonEmpty([place]));
    var kept := NonEmpty(parts);
    Join(", ", if |kept| == 0 then NonEmpty([place]) else kept)
  }

  /** `extract_addresses`: the street, city, region, postal code and country, or the place. */
  function ExtractAddresses(street: Cell, city: Cell, region: Cell, zipCode: Cell, country: Cell, place: Cell)
    : (r: string)
    ensures r == "" <==>
      (AddressPart(street) == "" && AddressPart(city) == "" && AddressPart(region) == ""
       && AddressPart(zipCode) == "" && AddressPart(country) == "" && AddressPart(place) == "")
  {
    var parts := [AddressPart(street), AddressPart(city), AddressPart(region), AddressPart(zipCode),
                  AddressPart(country)];
    assert (forall k :: 0 <= k < |parts| ==> parts[k] == "") <==>
      parts[0] == "" && parts[1] == "" && parts[2] == "" && parts[3] == "" && parts[4] == "";
    AddressLine(parts, AddressPart(place))
  }

  /** With a non-blank part the place is not read: the line is the non-blank parts joined. */
  lemma AddressLineIgnoresPlace(parts: seq<string>, place: string, j: nat)
    requires j < |parts| && parts[j] != ""
    ensures AddressLine(parts, place) == Join(", ", NonEmpty(parts))
  {
    NonEmptyEmptyIff(parts);
  }

  /** With every part blank the line is the place alone. */
  lemma AddressLineOnlyPlace(parts: seq<string>, place: string)
    requires forall k :: 0 <= k < |parts| ==> parts[k] == ""
    ensures AddressLine(parts, place) == place
  {
    NonEmptyEmptyIff(parts);
    if place == "" {
      NonEmptyEmptyIff([place]);
    } else {
      assert NonEmpty([place]) == [place] + NonEmpty([place][1..]);
      assert [place][1..] == [];
    }
  }

  /** The document type: "ID" when the column is absent, else the cleaned description. */
  function IdType(typeDescription: Cell): (r: string)
    ensures typeDescription.Absent? ==> r == "ID"
  {
    if typeDescription.Absent? then IdLabel() else CleanName(typeDescription)
  }

  /** The label of a document without a type column. */
  function IdLabel(): (r: string)
    ensures r == "ID"
  {
    assert Strip("ID") == "ID" && Words("ID") == ["ID"] by {
      SplitToken("ID", IsSpace);
    }
    CleanName(Val("ID"))
  }

  /** The issuing country in parentheses: its description when present, else the name of its
      ISO code, else nothing. */
  function CountrySuffix(t: seq<CodeName>, countryDescription: Cell, countryIso2: Cell): (r: string)
    ensures countryDescription.Val? ==> r == " (" + countryDescription.s + ")"
    ensures !countryDescription.Val? && countryIso2.Val? ==>
      r == " (" + CountryNameIn(t, PyStr(countryIso2.s)) + ")"
    ensures !countryDescription.Val? && !countryIso2.Val? ==> r == ""
  {
    if countryDescription.Val? then " (" + countryDescription.s + ")"
    else if countryIso2.Val? then " (" + CountryNameIn(t, PyStr(countryIso2.s)) + ")"
    else ""
  }

  /** `extract_identification`: "" unless the document number is present and non-blank;
      else "<type>: <number>" and the issuing country in parentheses, taken from its
      description when present, else from its ISO code through the country table. */
  function ExtractIdentificationIn(t: seq<CodeName>, number: Cell, typeDescription: Cell,
                                   countryDescription: Cell, countryIso2: Cell): (r: string)
  {
    if !number.Val? || |Strip(number.s)| == 0 then ""
    else IdType(typeDescription) + ": " + Strip(number.s) + CountrySuffix(t, countryDescription, countryIso2)
  }

  /** The identification is "" exactly when the number is missing or blank; otherwise it is
      the type, ": ", the stripped number and the country suffix. */
  lemma IdentificationShape(t: seq<CodeName>, number: Cell, typeDescription: Cell,
                            countryDescription: Cell, countryIso2: Cell)
    ensures var r := ExtractIdentificationIn(t, number, typeDescription, countryDescription, countryIso2);
      (r == "" <==> !number.Val? || Strip(number.s) == "")
      && (number.Val? && Strip(number.s) != "" ==>
            r == IdType(typeDescription) + ": " + Strip(number.s)
                 + CountrySuffix(t, countryDescription, countryIso2))
  {
  }

  /** A country description wins over the ISO code. */
  lemma IdentificationPrefersDescription(t: seq<CodeName>, number: Cell, typeDescription: Cell,
                                         description: string, iso1: Cell, iso2: Cell)
    ensures ExtractIdentificationIn(t, number, typeDescription, Val(description), iso1)
      == ExtractIdentificationIn(t, number, typeDescription, Val(description), iso2)
  {
  }

  /** `extract_identification` with the converter's table. */
  function ExtractIdentification(number: Cell, typeDescription: Cell, countryDescription: Cell,
                                 countryIso2: Cell): string {
    ExtractIdentificationIn(CountryCodes(), number, typeDescription, countryDescription, countryIso2)
  }

  // ---------------------------------------------------------------------------
  // Record type

  datatype RecordKind = Individual | Entity | Government | Vessel | Organization | OtherKind {
    function Value(): string {
      match this
      case Individual => "individual"
      case Entity => "entity"
      case Government => "government"
      case Vessel => "vessel"
      case Organization => "organization"
      case OtherKind => "other"
    }
  }

  /** `subject_type_map`. */
  function SubjectTypeMap(): map<string, RecordKind> {
    map["P" := Individual, "person" := Individual, "E" := Entity, "entity" := Entity,
        "G" := Government, "government" := Government, "T" := Vessel, "vessel" := Vessel,
        "O" := Organization, "organization" := Organization, "" := OtherKind]
  }

  /** `subject_type_map.get(key, 'entity')`. */
  function KindOf(key: string): (r: RecordKind)
    ensures key !in SubjectTypeMap() ==> r == Entity
  {
    if key in SubjectTypeMap() then SubjectTypeMap()[key] else Entity
  }

  /** The record type: the stripped, lower-cased subject type looked up in the map, "entity"
      when it is not there. */
  function SubjectType(subjectType: string): (r: RecordKind)
    ensures Lower(Strip(subjectType)) !in SubjectTypeMap() ==> r == Entity
    ensures Lower(Strip(subjectType)) in SubjectTypeMap() ==> r == SubjectTypeMap()[Lower(Strip(subjectType))]
  {
    KindOf(Lower(Strip(subjectType)))
  }

  /** Every key of the map other than the single capitals is lower case already. */
  lemma MapKeysLower(key: string)
    requires key in SubjectTypeMap() && key !in ["P", "E", "G", "T", "O"]
    ensures Lower(key) == key
  {
    LowerOfLowerCase(key);
  }

  /** The map's words are found in any letter case; the empty type is "other". */
  lemma SubjectTypeWords(subjectType: string, key: string)
    requires key in SubjectTypeMap() && key !in ["P", "E", "G", "T", "O"]
    requires Lower(Strip(subjectType)) == key
    ensures SubjectType(subjectType) == SubjectTypeMap()[key]
  {
  }

  /** A lower-cased key is never one of the map's single capital letters, so the codes P, E,
      G, T and O all fall through to "entity". */
  lemma SingleLetterCodesIgnored(subjectType: string)
    requires Strip(subjectType) in ["P", "E", "G", "T", "O"]
    ensures SubjectType(subjectType) == Entity
  {
    var key := Lower(Strip(subjectType));
    assert |key| == 1 && 'a' <= key[0] <= 'z';
    assert key !in SubjectTypeMap() by {
      SingleLowerNotKey(key);
    }
  }

  /** No one-letter lower-case string is a key of the map. */
  lemma SingleLowerNotKey(key: string)
    requires |key| == 1 && 'a' <= key[0] <= 'z'
    ensures key !in SubjectTypeMap()
  {
    assert key != "P" && key != "E" && key != "G" && key != "T" && key != "O";
    assert key != "";
  }

  /** The record type as evidently intended: the stripped subject type is looked up as
      written first, so that the single-letter codes are found, and lower-cased second. */
  function SubjectTypeIntended(subjectType: string): (r: RecordKind)
    ensures Strip(subjectType) in SubjectTypeMap() ==> r == SubjectTypeMap()[Strip(subjectType)]
    ensures Strip(subjectType) !in SubjectTypeMap() ==> r == SubjectType(subjectType)
  {
    var key := Strip(subjectType);
    if key in SubjectTypeMap() then SubjectTypeMap()[key] else SubjectType(subjectType)
  }

  /** The intended lookup maps each single-letter code to the type of its word. */
  lemma SubjectTypeIntendedCodes(subjectType: string)
    ensures Strip(subjectType) == "P" ==> SubjectTypeIntended(subjectType) == Individual
    ensures Strip(subjectType) == "E" ==> SubjectTypeIntended(subjectType) == Entity
    ensures Strip(subjectType) == "G" ==> SubjectTypeIntended(subjectType) == Government
    ensures Strip(subjectType) == "T" ==> SubjectTypeIntended(subjectType) == Vessel
    ensures Strip(subjectType) == "O" ==> SubjectTypeIntended(subjectType) == Organization
  {
    var m := SubjectTypeMap();
    match Strip(subjectType)
    case "P" => assert m["P"] == Individual;
    case "E" => assert m["E"] == Entity;
    case "G" => assert m["G"] == Government;
    case "T" => assert m["T"] == Vessel;
    case "O" => assert m["O"] == Organization;
    case _ =>
  }

  /** Off the single-letter codes the intended lookup agrees with the written one. */
  lemma SubjectTypeIntendedAgrees(subjectType: string)
    requires Strip(subjectType) !in ["P", "E", "G", "T", "O"]
    ensures SubjectTypeIntended(subjectType) == SubjectType(subjectType)
  {
    var key := Strip(subjectType);
    if key in SubjectTypeMap() {
      MapKeysLower(key);
    }
  }

  /** A string without capital letters is its own lower case. */
  lemma LowerOfLowerCase(s: string)
    requires forall i :: 0 <= i < |s| ==> !IsUpperLetter(s[i])
    ensures Lower(s) == s
  {
  }

  // ---------------------------------------------------------------------------
  // Names

  /** The name fields of a normalised EU record. */
  datatype EuNames = EuNames(name: string, firstName: string, secondName: string, thirdName: string)

  /** The primary name: the whole name, or the non-empty first, middle and last names joined. */
  function PrimaryName(whole: Cell, first: Cell, middle: Cell, last: Cell): (r: string)
    ensures CleanName(whole) != "" ==> r == CleanName(whole)
    ensures CleanName(whole) == "" ==>
      r == JoinSpace(NonEmpty([CleanName(first), CleanName(middle), CleanName(last)]))
  {
    var p := CleanName(whole);
    if |p| > 0 then p
    else
      var parts := [CleanName(first), CleanName(middle), CleanName(last)];
      JoinedPartsStripped(parts);
      Strip(JoinSpace(NonEmpty(parts)))
  }

  /** The final strip of the joined name parts changes nothing. */
  lemma JoinedPartsStripped(parts: seq<string>)
    requires forall k :: 0 <= k < |parts| ==> Trimmed(parts[k])
    ensures Strip(JoinSpace(NonEmpty(parts))) == JoinSpace(NonEmpty(parts))
  {
    NonEmptyTrimmed(parts);
    JoinTrimmed(" ", NonEmpty(parts));
    StripTrimmed(JoinSpace(NonEmpty(parts)));
  }

  /** The first and last names, each filled from the primary name's words when missing: the
      first word for the first name, the other words for the last name. */
  function FilledNames(primary: string, first: string, last: string): (r: (string, string))
    ensures first != "" ==> r.0 == first
    ensures last != "" ==> r.1 == last
  {
    if |primary| > 0 && !(|first| > 0 && |last| > 0) then
      var parts := Words(primary);
      var f := if |first| == 0 && |parts| > 0 then parts[0] else first;
      var l := if |last| == 0 && |parts| > 1 then JoinSpace(parts[1..]) else last;
      (f, l)
    else (first, last)
  }

  /** `third_name`: the last name unless it is empty or repeats the first or middle name. */
  function ThirdName(first: string, middle: string, last: string): (r: string)
    ensures r == "" || r == last
    ensures r == "" <==> last == "" || last == first || last == middle
  {
    if |last| > 0 && last != first && last != middle then last else ""
  }

  /** Keeping the non-empty strings keeps them trimmed. */
  lemma {:induction false} NonEmptyTrimmed(xs: seq<string>)
    requires forall k :: 0 <= k < |xs| ==> Trimmed(xs[k])
    ensures forall k :: 0 <= k < |NonEmpty(xs)| ==> |NonEmpty(xs)[k]| > 0 && Trimmed(NonEmpty(xs)[k])
  {
    if |xs| > 0 {
      NonEmptyTrimmed(xs[1..]);
      assert forall k :: 1 <= k < |xs| ==> xs[k] == xs[1..][k - 1];
    }
  }

  /** The name fields of a record built from its first row: the whole name wins when given,
      a given first name is kept, the middle name is the second name, and the third name is
      the last name unless it repeats the first or the middle name. */
  function EuRecordNames(whole: Cell, first: Cell, middle: Cell, last: Cell): (r: EuNames)
    ensures CleanName(whole) != "" ==> r.name == CleanName(whole)
    ensures CleanName(whole) == "" ==>
      r.name == JoinSpace(NonEmpty([CleanName(first), CleanName(middle), CleanName(last)]))
    ensures CleanName(first) != "" ==> r.firstName == CleanName(first)
    ensures r.secondName == CleanName(middle)
    ensures r.thirdName == "" || (r.thirdName != r.firstName && r.thirdName != r.secondName)
    ensures CleanName(last) != "" && CleanName(last) != r.firstName && CleanName(last) != r.secondName
      ==> r.thirdName == CleanName(last)
  {
    var primary := PrimaryName(whole, first, middle, last);
    var (f, l) := FilledNames(primary, CleanName(first), CleanName(last));
    var m := CleanName(middle);
    EuNames(primary, f, m, ThirdName(f, m, l))
  }

  /** With neither first nor last name given, a primary name of two or more words is split
      into a first word and the rest, which together spell it again. */
  lemma FilledNamesRebuild(primary: string)
    requires |Words(primary)| >= 2
    ensures var (f, l) := FilledNames(primary, "", "");
      f + " " + l == CollapseSpaces(primary)
  {
    var parts := Words(primary);
    assert |primary| > 0;
    assert parts == [parts[0]] + parts[1..];
    JoinAppend(" ", [parts[0]], parts[1..]);
  }

  /** A missing first name becomes the primary name's first word; a missing last name becomes
      the words after it, and only when there are two or more; a blank primary name fills
      nothing. */
  lemma FilledNamesFill(primary: string, first: string, last: string)
    ensures var r := FilledNames(primary, first, last);
      var parts := Words(primary);
      (primary == "" ==> r == (first, last))
      && (primary != "" && first == "" ==> r.0 == (if |parts| > 0 then parts[0] else ""))
      && (primary != "" && last == "" ==> r.1 == (if |parts| > 1 then JoinSpace(parts[1..]) else ""))
  {
  }
}

=== FILE: kyc_service.dfy ===
/** `KYCService.verify`: the stub document check, the status derived from the risk level and
    the list of details. The KYC risk calculation it calls is a parameter. */
module KycService {
  import opened Wrappers
  import opened Text
  import opened RiskEngine
  import Seqs

  /** The keyword arguments passed to `RiskEngine.calculate_kyc_risk_score`. */
  datatype KycRiskInputs = KycRiskInputs(
    documentValid: bool,
    faceMatchScore: Option<real>,
    faceMatchResult: Option<bool>,
    ocrQuality: Option<real>,
    documentExpired: bool,
    documentExpiringSoon: bool,
    missingFields: seq<string>,
    dataQualityIssues: seq<string>)

  /** An entry of the calculation's "risk_factors": a dictionary, perhaps with a "description",
      or anything else. */
  datatype RiskFactorEntry = FactorDict(description: Option<string>) | FactorOther

  /** The part of the calculation's result that `verify` reads. */
  datatype KycRisk = KycRisk(riskScore: int, riskLevel: RiskLevel, riskFactors: seq<RiskFactorEntry>)

  /** The verification status. */
  datatype Status = Pass | Review | Fail {
    function Value(): string {
      match this
      case Pass => "pass"
      case Review => "review"
      case Fail => "fail"
    }
  }

  /** One entry of the details list. */
  datatype Detail =
    | FormatValid
    | FormatInvalid
    | FacePassed
    | FaceFailed
    | Expired
    | ExpiringSoon
    | MissingFields(fields: seq<string>)
    | FactorDescription(text: string)
  {
    /** The line as it appears in the response. */
    function Text(): string {
      match this
      case FormatValid => "Document format valid"
      case FormatInvalid => "Document format invalid"
      case FacePassed => "Face match passed"
      case FaceFailed => "Face match failed"
      case Expired => "Document expired"
      case ExpiringSoon => "Document expiring soon"
      case MissingFields(fs) => "Missing fields: " + Join(", ", fs)
      case FactorDescription(t) => t
    }

    /** Where the line goes: format, face, expiry, missing fields, then factor descriptions. */
    function Position(): nat {
      match this
      case FormatValid => 0
      case FormatInvalid => 0
      case FacePassed => 1
      case FaceFailed => 1
      case Expired => 2
      case ExpiringSoon => 2
      case MissingFields(_) => 3
      case FactorDescription(_) => 4
    }
  }

  datatype KycResult = KycResult(status: Status, riskScore: int, riskLevel: RiskLevel, details: seq<Detail>)

  /** `bool(document_number and len(document_number) > 3)`. */
  function DocumentValid(documentNumber: string): (ok: bool)
    ensures ok <==> |documentNumber| >= 4
  {
    documentNumber != "" && |documentNumber| > 3
  }

  /** The status for a risk level: fail when high, review when medium, pass otherwise. */
  function StatusOf(level: RiskLevel): (s: Status)
    ensures s == Fail <==> level == High
    ensures s == Review <==> level == Medium
    ensures s == Pass <==> level == Low
  {
    if level.Value() == "high" then Fail
    else if level.Value() == "medium" then Review
    else Pass
  }

  predicate IsDict(e: RiskFactorEntry) { e.FactorDict? }

  /** The line for a dictionary factor: its description, or "Risk factor detected". */
  function DescriptionOf(e: RiskFactorEntry): Detail
    requires e.FactorDict?
  {
    FactorDescription(e.description.GetOr("Risk factor detected"))
  }

  /** The descriptions of the dictionary factors, in order; other entries add nothing. The
      result is, position by position, the line of the matching dictionary entry. */
  function FactorDescriptions(fs: seq<RiskFactorEntry>): (r: seq<Detail>)
    ensures |r| <= |fs|
    ensures forall k :: 0 <= k < |r| ==> r[k].FactorDescription?
    ensures var dicts := Seqs.Filter(IsDict, fs);
      |r| == |dicts| && forall k :: 0 <= k < |r| ==> r[k] == DescriptionOf(dicts[k])
  {
    if |fs| == 0 then []
    else
      var rest := FactorDescriptions(fs[1..]);
      DescriptionsCons(fs, rest);
      if fs[0].FactorDict? then [DescriptionOf(fs[0])] + rest
      else rest
  }

  /** Every dictionary factor's line is among the descriptions, and there are none exactly
      when no factor is a dictionary. */
  lemma {:induction false} FactorDescriptionsCover(fs: seq<RiskFactorEntry>)
    ensures forall k :: 0 <= k < |fs| && fs[k].FactorDict? ==> DescriptionOf(fs[k]) in FactorDescriptions(fs)
    ensures (forall k :: 0 <= k < |fs| ==> fs[k].FactorOther?) <==> FactorDescriptions(fs) == []
  {
    if |fs| > 0 {
      FactorDescriptionsCover(fs[1..]);
      assert forall k :: 1 <= k < |fs| ==> fs[k] == fs[1..][k - 1];
    }
  }

  /** One step of the position-by-position agreement with the filtered dictionary entries. */
  lemma DescriptionsCons(fs: seq<RiskFactorEntry>, rest: seq<Detail>)
    requires |fs| > 0
    requires var dicts := Seqs.Filter(IsDict, fs[1..]);
      |rest| == |dicts| && forall k :: 0 <= k < |rest| ==> rest[k] == DescriptionOf(dicts[k])
    ensures var r := if fs[0].FactorDict? then [DescriptionOf(fs[0])] + rest else rest;
      var dicts := Seqs.Filter(IsDict, fs);
      |r| == |dicts| && forall k :: 0 <= k < |r| ==> r[k] == DescriptionOf(dicts[k])
  {
    var tail := Seqs.Filter(IsDict, fs[1..]);
    if IsDict(fs[0]) {
      assert Seqs.Filter(IsDict, fs) == [fs[0]] + tail;
    } else {
      assert Seqs.Filter(IsDict, fs) == tail;
    }
  }

  /** The details the service itself writes, before the factor descriptions. */
  function OwnDetails(documentValid: bool, faceMatchResult: Option<bool>, expired: bool,
                      expiringSoon: bool, missingFields: seq<string>): (r: seq<Detail>)
    ensures 1 <= |r| <= 4
    ensures r[0] == (if documentValid then FormatValid else FormatInvalid)
    ensures forall k :: 0 <= k < |r| ==> !r[k].FactorDescription?
    ensures FacePassed in r <==> faceMatchResult == Some(true)
    ensures FaceFailed in r <==> faceMatchResult == Some(false)
    ensures Expired in r <==> expired
    ensures ExpiringSoon in r <==> !expired && expiringSoon
    ensures MissingFields(missingFields) in r <==> |missingFields| > 0
    ensures forall k :: 0 <= k < |r| && r[k].MissingFields? ==> r[k].fields == missingFields
    ensures forall j, k :: 0 <= j < k < |r| ==> r[j].Position() < r[k].Position()
  {
    OwnMembers(documentValid, faceMatchResult, expired, expiringSoon, missingFields);
    OwnPositions(documentValid, faceMatchResult, expired, expiringSoon, missingFields);
    [if documentValid then FormatValid else FormatInvalid]
      + FaceDetails(faceMatchResult) + ExpiryDetails(expired, expiringSoon) + MissingDetails(missingFields)
  }

  /** Which lines the four runs put together hold. */
  lemma OwnMembers(documentValid: bool, faceMatchResult: Option<bool>, expired: bool,
                   expiringSoon: bool, missingFields: seq<string>)
    ensures var r := [if documentValid then FormatValid else FormatInvalid]
        + FaceDetails(faceMatchResult) + ExpiryDetails(expired, expiringSoon) + MissingDetails(missingFields);
      && (FacePassed in r <==> faceMatchResult == Some(true))
      && (FaceFailed in r <==> faceMatchResult == Some(false))
      && (Expired in r <==> expired)
      && (ExpiringSoon in r <==> !expired && expiringSoon)
      && (MissingFields(missingFields) in r <==> |missingFields| > 0)
      && forall k :: 0 <= k < |r| ==>
           !r[k].FactorDescription? && (r[k].MissingFields? ==> r[k].fields == missingFields)
  {
    var face := FaceDetails(faceMatchResult);
    var expiry := ExpiryDetails(expired, expiringSoon);
    var missing := MissingDetails(missingFields);
    var head := [if documentValid then FormatValid else FormatInvalid];
    var r := head + face + expiry + missing;
    InConcat(FacePassed, head, face, expiry, missing);
    InConcat(FaceFailed, head, face, expiry, missing);
    InConcat(Expired, head, face, expiry, missing);
    InConcat(ExpiringSoon, head, face, expiry, missing);
    InConcat(MissingFields(missingFields), head, face, expiry, missing);
    forall k | 0 <= k < |r|
      ensures !r[k].FactorDescription? && (r[k].MissingFields? ==> r[k].fields == missingFields)
    {
      assert r[k] in r;
      InConcat(r[k], head, face, expiry, missing);
    }
  }

  lemma OwnPositions(documentValid: bool, faceMatchResult: Option<bool>, expired: bool,
                     expiringSoon: bool, missingFields: seq<string>)
    ensures var r := [if documentValid then FormatValid else FormatInvalid]
        + FaceDetails(faceMatchResult) + ExpiryDetails(expired, expiringSoon) + MissingDetails(missingFields);
      forall j, k :: 0 <= j < k < |r| ==> r[j].Position() < r[k].Position()
  {
    PositionsAscending([if documentValid then FormatValid else FormatInvalid],
      FaceDetails(faceMatchResult), ExpiryDetails(expired, expiringSoon), MissingDetails(missingFields));
  }

  /** Four runs of at most one line each, at positions 0, 1, 2 and 3, come out in position
      order. */
  lemma PositionsAscending(a: seq<Detail>, b: seq<Detail>, c: seq<Detail>, d: seq<Detail>)
    requires |a| <= 1 && |b| <= 1 && |c| <= 1 && |d| <= 1
    requires forall k :: 0 <= k < |a| ==> a[k].Position() == 0
    requires forall k :: 0 <= k < |b| ==> b[k].Position() == 1
    requires forall k :: 0 <= k < |c| ==> c[k].Position() == 2
    requires forall k :: 0 <= k < |d| ==> d[k].Position() == 3
    ensures var r := a + b + c + d;
      forall j, k :: 0 <= j < k < |r| ==> r[j].Position() < r[k].Position()
  {
    var r := a + b + c + d;
    forall k | 0 <= k < |r|
      ensures r[k].Position() == (if k < |a| then 0 else if k < |a| + |b| then 1
                                  else if k < |a| + |b| + |c| then 2 else 3)
    {
      if k < |a| { assert r[k] == a[k]; }
      else if k < |a| + |b| { assert r[k] == b[k - |a|]; }
      else if k < |a| + |b| + |c| { assert r[k] == c[k - |a| - |b|]; }
      else { assert r[k] == d[k - |a| - |b| - |c|]; }
    }
  }

  lemma InConcat(x: Detail, a: seq<Detail>, b: seq<Detail>, c: seq<Detail>, d: seq<Detail>)
    ensures x in a + b + c + d <==> x in a || x in b || x in c || x in d
  {
  }

  /** The face-match line, when a result is given. */
  function FaceDetails(faceMatchResult: Option<bool>): (r: seq<Detail>)
    ensures |r| <= 1 && forall k :: 0 <= k < |r| ==> r[k] == FacePassed || r[k] == FaceFailed
    ensures FacePassed in r <==> faceMatchResult == Some(true)
    ensures FaceFailed in r <==> faceMatchResult == Some(false)
  {
    match faceMatchResult
    case Some(true) => [FacePassed]
    case Some(false) => [FaceFailed]
    case None => []
  }

  /** The expiry line: expired takes precedence over expiring soon. */
  function ExpiryDetails(expired: bool, expiringSoon: bool): (r: seq<Detail>)
    ensures |r| <= 1 && forall k :: 0 <= k < |r| ==> r[k] == Expired || r[k] == ExpiringSoon
    ensures Expired in r <==> expired
    ensures ExpiringSoon in r <==> !expired && expiringSoon
  {
    if expired then [Expired] else if expiringSoon then [ExpiringSoon] else []
  }

  /** The missing-fields line, when some are missing. */
  function MissingDetails(missingFields: seq<string>): (r: seq<Detail>)
    ensures |r| <= 1 && forall k :: 0 <= k < |r| ==> r[k] == MissingFields(missingFields)
    ensures |r| == 1 <==> |missingFields| > 0
  {
    if |missingFields| > 0 then [MissingFields(missingFields)] else []
  }

  /** `KYCService.verify` with `calculate` standing for `RiskEngine.calculate_kyc_risk_score`. */
  function Verify(
    calculate: KycRiskInputs -> KycRisk,
    documentNumber: string,
    faceMatchScore: Option<real>, faceMatchResult: Option<bool>, ocrQuality: Option<real>,
    documentExpired: bool, documentExpiringSoon: bool,
    missingFields: Option<seq<string>>, dataQualityIssues: Option<seq<string>>): (r: KycResult)
    ensures var inputs := KycRiskInputs(DocumentValid(documentNumber), faceMatchScore, faceMatchResult,
        ocrQuality, documentExpired, documentExpiringSoon, missingFields.GetOr([]), dataQualityIssues.GetOr([]));
      r.riskScore == calculate(inputs).riskScore && r.riskLevel == calculate(inputs).riskLevel
    ensures r.status == StatusOf(r.riskLevel)
    ensures |r.details| >= 1 && (r.details[0] == FormatValid <==> DocumentValid(documentNumber))
  {
    var valid := DocumentValid(documentNumber);
    var missing := missingFields.GetOr([]);
    var risk := calculate(KycRiskInputs(valid, faceMatchScore, faceMatchResult, ocrQuality,
                                        documentExpired, documentExpiringSoon, missing,
                                        dataQualityIssues.GetOr([])));
    KycResult(StatusOf(risk.riskLevel), risk.riskScore, risk.riskLevel,
              OwnDetails(valid, faceMatchResult, documentExpired, documentExpiringSoon, missing)
              + FactorDescriptions(risk.riskFactors))
  }

  /** The details are the service's own lines followed by the factor descriptions; among its
      own lines at most one speaks of expiry, and a missing-fields line lists them joined by
      ", " exactly when some are missing. */
  lemma VerifyDetails(
    calculate: KycRiskInputs -> KycRisk,
    documentNumber: string,
    faceMatchScore: Option<real>, faceMatchResult: Option<bool>, ocrQuality: Option<real>,
    documentExpired: bool, documentExpiringSoon: bool,
    missingFields: Option<seq<string>>, dataQualityIssues: Option<seq<string>>)
    ensures var r := Verify(calculate, documentNumber, faceMatchScore, faceMatchResult, ocrQuality,
        documentExpired, documentExpiringSoon, missingFields, dataQualityIssues);
      var own := OwnDetails(DocumentValid(documentNumber), faceMatchResult, documentExpired,
        documentExpiringSoon, missingFields.GetOr([]));
      var inputs := KycRiskInputs(DocumentValid(documentNumber), faceMatchScore, faceMatchResult,
        ocrQuality, documentExpired, documentExpiringSoon, missingFields.GetOr([]), dataQualityIssues.GetOr([]));
      r.details[..|own|] == own
      && r.details[|own|..] == FactorDescriptions(calculate(inputs).riskFactors)
      && (forall k :: |own| <= k < |r.details| ==> r.details[k].FactorDescription?)
      && !(Expired in own && ExpiringSoon in own)
      && ((exists k :: 0 <= k < |own| && own[k].MissingFields?) <==> |missingFields.GetOr([])| > 0)
  {
    var missing := missingFields.GetOr([]);
    var own := OwnDetails(DocumentValid(documentNumber), faceMatchResult, documentExpired,
      documentExpiringSoon, missing);
    if |missing| > 0 {
      assert own[|own| - 1] == MissingFields(missing);
    }
  }
}

=== FILE: mrz_detect.dfy ===
/** The integer geometry of the MRZ detector: once the image pipeline has produced the
    bounding rectangles of the contours (sorted bottom to top), the detector picks the MRZ
    lines, takes the union of the first two and pads it, clamped to the image. */
module MrzDetect {
  import opened Wrappers
  import opened Seqs

  /** An axis-aligned rectangle `(x, y, w, h)` in pixel coordinates, y growing downwards. */
  datatype Rect = Rect(x: int, y: int, w: int, h: int) {
    function Right(): int { x + w }
    function Bottom(): int { y + h }
  }

  predicate WellFormed(r: Rect) { r.x >= 0 && r.y >= 0 && r.w >= 0 && r.h >= 0 }

  /** `r` lies inside a `W` x `H` image. */
  predicate InImage(r: Rect, W: int, H: int) {
    WellFormed(r) && r.Right() <= W && r.Bottom() <= H
  }

  /** `outer` covers every pixel of `inner`. */
  predicate Covers(outer: Rect, inner: Rect) {
    outer.x <= inner.x && outer.y <= inner.y
    && inner.Right() <= outer.Right() && inner.Bottom() <= outer.Bottom()
  }

  /** Python's `int(v * p / 100)` for a percentage `p`: truncation towards zero. */
  function PercentOf(v: int, p: nat): (r: int)
    ensures v >= 0 ==> 0 <= r && 100 * r <= v * p < 100 * (r + 1)
    ensures v < 0 ==> r <= 0 && 100 * (-r) <= -v * p < 100 * (-r + 1)
  {
    if v >= 0 then v * p / 100 else -((-v) * p / 100)
  }

  // ---------------------------------------------------------------------------
  // Kernel

  /** The morphology kernel `(max(15, int(0.03 W)), max(5, int(0.01 W)))`. */
  function KernelSize(W: int): (k: (int, int))
    ensures k.0 >= 15 && k.1 >= 5
    ensures k.0 >= PercentOf(W, 3) && k.1 >= PercentOf(W, 1)
    ensures k.0 == 15 || k.0 == PercentOf(W, 3)
    ensures k.1 == 5 || k.1 == PercentOf(W, 1)
  {
    (Max(15, PercentOf(W, 3)), Max(5, PercentOf(W, 1)))
  }

  // ---------------------------------------------------------------------------
  // Line heuristics, with the percentages compared exactly

  /** In the bottom half: `y > H / 2` with true division. */
  predicate InBottomHalf(r: Rect, H: int) { 2 * r.y > H }

  /** Kept as a candidate: wider than 60% and taller than 1% of the image. */
  predicate IsCandidate(r: Rect, W: int, H: int) { 10 * r.w > 6 * W && 100 * r.h > H }

  /** The strict MRZ line test: wider than 70%, taller than 2%, in the bottom half. */
  predicate IsStrictLine(r: Rect, W: int, H: int) {
    10 * r.w > 7 * W && 50 * r.h > H && InBottomHalf(r, H)
  }

  /** First lenient tier: wider than 60%, taller than 1.5%, in the bottom half. */
  predicate IsLenientLine(r: Rect, W: int, H: int) {
    10 * r.w > 6 * W && 1000 * r.h > 15 * H && InBottomHalf(r, H)
  }

  /** Second lenient tier: wider than 50%, taller than 1%, in the bottom half. */
  predicate IsVeryLenientLine(r: Rect, W: int, H: int) {
    2 * r.w > W && 100 * r.h > H && InBottomHalf(r, H)
  }

  /** A strict line is always a candidate. */
  lemma StrictIsCandidate(r: Rect, W: int, H: int)
    requires W > 0 && H > 0 && IsStrictLine(r, W, H)
    ensures IsCandidate(r, W, H) && InBottomHalf(r, H)
  {
  }

  /** Among candidates, the 50%-width tier is just "in the bottom half": it can never admit
      a rectangle narrower than 60% of the image. */
  lemma VeryLenientOnCandidates(r: Rect, W: int, H: int)
    requires W > 0 && H > 0 && IsCandidate(r, W, H)
    ensures IsVeryLenientLine(r, W, H) <==> InBottomHalf(r, H)
    ensures IsVeryLenientLine(r, W, H) ==> 10 * r.w > 6 * W
  {
  }

  // ---------------------------------------------------------------------------
  // Sorting candidates by descending width (Python's stable `sort(reverse=True)`)

  predicate SortedByWidthDesc(rs: seq<Rect>) {
    forall i, j :: 0 <= i < j < |rs| ==> rs[i].w >= rs[j].w
  }

  /** The rectangles of width `w`, in their order in `rs`. */
  function OfWidth(w: int, rs: seq<Rect>): seq<Rect> {
    if |rs| == 0 then [] else (if rs[0].w == w then [rs[0]] else []) + OfWidth(w, rs[1..])
  }

  lemma OfWidthCons(w: int, a: Rect, rs: seq<Rect>)
    ensures OfWidth(w, [a] + rs) == (if a.w == w then [a] else []) + OfWidth(w, rs)
  {
    assert ([a] + rs)[1..] == rs;
  }

  /** Inserts `x` before the first element not wider than it. Among rectangles of one width,
      `x` goes in front, as it does when prepended. */
  function InsertByWidth(x: Rect, rs: seq<Rect>): (r: seq<Rect>)
    requires SortedByWidthDesc(rs)
    ensures SortedByWidthDesc(r)
    ensures multiset(r) == multiset(rs) + multiset{x}
    ensures |r| == |rs| + 1
    ensures forall w :: OfWidth(w, r) == OfWidth(w, [x] + rs)
  {
    if |rs| == 0 || rs[0].w <= x.w then [x] + rs
    else
      var t := InsertByWidth(x, rs[1..]);
      InsertSorted(rs[0], x, rs[1..], t);
      InsertStable(rs[0], x, rs[1..], t);
      assert rs == [rs[0]] + rs[1..];
      [rs[0]] + t
  }

  /** Putting a strictly wider `y` in front commutes with inserting `x`, width by width. */
  lemma InsertStable(y: Rect, x: Rect, rs: seq<Rect>, t: seq<Rect>)
    requires x.w < y.w
    requires forall w :: OfWidth(w, t) == OfWidth(w, [x] + rs)
    ensures forall w :: OfWidth(w, [y] + t) == OfWidth(w, [x] + ([y] + rs))
  {
    forall w
      ensures OfWidth(w, [y] + t) == OfWidth(w, [x] + ([y] + rs))
    {
      InsertStableAt(y, x, rs, t, w);
    }
  }

  lemma InsertStableAt(y: Rect, x: Rect, rs: seq<Rect>, t: seq<Rect>, w: int)
    requires x.w < y.w
    requires OfWidth(w, t) == OfWidth(w, [x] + rs)
    ensures OfWidth(w, [y] + t) == OfWidth(w, [x] + ([y] + rs))
  {
    var tail := OfWidth(w, rs);
    var ex: seq<Rect> := if x.w == w then [x] else [];
    var ey: seq<Rect> := if y.w == w then [y] else [];
    OfWidthCons(w, y, t);
    OfWidthCons(w, x, rs);
    OfWidthCons(w, x, [y] + rs);
    OfWidthCons(w, y, rs);
    assert ex == [] || ey == [];
    assert OfWidth(w, [y] + t) == ey + (ex + tail);
    assert OfWidth(w, [x] + ([y] + rs)) == ex + (ey + tail);
    if ex == [] {
      assert ex + tail == tail && ex + (ey + tail) == ey + tail;
    } else {
      assert ey + (ex + tail) == ex + tail && ey + tail == tail;
    }
  }

  lemma InsertSorted(y: Rect, x: Rect, rs: seq<Rect>, t: seq<Rect>)
    requires SortedByWidthDesc(t) && x.w < y.w
    requires forall k :: 0 <= k < |rs| ==> y.w >= rs[k].w
    requires multiset(t) == multiset(rs) + multiset{x}
    ensures SortedByWidthDesc([y] + t)
  {
    forall k | 0 <= k < |t| ensures y.w >= t[k].w {
      assert t[k] in multiset(t);
      if t[k] != x {
        assert t[k] in multiset(rs);
        assert t[k] in rs;
      }
    }
  }

  /** `candidates.sort(key=width, reverse=True)`: a stable sort by decreasing width, so the
      rectangles of each width keep their relative order. */
  function SortByWidth(rs: seq<Rect>): (r: seq<Rect>)
    ensures SortedByWidthDesc(r)
    ensures multiset(r) == multiset(rs)
    ensures |r| == |rs|
    ensures forall w :: OfWidth(w, r) == OfWidth(w, rs)
  {
    if |rs| == 0 then []
    else
      assert rs == [rs[0]] + rs[1..];
      var t := SortByWidth(rs[1..]);
      SortStable(rs[0], rs[1..], t);
      InsertByWidth(rs[0], t)
  }

  lemma SortStable(x: Rect, rs: seq<Rect>, t: seq<Rect>)
    requires forall w :: OfWidth(w, t) == OfWidth(w, rs)
    ensures forall w :: OfWidth(w, [x] + t) == OfWidth(w, [x] + rs)
  {
    forall w
      ensures OfWidth(w, [x] + t) == OfWidth(w, [x] + rs)
    {
      OfWidthCons(w, x, t);
      OfWidthCons(w, x, rs);
    }
  }

  /** Filtering keeps a width-sorted sequence sorted. */
  lemma {:induction false} FilterKeepsSorted(p: Rect -> bool, rs: seq<Rect>)
    requires SortedByWidthDesc(rs)
    ensures SortedByWidthDesc(Filter(p, rs))
  {
    if |rs| > 0 {
      FilterKeepsSorted(p, rs[1..]);
      var t := Filter(p, rs[1..]);
      forall k | 0 <= k < |t| ensures rs[0].w >= t[k].w {
        assert t[k] in rs[1..];
      }
    }
  }

  // ---------------------------------------------------------------------------
  // Line selection

  function StrictLines(rs: seq<Rect>, W: int, H: int): seq<Rect> {
    Filter((r: Rect) => IsStrictLine(r, W, H), rs)
  }

  function Candidates(rs: seq<Rect>, W: int, H: int): seq<Rect> {
    Filter((r: Rect) => IsCandidate(r, W, H), rs)
  }

  /** The candidates in the order the lenient tiers see them: re-sorted by width when
      `debug` is on, as found otherwise. */
  function Ordered(cands: seq<Rect>, debug: bool): (r: seq<Rect>)
    ensures forall x :: x in r <==> x in cands
  {
    if debug then
      var sorted := SortByWidth(cands);
      assert forall x :: x in sorted <==> x in multiset(sorted);
      sorted
    else cands
  }

  /** The lenient tiers over the candidates: the first tier, or the second if the first is
      empty. */
  function LenientLines(cands: seq<Rect>, W: int, H: int, debug: bool): (lines: seq<Rect>)
    ensures forall k :: 0 <= k < |lines| ==> lines[k] in cands && InBottomHalf(lines[k], H)
  {
    var ordered := Ordered(cands, debug);
    var tier1 := Filter((r: Rect) => IsLenientLine(r, W, H), ordered);
    if |tier1| > 0 then tier1
    else Filter((r: Rect) => IsVeryLenientLine(r, W, H), ordered)
  }

  /** The MRZ lines chosen from the bottom-to-top rectangles: the strict lines if there are
      any; otherwise, when candidates exist, the first lenient tier over the candidates
      (re-sorted by width when `debug` is on), or the second tier if the first is empty. */
  function SelectLines(rs: seq<Rect>, W: int, H: int, debug: bool): (lines: seq<Rect>)
    requires W > 0 && H > 0
    ensures forall k :: 0 <= k < |lines| ==>
      lines[k] in rs && IsCandidate(lines[k], W, H) && InBottomHalf(lines[k], H)
  {
    var strict := StrictLines(rs, W, H);
    if |strict| > 0 then
      assert forall k :: 0 <= k < |strict| ==> IsStrictLine(strict[k], W, H);
      strict
    else
      var cands := Candidates(rs, W, H);
      if |cands| == 0 then [] else LenientLines(cands, W, H, debug)
  }

  /** The lenient tiers are only reached when no strict line exists; any strict line wins. */
  lemma StrictTierWins(rs: seq<Rect>, W: int, H: int, debug: bool)
    requires W > 0 && H > 0
    ensures |StrictLines(rs, W, H)| > 0 ==> SelectLines(rs, W, H, debug) == StrictLines(rs, W, H)
    ensures |StrictLines(rs, W, H)| == 0 && |Candidates(rs, W, H)| == 0 ==>
      SelectLines(rs, W, H, debug) == []
  {
  }

  /** No MRZ line is found exactly when no rectangle is a candidate in the bottom half. */
  lemma SelectEmptyIff(rs: seq<Rect>, W: int, H: int, debug: bool)
    requires W > 0 && H > 0
    ensures SelectLines(rs, W, H, debug) == [] <==>
      forall r :: r in rs ==> !(IsCandidate(r, W, H) && InBottomHalf(r, H))
  {
    var lines := SelectLines(rs, W, H, debug);
    if lines == [] {
      FilterEmptyIff((r: Rect) => IsStrictLine(r, W, H), rs);
      var cands := Candidates(rs, W, H);
      if |cands| > 0 {
        LenientEmpty(cands, W, H, debug);
        forall r | r in rs && IsCandidate(r, W, H) ensures !InBottomHalf(r, H) {
          assert r in cands;
        }
      } else {
        FilterEmptyIff((r: Rect) => IsCandidate(r, W, H), rs);
      }
    } else {
      assert lines[0] in rs;
    }
  }

  /** Every candidate is wide and tall enough for the second lenient tier, so the tiers come
      back empty only when no candidate lies in the bottom half. */
  lemma LenientEmpty(cands: seq<Rect>, W: int, H: int, debug: bool)
    requires W > 0 && H > 0
    requires forall k :: 0 <= k < |cands| ==> IsCandidate(cands[k], W, H)
    requires LenientLines(cands, W, H, debug) == []
    ensures forall r :: r in cands ==> !InBottomHalf(r, H)
  {
    var ordered := Ordered(cands, debug);
    var vl := (r: Rect) => IsVeryLenientLine(r, W, H);
    FilterEmptyIff(vl, ordered);
    forall r | r in cands ensures !InBottomHalf(r, H) {
      assert r in ordered;
      assert !vl(r);
    }
  }

  /** Without a strict line but with candidates, the first lenient tier is taken when it
      selects anything, and the second tier otherwise. */
  lemma LenientTierChoice(rs: seq<Rect>, W: int, H: int, debug: bool)
    requires W > 0 && H > 0
    requires |StrictLines(rs, W, H)| == 0 && |Candidates(rs, W, H)| > 0
    ensures var ordered := Ordered(Candidates(rs, W, H), debug);
      var tier1 := Filter((r: Rect) => IsLenientLine(r, W, H), ordered);
      var tier2 := Filter((r: Rect) => IsVeryLenientLine(r, W, H), ordered);
      SelectLines(rs, W, H, debug) == (if |tier1| > 0 then tier1 else tier2)
  {
  }

  /** With `debug` off the chosen lines keep the bottom-to-top order: they are the strict
      lines when there are any, else the bottom-to-top candidates passing the first lenient
      tier when some do, else those passing the second tier. */
  lemma DebugOffKeepsOrder(rs: seq<Rect>, W: int, H: int)
    requires W > 0 && H > 0
    ensures var lines := SelectLines(rs, W, H, false);
      var strict := Filter((r: Rect) => IsStrictLine(r, W, H), rs);
      var tier1 := Filter((r: Rect) => IsCandidate(r, W, H) && IsLenientLine(r, W, H), rs);
      var tier2 := Filter((r: Rect) => IsCandidate(r, W, H) && IsVeryLenientLine(r, W, H), rs);
      (|strict| > 0 ==> lines == strict)
      && (|strict| == 0 && |tier1| > 0 ==> lines == tier1)
      && (|strict| == 0 && |tier1| == 0 ==> lines == tier2)
  {
    var lines := SelectLines(rs, W, H, false);
    if |StrictLines(rs, W, H)| == 0 {
      var cand := (r: Rect) => IsCandidate(r, W, H);
      var len := (r: Rect) => IsLenientLine(r, W, H);
      var vlen := (r: Rect) => IsVeryLenientLine(r, W, H);
      FilterFilter(len, cand, (r: Rect) => IsCandidate(r, W, H) && IsLenientLine(r, W, H), rs);
      FilterFilter(vlen, cand, (r: Rect) => IsCandidate(r, W, H) && IsVeryLenientLine(r, W, H), rs);
    }
  }

  /** With `debug` on and no strict line, the chosen lines come widest first. */
  lemma DebugOnSortsByWidth(rs: seq<Rect>, W: int, H: int)
    requires W > 0 && H > 0
    requires |StrictLines(rs, W, H)| == 0
    ensures SortedByWidthDesc(SelectLines(rs, W, H, true))
  {
    var cands := Candidates(rs, W, H);
    if |cands| > 0 {
      var ordered := SortByWidth(cands);
      FilterKeepsSorted((r: Rect) => IsLenientLine(r, W, H), ordered);
      FilterKeepsSorted((r: Rect) => IsVeryLenientLine(r, W, H), ordered);
    }
  }

  // ---------------------------------------------------------------------------
  // Box from the lines, padding and clamping

  /** The bounding box of two rectangles. */
  function UnionBox(a: Rect, b: Rect): (u: Rect)
    ensures Covers(u, a) && Covers(u, b)
  {
    var minX := Min(a.x, b.x);
    var minY := Min(a.y, b.y);
    var maxX := Max(a.Right(), b.Right());
    var maxY := Max(a.Bottom(), b.Bottom());
    Rect(minX, minY, maxX - minX, maxY - minY)
  }

  /** The union is the smallest rectangle covering both. */
  lemma UnionBoxSmallest(a: Rect, b: Rect, c: Rect)
    requires Covers(c, a) && Covers(c, b)
    ensures Covers(c, UnionBox(a, b))
  {
  }

  /** The union of two rectangles of the image stays in the image. */
  lemma UnionInImage(a: Rect, b: Rect, W: int, H: int)
    requires InImage(a, W, H) && InImage(b, W, H)
    ensures InImage(UnionBox(a, b), W, H)
  {
  }

  /** The unpadded MRZ box: the union of the first two lines, the only line, or nothing. */
  function MrzBox(lines: seq<Rect>): (b: Option<Rect>)
    ensures b.None? <==> |lines| == 0
    ensures |lines| == 1 ==> b == Some(lines[0])
    ensures |lines| >= 2 ==> b.Some? && Covers(b.value, lines[0]) && Covers(b.value, lines[1])
    ensures |lines| >= 2 ==> forall c :: Covers(c, lines[0]) && Covers(c, lines[1]) ==> Covers(c, b.value)
  {
    if |lines| >= 2 then
      forall c | Covers(c, lines[0]) && Covers(c, lines[1])
        ensures Covers(c, UnionBox(lines[0], lines[1]))
      {
        UnionBoxSmallest(lines[0], lines[1], c);
      }
      Some(UnionBox(lines[0], lines[1]))
    else if |lines| == 1 then Some(lines[0])
    else None
  }

  /** Pads the box by `int(0.03 w)` horizontally and `int(0.04 h)` vertically on each side,
      then clamps it to the `W` x `H` image. */
  function PadAndClamp(b: Rect, W: int, H: int): (p: Rect)
    ensures p.x >= 0 && p.y >= 0
    ensures p.Right() <= W && p.Bottom() <= H
    ensures InImage(b, W, H) ==> InImage(p, W, H) && Covers(p, b)
    // the left and top edges move out by the padding, or stop at the image's edge
    ensures var pX := PercentOf(b.w, 3);
      (b.x >= pX ==> p.x == b.x - pX) && (b.x < pX ==> p.x == 0)
    ensures var pY := PercentOf(b.h, 4);
      (b.y >= pY ==> p.y == b.y - pY) && (b.y < pY ==> p.y == 0)
    // the box never grows by more than the padding on each side
    ensures var pX := PercentOf(b.w, 3); p.x >= b.x - pX && p.w <= b.w + 2 * pX
    ensures var pY := PercentOf(b.h, 4); p.y >= b.y - pY && p.h <= b.h + 2 * pY
    // it keeps the full padded size unless the right or bottom edge of the image cuts it
    ensures p.w == b.w + 2 * PercentOf(b.w, 3) || p.Right() == W
    ensures p.h == b.h + 2 * PercentOf(b.h, 4) || p.Bottom() == H
    // with no clamp on either side, exactly the padded box
    ensures var pX := PercentOf(b.w, 3);
      b.x >= pX && b.Right() + pX <= W ==> p.x == b.x - pX && p.Right() == b.Right() + pX
    ensures var pY := PercentOf(b.h, 4);
      b.y >= pY && b.Bottom() + pY <= H ==> p.y == b.y - pY && p.Bottom() == b.Bottom() + pY
  {
    var pX := PercentOf(b.w, 3);
    var pY := PercentOf(b.h, 4);
    var x := Max(0, b.x - pX);
    var y := Max(0, b.y - pY);
    Rect(x, y, Min(W - x, b.w + 2 * pX), Min(H - y, b.h + 2 * pY))
  }

  /** Chosen lines lie in the image, and so does the box built from them. */
  lemma LinesInImage(rs: seq<Rect>, W: int, H: int, debug: bool)
    requires W > 0 && H > 0
    requires forall k :: 0 <= k < |rs| ==> InImage(rs[k], W, H)
    ensures var lines := SelectLines(rs, W, H, debug);
      (forall k :: 0 <= k < |lines| ==> InImage(lines[k], W, H))
      && (MrzBox(lines).Some? ==> InImage(MrzBox(lines).value, W, H))
  {
    var lines := SelectLines(rs, W, H, debug);
    forall k | 0 <= k < |lines| ensures InImage(lines[k], W, H) {
      assert lines[k] in rs;
    }
    if |lines| >= 2 {
      UnionInImage(lines[0], lines[1], W, H);
    }
  }

  /** The whole geometric stage: the padded, clamped MRZ box, or `None` when no line is found. */
  function DetectMrzBox(rs: seq<Rect>, W: int, H: int, debug: bool): (box: Option<Rect>)
    requires W > 0 && H > 0
    ensures box.Some? ==> box.value.x >= 0 && box.value.y >= 0
    ensures box.Some? ==> box.value.Right() <= W && box.value.Bottom() <= H
    ensures box.None? <==> MrzBox(SelectLines(rs, W, H, debug)).None?
    ensures box.Some? ==> box.value == PadAndClamp(MrzBox(SelectLines(rs, W, H, debug)).value, W, H)
  {
    match MrzBox(SelectLines(rs, W, H, debug))
    case None => None
    case Some(b) => Some(PadAndClamp(b, W, H))
  }

  /** A box is found exactly when some rectangle is a candidate in the bottom half. When
      the rectangles lie in the image, the box does too and covers the chosen lines'
      unpadded box. */
  lemma DetectFindsIff(rs: seq<Rect>, W: int, H: int, debug: bool)
    requires W > 0 && H > 0
    requires forall k :: 0 <= k < |rs| ==> InImage(rs[k], W, H)
    ensures DetectMrzBox(rs, W, H, debug).Some? <==>
      exists r :: r in rs && IsCandidate(r, W, H) && InBottomHalf(r, H)
    ensures DetectMrzBox(rs, W, H, debug).Some? ==>
      InImage(DetectMrzBox(rs, W, H, debug).value, W, H)
      && Covers(DetectMrzBox(rs, W, H, debug).value, MrzBox(SelectLines(rs, W, H, debug)).value)
  {
    SelectEmptyIff(rs, W, H, debug);
    LinesInImage(rs, W, H, debug);
  }

  // ---------------------------------------------------------------------------
  // A witness that `debug` matters

  lemma SortThree(a: Rect, b: Rect, c: Rect)
    requires c.w > b.w > a.w
    ensures SortByWidth([a, b, c]) == [c, b, a]
  {
    assert [a, b, c][1..] == [b, c];
    SortTwo(b, c);
    InsertNarrowest(a, c, b);
  }

  lemma SortTwo(b: Rect, c: Rect)
    requires c.w > b.w
    ensures SortByWidth([b, c]) == [c, b]
  {
    assert [b, c][1..] == [c] && [c][1..] == [];
    assert SortByWidth([c]) == [c];
    assert [c][1..] == [];
    assert InsertByWidth(b, [c]) == [c] + InsertByWidth(b, []);
  }

  lemma InsertNarrowest(a: Rect, c: Rect, b: Rect)
    requires c.w > b.w > a.w
    ensures InsertByWidth(a, [c, b]) == [c, b, a]
  {
    assert [c, b][1..] == [b] && [b][1..] == [];
    assert InsertByWidth(a, [b]) == [b] + InsertByWidth(a, []);
    assert InsertByWidth(a, [c, b]) == [c] + InsertByWidth(a, [b]);
  }

  lemma FilterThree(p: Rect -> bool, a: Rect, b: Rect, c: Rect)
    ensures p(a) && p(b) && p(c) ==> Filter(p, [a, b, c]) == [a, b, c]
    ensures !p(a) && !p(b) && !p(c) ==> Filter(p, [a, b, c]) == []
  {
    assert [a, b, c][1..] == [b, c] && [b, c][1..] == [c] && [c][1..] == [];
    if p(a) && p(b) && p(c) {
      assert Filter(p, [c]) == [c];
      assert Filter(p, [b, c]) == [b, c];
    }
    if !p(a) && !p(b) && !p(c) {
      assert Filter(p, [c]) == [];
      assert Filter(p, [b, c]) == [];
    }
  }

  /** Three lenient, non-strict lines of increasing width: contour order keeps them, width
      order reverses them. */
  predicate ThreeLenient(a: Rect, b: Rect, c: Rect, W: int, H: int) {
    W > 0 && H > 0 && c.w > b.w > a.w
    && !IsStrictLine(a, W, H) && !IsStrictLine(b, W, H) && !IsStrictLine(c, W, H)
    && IsCandidate(a, W, H) && IsCandidate(b, W, H) && IsCandidate(c, W, H)
    && IsLenientLine(a, W, H) && IsLenientLine(b, W, H) && IsLenientLine(c, W, H)
  }

  lemma ThreeCandidates(a: Rect, b: Rect, c: Rect, W: int, H: int)
    requires ThreeLenient(a, b, c, W, H)
    ensures StrictLines([a, b, c], W, H) == []
    ensures Candidates([a, b, c], W, H) == [a, b, c]
  {
    FilterThree((r: Rect) => IsStrictLine(r, W, H), a, b, c);
    FilterThree((r: Rect) => IsCandidate(r, W, H), a, b, c);
  }

  lemma SelectThreeOff(a: Rect, b: Rect, c: Rect, W: int, H: int)
    requires ThreeLenient(a, b, c, W, H)
    ensures SelectLines([a, b, c], W, H, false) == [a, b, c]
  {
    ThreeCandidates(a, b, c, W, H);
    FilterThree((r: Rect) => IsLenientLine(r, W, H), a, b, c);
  }

  lemma SelectThreeOn(a: Rect, b: Rect, c: Rect, W: int, H: int)
    requires ThreeLenient(a, b, c, W, H)
    ensures SelectLines([a, b, c], W, H, true) == [c, b, a]
  {
    ThreeCandidates(a, b, c, W, H);
    SortThree(a, b, c);
    FilterThree((r: Rect) => IsLenientLine(r, W, H), c, b, a);
  }

  /** The `debug` flag can change the detected box: three bottom-half lines of widths 65, 68
      and 69 in a 100 x 100 image. Contour order unites the first two, width order the two
      widest. */
  predicate IsWitness(a: Rect, b: Rect, c: Rect) {
    a.x == 0 && a.y == 90 && a.w == 65 && a.h == 5
    && b.x == 0 && b.y == 80 && b.w == 68 && b.h == 5
    && c.x == 0 && c.y == 60 && c.w == 69 && c.h == 5
  }

  lemma WitnessOff(a: Rect, b: Rect, c: Rect)
    requires IsWitness(a, b, c)
    ensures MrzBox(SelectLines([a, b, c], 100, 100, false)) == Some(Rect(0, 80, 68, 15))
  {
    SelectThreeOff(a, b, c, 100, 100);
    var u := UnionBox(a, b);
    assert u.x == 0 && u.y == 80 && u.w == 68 && u.h == 15;
  }

  lemma WitnessOn(a: Rect, b: Rect, c: Rect)
    requires IsWitness(a, b, c)
    ensures MrzBox(SelectLines([a, b, c], 100, 100, true)) == Some(Rect(0, 60, 69, 25))
  {
    SelectThreeOn(a, b, c, 100, 100);
    var v := UnionBox(c, b);
    assert v.x == 0 && v.y == 60 && v.w == 69 && v.h == 25;
  }

  lemma WitnessPadding()
    ensures PadAndClamp(Rect(0, 80, 68, 15), 100, 100) == Rect(0, 80, 72, 15)
    ensures PadAndClamp(Rect(0, 60, 69, 25), 100, 100) == Rect(0, 59, 73, 27)
  {
    assert PercentOf(68, 3) == 2 && PercentOf(15, 4) == 0;
    assert PercentOf(69, 3) == 2 && PercentOf(25, 4) == 1;
  }

  /** The `debug` flag can change the detected box: three bottom-half lines of widths 65, 68
      and 69 in a 100 x 100 image. Contour order unites the first two, width order the two
      widest. */
  lemma DebugChangesBox(a: Rect, b: Rect, c: Rect)
    requires IsWitness(a, b, c)
    ensures DetectMrzBox([a, b, c], 100, 100, false) == Some(Rect(0, 80, 72, 15))
    ensures DetectMrzBox([a, b, c], 100, 100, true) == Some(Rect(0, 59, 73, 27))
  {
    WitnessOff(a, b, c);
    WitnessOn(a, b, c);
    WitnessPadding();
  }
}

=== FILE: ofac_convert.dfy ===
/** The pure helpers of the OFAC converter: splitting a name into four parts, re-joining
    records that the SDN export breaks over several lines, and the record type. */
module OfacConvert {
  import opened Wrappers
  import opened Text

  datatype NameParts = NameParts(first: string, second: string, third: string, fourth: string) {
    /** The fields in order. */
    function Fields(): seq<string> { [first, second, third, fourth] }
  }

  function NoParts(): NameParts { NameParts("", "", "", "") }

  /** `" ".join(toks[i:])` when there are more than `i` tokens, else "". */
  function RestFrom(toks: seq<string>, i: nat): string {
    if |toks| > i then JoinSpace(toks[i..]) else ""
  }

  function TokenAt(toks: seq<string>, i: nat): string {
    if |toks| > i then toks[i] else ""
  }

  /** `name.split(",", 1)` for a name containing a comma: the text before the first comma and
      the text after it. */
  function SplitAtComma(name: string): (r: (string, string))
    requires ',' in name
    ensures r.0 + "," + r.1 == name && ',' !in r.0
  {
    var i := Find(name, ',');
    assert name == name[..i] + "," + name[i + 1..];
    (name[..i], name[i + 1..])
  }

  /** `split_name_parts(name)`. */
  function SplitNameParts(v: PyValue): (r: NameParts)
    ensures !v.PyStr? ==> r == NoParts()
  {
    if !v.PyStr? then NoParts()
    else
      var name := v.s;
      if ',' in name then
        var (before, after) := SplitAtComma(name);
        var toks := Words(Strip(after));
        NameParts(TokenAt(toks, 0), Strip(before), TokenAt(toks, 1), RestFrom(toks, 2))
      else
        var toks := Words(name);
        NameParts(TokenAt(toks, 0), TokenAt(toks, 1), TokenAt(toks, 2), RestFrom(toks, 3))
  }

  /** The tokens after the first, or none. */
  function Rest(toks: seq<string>): (r: seq<string>)
    ensures |toks| > 0 ==> r == toks[1..]
    ensures |toks| == 0 ==> r == []
  {
    if |toks| > 0 then toks[1..] else []
  }

  /** `n` fields holding the first `n` tokens one each (or "" when there are fewer), then a
      last field holding the remaining tokens joined by single spaces. */
  function Spread(toks: seq<string>, n: nat): (r: seq<string>)
    ensures |r| == n + 1
  {
    if n == 0 then [JoinSpace(toks)] else [TokenAt(toks, 0)] + Spread(Rest(toks), n - 1)
  }

  /** Spreading tokens over fields loses nothing: the non-empty fields, joined by single
      spaces, are the tokens joined by single spaces. */
  lemma {:induction false} SpreadRejoin(toks: seq<string>, n: nat)
    requires forall k :: 0 <= k < |toks| ==> |toks[k]| > 0
    ensures JoinSpace(NonEmpty(Spread(toks, n))) == JoinSpace(toks)
  {
    if n == 0 {
      JoinEmptyIff(toks);
    } else {
      RestNonEmpty(toks);
      SpreadRejoin(Rest(toks), n - 1);
      SpreadStep(toks, n);
    }
  }

  lemma RestNonEmpty(toks: seq<string>)
    requires forall k :: 0 <= k < |toks| ==> |toks[k]| > 0
    ensures forall k :: 0 <= k < |Rest(toks)| ==> |Rest(toks)[k]| > 0
  {
  }

  /** The step of `SpreadRejoin`: one more field in front holds the first token. */
  lemma SpreadStep(toks: seq<string>, n: nat)
    requires n > 0
    requires forall k :: 0 <= k < |toks| ==> |toks[k]| > 0
    requires JoinSpace(NonEmpty(Spread(Rest(toks), n - 1))) == JoinSpace(Rest(toks))
    ensures JoinSpace(NonEmpty(Spread(toks, n))) == JoinSpace(toks)
  {
    var tail := Spread(Rest(toks), n - 1);
    assert Spread(toks, n) == [TokenAt(toks, 0)] + tail;
    if |toks| == 0 {
      assert NonEmpty([""] + tail) == NonEmpty(tail);
    } else {
      SpreadCons(toks, NonEmpty(tail));
    }
  }

  lemma SpreadCons(toks: seq<string>, tail: seq<string>)
    requires |toks| > 0
    requires forall k :: 0 <= k < |toks| ==> |toks[k]| > 0
    requires forall k :: 0 <= k < |tail| ==> |tail[k]| > 0
    requires JoinSpace(tail) == JoinSpace(toks[1..])
    ensures JoinSpace([toks[0]] + tail) == JoinSpace(toks)
  {
    var rest := toks[1..];
    JoinEmptyIff(tail);
    JoinEmptyIff(rest);
    JoinCons(toks[0], tail);
    assert toks == [toks[0]] + rest;
    JoinCons(toks[0], rest);
  }

  /** Joining non-empty strings gives "" only for no strings. */
  lemma JoinEmptyIff(xs: seq<string>)
    requires forall k :: 0 <= k < |xs| ==> |xs[k]| > 0
    ensures JoinSpace(xs) == "" <==> |xs| == 0
  {
  }

  lemma JoinCons(x: string, xs: seq<string>)
    ensures JoinSpace([x] + xs) == if |xs| == 0 then x else x + " " + JoinSpace(xs)
  {
    assert ([x] + xs)[1..] == xs;
  }

  /** The four name fields of a comma-free name spread its tokens over four fields. */
  lemma SpreadFour(toks: seq<string>)
    ensures [TokenAt(toks, 0), TokenAt(toks, 1), TokenAt(toks, 2), RestFrom(toks, 3)] == Spread(toks, 3)
  {
    SpreadTail(toks, 3);
    SpreadTail(toks, 2);
    SpreadTail(toks, 1);
  }

  /** The three fields after the comma spread the tokens after it over three fields. */
  lemma SpreadThree(toks: seq<string>)
    ensures [TokenAt(toks, 0), TokenAt(toks, 1), RestFrom(toks, 2)] == Spread(toks, 2)
  {
    SpreadTail(toks, 2);
    SpreadTail(toks, 1);
  }

  /** The last field of a spread over `n` fields is the text from token `n` on. */
  lemma {:induction false} SpreadTail(toks: seq<string>, n: nat)
    ensures Spread(toks, n)[n] == RestFrom(toks, n)
    ensures forall k :: 0 <= k < n ==> Spread(toks, n)[k] == TokenAt(toks, k)
  {
    if n > 0 {
      var rest := Rest(toks);
      SpreadTail(rest, n - 1);
      if |toks| > n {
        assert rest[n - 1..] == toks[n..];
      }
    } else if |toks| == 0 {
      assert JoinSpace(toks) == "";
    }
  }

  /** For a comma-free name the fields are its first three whitespace tokens and the rest
      joined by single spaces; re-tokenising the non-empty fields gives back its tokens. */
  lemma SplitNoComma(name: string)
    requires ',' !in name
    ensures var r := SplitNameParts(PyStr(name));
      var toks := Words(name);
      r.first == TokenAt(toks, 0) && r.second == TokenAt(toks, 1) && r.third == TokenAt(toks, 2)
      && r.fourth == RestFrom(toks, 3)
      && Words(JoinSpace(NonEmpty(r.Fields()))) == toks
  {
    var toks := Words(name);
    SpreadFour(toks);
    SpreadRejoin(toks, 3);
    SplitJoinSpace(toks, IsSpace);
  }

  /** For a name with a comma, the second field is the stripped text before the first comma
      and the other three fields re-tokenise to the tokens after it. */
  lemma SplitWithComma(name: string)
    requires ',' in name
    ensures var r := SplitNameParts(PyStr(name));
      var (before, after) := SplitAtComma(name);
      r.second == Strip(before)
      && Words(JoinSpace(NonEmpty([r.first, r.third, r.fourth]))) == Words(Strip(after))
  {
    var (before, after) := SplitAtComma(name);
    var toks := Words(Strip(after));
    var r := SplitNameParts(PyStr(name));
    assert r == NameParts(TokenAt(toks, 0), Strip(before), TokenAt(toks, 1), RestFrom(toks, 2));
    SpreadThree(toks);
    SpreadRejoin(toks, 2);
    SplitJoinSpace(toks, IsSpace);
  }

  // ---------------------------------------------------------------------------
  // Re-joining broken SDN lines

  /** A stripped line opens a new record when it starts with a digit and has a comma within
      its first ten characters. */
  predicate IsRecordStart(l: string)
    ensures IsRecordStart(l) <==> |l| > 0 && IsDigit(l[0]) && ',' in l[..Min(10, |l|)]
  {
    |l| > 0 && IsDigit(l[0]) && ',' in l && Find(l, ',') < 10
  }

  /** The non-blank lines, stripped, in order. */
  function Cleaned(lines: seq<string>): (r: seq<string>)
    ensures forall k :: 0 <= k < |r| ==> |r[k]| > 0
  {
    if |lines| == 0 then []
    else
      var l := Strip(lines[|lines| - 1]);
      Cleaned(lines[..|lines| - 1]) + (if |l| == 0 then [] else [l])
  }

  /** The number of record-start lines. */
  function Starts(xs: seq<string>): nat {
    if |xs| == 0 then 0
    else Starts(xs[..|xs| - 1]) + (if IsRecordStart(xs[|xs| - 1]) then 1 else 0)
  }

  /** The number of records the cleaned lines make: one per record-start line, and one more
      when text comes before the first of them. */
  function RecordCount(xs: seq<string>): nat {
    Starts(xs) + (if |xs| > 0 && !IsRecordStart(xs[0]) then 1 else 0)
  }

  /** The positions in the cleaned lines where records begin: the first line and every later
      record-start line, in increasing order (`BoundariesAt` says which they are). */
  function Boundaries(xs: seq<string>): (b: seq<nat>)
    ensures Cuts(b, |xs|)
    ensures |xs| > 0 ==> |b| > 0 && b[0] == 0
  {
    if |xs| == 0 then []
    else
      var n := |xs| - 1;
      Boundaries(xs[..n]) + (if n == 0 || IsRecordStart(xs[n]) then [n] else [])
  }

  /** A line is a boundary exactly when it is the first line or a record start. */
  lemma {:induction false} BoundariesAt(xs: seq<string>)
    ensures forall j :: 0 <= j < |xs| ==> (j in Boundaries(xs) <==> j == 0 || IsRecordStart(xs[j]))
  {
    if |xs| > 0 {
      var n := |xs| - 1;
      BoundariesAt(xs[..n]);
      assert forall j :: 0 <= j < n ==> xs[..n][j] == xs[j];
    }
  }

  /** Two record-start lines stay two records: the second line is not absorbed into the first
      record, nor the first record's continuation split off. */
  lemma GroupedTwoStarts(rs: seq<string>)
    requires Grouped(rs, ["1,a 3,q", "2,b"])
    ensures rs == ["1,a 3,q", "2,b"]
  {
    var xs := ["1,a 3,q", "2,b"];
    assert Find(xs[1], ',') == 1;
    assert IsRecordStart(xs[1]);
    BoundariesAt(xs);
    var b := Boundaries(xs);
    assert 1 in b;
    assert b == [0, 1];
    assert xs[0..1] == ["1,a 3,q"] && xs[1..2] == ["2,b"];
  }

  /** Where the `k`-th record ends: at the next boundary, or after the last line. */
  function GroupEnd(b: seq<nat>, k: nat, n: nat): nat
    requires k < |b|
  {
    if k + 1 < |b| then b[k + 1] else n
  }

  /** `b` lists increasing positions below `n`. */
  predicate Cuts(b: seq<nat>, n: nat) {
    && (forall k :: 0 <= k < |b| ==> b[k] < n)
    && (forall j, k :: 0 <= j < k < |b| ==> b[j] < b[k])
  }

  /** `rs` are the pieces of `xs` cut at the positions `b`, each joined by single spaces. */
  predicate GroupedBy(rs: seq<string>, xs: seq<string>, b: seq<nat>)
    requires Cuts(b, |xs|)
  {
    && |rs| == |b|
    && forall k :: 0 <= k < |b| ==> rs[k] == JoinSpace(xs[b[k]..GroupEnd(b, k, |xs|)])
  }

  /** `rs` are the cleaned lines `xs` cut at their boundaries, each piece joined by single
      spaces. */
  predicate Grouped(rs: seq<string>, xs: seq<string>) {
    GroupedBy(rs, xs, Boundaries(xs))
  }

  /** The records so far, with the one being built. */
  function Pending(records: seq<string>, current: string): seq<string> {
    records + (if |current| > 0 then [current] else [])
  }

  /** The line-joining loop of `load_sdn_data`. */
  method JoinRecordLines(lines: seq<string>) returns (records: seq<string>)
    ensures JoinSpace(records) == JoinSpace(Cleaned(lines))
    ensures forall k :: 0 <= k < |records| ==> |records[k]| > 0
    ensures forall k :: 1 <= k < |records| ==> IsRecordStart(records[k])
    ensures |records| == RecordCount(Cleaned(lines))
    ensures Grouped(records, Cleaned(lines))
  {
    records := [];
    var current := "";
    var i := 0;
    JoiningStart(lines);
    while i < |lines|
      invariant 0 <= i <= |lines|
      invariant Joining(records, current, Cleaned(lines[..i]))
    {
      StepJoining(records, current, lines, i);
      var next := Step(records, current, Strip(lines[i]));
      records, current := next.0, next.1;
      i := i + 1;
    }
    assert lines[..i] == lines;
    JoinedRecords(records, current, Cleaned(lines));
    records := Pending(records, current);
  }

  /** The loop's invariant: the text, count and shape kept by `Tracks`, and the records cut at
      the boundaries of the lines read so far. */
  predicate Joining(records: seq<string>, current: string, done: seq<string>) {
    Tracks(records, current, done) && Grouped(Pending(records, current), done)
  }

  lemma JoiningStart(lines: seq<string>)
    ensures Joining([], "", Cleaned(lines[..0]))
  {
    assert lines[..0] == [];
  }

  lemma StepJoining(records: seq<string>, current: string, lines: seq<string>, i: nat)
    requires i < |lines| && Joining(records, current, Cleaned(lines[..i]))
    ensures var next := Step(records, current, Strip(lines[i]));
      Joining(next.0, next.1, Cleaned(lines[..i + 1]))
  {
    StepTracks(records, current, lines, i);
    StepGrouped(records, current, lines, i);
  }

  /** What the loop leaves: the pending records are the answer. */
  lemma JoinedRecords(records: seq<string>, current: string, xs: seq<string>)
    requires Joining(records, current, xs)
    ensures var rs := Pending(records, current);
      && JoinSpace(rs) == JoinSpace(xs)
      && (forall k :: 0 <= k < |rs| ==> |rs[k]| > 0)
      && (forall k :: 1 <= k < |rs| ==> IsRecordStart(rs[k]))
      && |rs| == RecordCount(xs)
      && Grouped(rs, xs)
  {
    PendingShaped(records, current);
  }

  /** The loop's invariant: the records so far and the one being built hold exactly the
      cleaned lines read so far, one record per record start, in the right shape. */
  predicate Tracks(records: seq<string>, current: string, done: seq<string>) {
    && JoinSpace(Pending(records, current)) == JoinSpace(done)
    && (|Pending(records, current)| == 0 <==> |done| == 0)
    && |Pending(records, current)| == RecordCount(done)
    && Shaped(records, current)
  }

  /** One pass of the loop body: blank lines are skipped, others absorbed. */
  function Step(records: seq<string>, current: string, line: string): (seq<string>, string) {
    if |line| == 0 then (records, current) else Absorb(records, current, line)
  }

  lemma StepTracks(records: seq<string>, current: string, lines: seq<string>, i: nat)
    requires i < |lines| && Tracks(records, current, Cleaned(lines[..i]))
    ensures var next := Step(records, current, Strip(lines[i]));
      Tracks(next.0, next.1, Cleaned(lines[..i + 1]))
  {
    CleanedStep(lines, i);
    var line := Strip(lines[i]);
    if |line| > 0 {
      AbsorbTracks(records, current, line, Cleaned(lines[..i]));
    } else {
      assert Cleaned(lines[..i + 1]) == Cleaned(lines[..i]);
    }
  }

  lemma StepGrouped(records: seq<string>, current: string, lines: seq<string>, i: nat)
    requires i < |lines| && Tracks(records, current, Cleaned(lines[..i]))
    requires Grouped(Pending(records, current), Cleaned(lines[..i]))
    ensures var next := Step(records, current, Strip(lines[i]));
      Grouped(Pending(next.0, next.1), Cleaned(lines[..i + 1]))
  {
    CleanedStep(lines, i);
    var line := Strip(lines[i]);
    if |line| > 0 {
      AbsorbGrouped(records, current, line, Cleaned(lines[..i]));
    } else {
      assert Cleaned(lines[..i + 1]) == Cleaned(lines[..i]);
    }
  }

  /** Boundaries of one more line: it adds a boundary when it is the first or a record start. */
  lemma BoundariesSnoc(done: seq<string>, line: string)
    ensures Boundaries(done + [line])
      == Boundaries(done) + (if |done| == 0 || IsRecordStart(line) then [|done|] else [])
  {
    var xs := done + [line];
    assert xs[..|done|] == done;
    assert xs[|done|] == line;
  }

  /** One loop step keeps the records cut at the boundaries. */
  lemma AbsorbGrouped(records: seq<string>, current: string, line: string, done: seq<string>)
    requires |line| > 0 && Tracks(records, current, done)
    requires Grouped(Pending(records, current), done)
    ensures var (rs, c) := Absorb(records, current, line);
      Grouped(Pending(rs, c), done + [line])
  {
    if |done| == 0 || IsRecordStart(line) {
      AbsorbOpens(records, current, line, done);
    } else {
      assert |current| > 0;
      AbsorbExtends(records, current, line, done);
    }
  }

  lemma AbsorbOpens(records: seq<string>, current: string, line: string, done: seq<string>)
    requires |line| > 0 && (|done| == 0 || IsRecordStart(line))
    requires |done| == 0 ==> |Pending(records, current)| == 0
    requires Grouped(Pending(records, current), done)
    ensures var (rs, c) := Absorb(records, current, line);
      Grouped(Pending(rs, c), done + [line])
  {
    BoundariesSnoc(done, line);
    var (rs, c) := Absorb(records, current, line);
    assert Pending(rs, c) == Pending(records, current) + [line];
    GroupedOpen(Pending(records, current), done, line, Boundaries(done));
  }

  lemma AbsorbExtends(records: seq<string>, current: string, line: string, done: seq<string>)
    requires |line| > 0 && |done| > 0 && !IsRecordStart(line) && |current| > 0
    requires Grouped(Pending(records, current), done)
    ensures var (rs, c) := Absorb(records, current, line);
      Grouped(Pending(rs, c), done + [line])
  {
    BoundariesSnoc(done, line);
    var (rs, c) := Absorb(records, current, line);
    assert Pending(rs, c) == records + [current + " " + line];
    GroupedExtend(records, current, done, line, Boundaries(done));
  }

  /** A line that opens a record adds itself as a record of its own. */
  lemma GroupedOpen(P: seq<string>, done: seq<string>, line: string, b: seq<nat>)
    requires Cuts(b, |done|) && GroupedBy(P, done, b)
    ensures Cuts(b + [|done|], |done| + 1) && GroupedBy(P + [line], done + [line], b + [|done|])
  {
    var n := |done|;
    var d2 := done + [line];
    var b2 := b + [n];
    forall k | 0 <= k < |b2|
      ensures (P + [line])[k] == JoinSpace(d2[b2[k]..GroupEnd(b2, k, n + 1)])
    {
      if k < |b| {
        var e := GroupEnd(b, k, n);
        assert GroupEnd(b2, k, n + 1) == e;
        SliceOfPrefix(done, [line], b[k], e);
      } else {
        assert d2[n..n + 1] == [line];
      }
    }
  }

  /** A continuation line extends the last record after a space. */
  lemma GroupedExtend(records: seq<string>, current: string, done: seq<string>, line: string,
                      b: seq<nat>)
    requires Cuts(b, |done|) && |b| > 0 && GroupedBy(records + [current], done, b)
    ensures Cuts(b, |done| + 1) && GroupedBy(records + [current + " " + line], done + [line], b)
  {
    var n := |done|;
    var d2 := done + [line];
    var P := records + [current];
    var Q := records + [current + " " + line];
    forall k | 0 <= k < |b|
      ensures Q[k] == JoinSpace(d2[b[k]..GroupEnd(b, k, n + 1)])
    {
      if k < |b| - 1 {
        assert Q[k] == P[k];
        SliceOfPrefix(done, [line], b[k], b[k + 1]);
      } else {
        assert d2[b[k]..n + 1] == done[b[k]..n] + [line];
        JoinSnoc(" ", done[b[k]..n], line);
      }
    }
  }

  lemma SliceOfPrefix<T>(a: seq<T>, b: seq<T>, i: nat, j: nat)
    requires i <= j <= |a|
    ensures (a + b)[i..j] == a[i..j]
  {
  }

  lemma AbsorbTracks(records: seq<string>, current: string, line: string, done: seq<string>)
    requires |line| > 0 && Tracks(records, current, done)
    ensures Tracks(Absorb(records, current, line).0, Absorb(records, current, line).1, done + [line])
  {
    AbsorbKeeps(records, current, line, done);
    AbsorbCount(records, current, line, done);
  }

  /** The records so far are non-empty and all but the first open with a record-start line;
      once a record is closed, the one being built opens with a record-start line too. */
  predicate Shaped(records: seq<string>, current: string) {
    && (forall k :: 0 <= k < |records| ==> |records[k]| > 0)
    && (forall k :: 1 <= k < |records| ==> IsRecordStart(records[k]))
    && (|records| > 0 ==> IsRecordStart(current))
  }

  lemma PendingShaped(records: seq<string>, current: string)
    requires Shaped(records, current)
    ensures var rs := Pending(records, current);
      (forall k :: 0 <= k < |rs| ==> |rs[k]| > 0)
      && (forall k :: 1 <= k < |rs| ==> IsRecordStart(rs[k]))
  {
  }

  /** The loop body for a non-blank stripped line: a record-start line closes the record being
      built and opens a new one; any other line is appended to it after a space. */
  function Absorb(records: seq<string>, current: string, line: string): (seq<string>, string) {
    if IsRecordStart(line) then (Pending(records, current), line)
    else if |current| > 0 then (records, current + " " + line)
    else (records, line)
  }

  /** One loop step keeps the loop's invariants. */
  lemma AbsorbKeeps(records: seq<string>, current: string, line: string, done: seq<string>)
    requires |line| > 0
    requires JoinSpace(Pending(records, current)) == JoinSpace(done)
    requires |Pending(records, current)| == 0 <==> |done| == 0
    requires Shaped(records, current)
    ensures var (rs, c) := Absorb(records, current, line);
      JoinSpace(Pending(rs, c)) == JoinSpace(done + [line])
      && |Pending(rs, c)| > 0
      && Shaped(rs, c)
  {
    var before := Pending(records, current);
    JoinPendingSnoc(done, line);
    if IsRecordStart(line) || |current| == 0 {
      var (rs, c) := Absorb(records, current, line);
      assert Pending(rs, c) == before + [line];
      JoinPendingSnoc(before, line);
    } else {
      ExtendLast(records, current, line);
      if |records| > 0 {
        ExtendKeepsStart(current, line);
      }
    }
  }

  /** One loop step adds a record exactly for a record-start line, or for the first line. */
  lemma AbsorbCount(records: seq<string>, current: string, line: string, done: seq<string>)
    requires |line| > 0
    requires |Pending(records, current)| == 0 <==> |done| == 0
    requires |Pending(records, current)| == RecordCount(done)
    requires Shaped(records, current)
    ensures var (rs, c) := Absorb(records, current, line);
      |Pending(rs, c)| == RecordCount(done + [line])
  {
    var xs := done + [line];
    assert xs[..|xs| - 1] == done;
    assert Starts(xs) == Starts(done) + (if IsRecordStart(line) then 1 else 0);
    if |done| > 0 {
      assert xs[0] == done[0];
    }
  }

  /** One more line adds its stripped text to the cleaned lines unless it is blank. */
  lemma CleanedStep(lines: seq<string>, i: nat)
    requires i < |lines|
    ensures var l := Strip(lines[i]);
      Cleaned(lines[..i + 1]) == Cleaned(lines[..i]) + (if |l| == 0 then [] else [l])
  {
    assert lines[..i + 1][..i] == lines[..i];
  }

  lemma JoinPendingSnoc(xs: seq<string>, y: string)
    ensures JoinSpace(xs + [y]) == (if |xs| == 0 then y else JoinSpace(xs) + " " + y)
  {
    if |xs| > 0 {
      JoinSnoc(" ", xs, y);
    } else {
      assert xs + [y] == [y];
    }
  }

  /** Appending a line to the record being built adds it to the joined text after a space. */
  lemma ExtendLast(records: seq<string>, current: string, line: string)
    requires |current| > 0
    ensures JoinSpace(records + [current + " " + line]) == JoinSpace(records + [current]) + " " + line
  {
    JoinPendingSnoc(records, current + " " + line);
    JoinPendingSnoc(records, current);
  }

  /** A record that opened with a record-start line still counts as one after extension. */
  lemma ExtendKeepsStart(current: string, line: string)
    requires IsRecordStart(current)
    ensures IsRecordStart(current + " " + line)
  {
    var l := current + " " + line;
    assert l[0] == current[0];
    assert l[Find(current, ',')] == ',';
    FindInPrefix(current, " " + line, ',');
  }

  /** The first occurrence of a character present in `a` is the same in `a + b`. */
  lemma {:induction false} FindInPrefix(a: string, b: string, c: char)
    requires c in a
    ensures Find(a + b, c) == Find(a, c)
  {
    if a[0] != c {
      assert (a + b)[1..] == a[1..] + b;
      FindInPrefix(a[1..], b, c);
    }
  }

  /** `'individual' if str(x).upper() == 'INDIVIDUAL' else 'entity'`. */
  function RecordType(sdnType: string): (r: string)
    ensures r == "individual" || r == "entity"
    ensures r == "individual" <==> Upper(sdnType) == "INDIVIDUAL"
  {
    if Upper(sdnType) == "INDIVIDUAL" then "individual" else "entity"
  }

  /** The record type ignores letter case. */
  lemma RecordTypeIgnoresCase(sdnType: string)
    ensures RecordType(sdnType) == RecordType(Upper(sdnType))
    ensures RecordType(sdnType) == RecordType(Lower(sdnType))
  {
    UpperIdempotent(sdnType);
    UpperOfLower(sdnType);
  }
}

=== FILE: risk_engine.dfy ===
/** `RiskEngine`: the score thresholds, the confidence classes of a name similarity and the
    additive AML risk score. Similarities are exact reals; the source compares floats. */
module RiskEngine {
  import opened Wrappers
  import opened Text

  /** `RiskLevel`, ordered low < medium < high. */
  datatype RiskLevel = Low | Medium | High {
    /** The enum's string value. */
    function Value(): string {
      match this
      case Low => "low"
      case Medium => "medium"
      case High => "high"
    }

    function Rank(): nat {
      match this
      case Low => 0
      case Medium => 1
      case High => 2
    }
  }

  const HighRiskThreshold := 70
  const MediumRiskThreshold := 40
  const HighConfidenceThreshold: real := 95.0
  const MediumConfidenceThreshold: real := 85.0

  /** `calculate_risk_level`. */
  function CalculateRiskLevel(score: int): (r: RiskLevel)
    ensures r == High <==> score >= HighRiskThreshold
    ensures r == Medium <==> MediumRiskThreshold <= score < HighRiskThreshold
    ensures r == Low <==> score < MediumRiskThreshold
  {
    if score >= HighRiskThreshold then High
    else if score >= MediumRiskThreshold then Medium
    else Low
  }

  /** A higher score never gives a lower level. */
  lemma RiskLevelMonotone(a: int, b: int)
    requires a <= b
    ensures CalculateRiskLevel(a).Rank() <= CalculateRiskLevel(b).Rank()
  {
  }

  /** The confidence class of a similarity. */
  datatype Confidence = LowConfidence | MediumConfidence | HighConfidence {
    function Value(): string {
      match this
      case LowConfidence => "low"
      case MediumConfidence => "medium"
      case HighConfidence => "high"
    }

    function Rank(): nat {
      match this
      case LowConfidence => 0
      case MediumConfidence => 1
      case HighConfidence => 2
    }
  }

  /** `get_confidence_level`: "high" from 95, "medium" from 85, "low" below. */
  function GetConfidenceLevel(similarity: real): (r: Confidence)
    ensures r == HighConfidence <==> similarity >= HighConfidenceThreshold
    ensures r == MediumConfidence <==> MediumConfidenceThreshold <= similarity < HighConfidenceThreshold
    ensures r == LowConfidence <==> similarity < MediumConfidenceThreshold
  {
    if similarity >= HighConfidenceThreshold then HighConfidence
    else if similarity >= MediumConfidenceThreshold then MediumConfidence
    else LowConfidence
  }

  /** A higher similarity never gives a lower confidence class. */
  lemma ConfidenceMonotone(a: real, b: real)
    requires a <= b
    ensures GetConfidenceLevel(a).Rank() <= GetConfidenceLevel(b).Rank()
  {
  }

  /** One entry of the `matches` list as the score sees it: its "similarity", if present. */
  datatype ScoredMatch = ScoredMatch(similarity: Option<real>)

  /** `m.get("similarity", 0)`. */
  function SimilarityOf(m: ScoredMatch): real {
    m.similarity.GetOr(0.0)
  }

  /** `max(m.get("similarity", 0) for m in matches)`. */
  function MaxSimilarity(ms: seq<ScoredMatch>): (r: real)
    requires |ms| > 0
    ensures forall k :: 0 <= k < |ms| ==> SimilarityOf(ms[k]) <= r
    ensures exists k :: 0 <= k < |ms| && SimilarityOf(ms[k]) == r
  {
    if |ms| == 1 then SimilarityOf(ms[0])
    else
      var rest := MaxSimilarity(ms[1..]);
      assert forall k :: 1 <= k < |ms| ==> ms[k] == ms[1..][k - 1];
      if SimilarityOf(ms[0]) >= rest then SimilarityOf(ms[0]) else rest
  }

  /** The entries of `risk_factors`. */
  datatype Factor =
    | SanctionsMatch
    | ConfidenceMatch(level: Confidence)
    | PepMatch
    | MultipleMatches(count: nat)
  {
    /** The factor's text, e.g. "high_confidence_match" or "multiple_matches_3". */
    function Text(): string {
      match this
      case SanctionsMatch => "sanctions_match"
      case ConfidenceMatch(c) => c.Value() + "_confidence_match"
      case PepMatch => "pep_match"
      case MultipleMatches(n) => "multiple_matches_" + NatToString(n)
    }

    /** The points the factor adds to the score. */
    function Weight(): int {
      match this
      case SanctionsMatch => 50
      case ConfidenceMatch(HighConfidence) => 30
      case ConfidenceMatch(MediumConfidence) => 15
      case ConfidenceMatch(LowConfidence) => 5
      case PepMatch => 30
      case MultipleMatches(n) => Min(20, 5 * n)
    }

    /** The step of the score that records the factor. */
    function Position(): nat {
      match this
      case SanctionsMatch => 0
      case ConfidenceMatch(_) => 1
      case PepMatch => 2
      case MultipleMatches(_) => 3
    }
  }

  function TotalWeight(fs: seq<Factor>): int {
    if |fs| == 0 then 0 else fs[0].Weight() + TotalWeight(fs[1..])
  }

  datatype AmlRisk = AmlRisk(riskScore: int, riskLevel: RiskLevel, riskFactors: seq<Factor>)

  /** The factors `calculate_aml_risk_score` records, in the order it records them. */
  function AmlFactors(matches: seq<ScoredMatch>, hasSanctions: bool, hasPep: bool): (r: seq<Factor>)
    ensures SanctionsMatch in r <==> hasSanctions
    ensures PepMatch in r <==> hasPep && !hasSanctions
    ensures (exists k :: 0 <= k < |r| && r[k].ConfidenceMatch?) <==> hasSanctions && |matches| > 0
    ensures (exists k :: 0 <= k < |r| && r[k].MultipleMatches?) <==> |matches| > 1
    ensures forall j, k :: 0 <= j < k < |r| ==> r[j].Position() < r[k].Position()
    ensures forall k :: 0 <= k < |r| && r[k].ConfidenceMatch? ==>
      |matches| > 0 && r[k].level == GetConfidenceLevel(MaxSimilarity(matches))
    ensures forall k :: 0 <= k < |r| && r[k].MultipleMatches? ==> r[k].count == |matches|
  {
    var a := if hasSanctions then
        [SanctionsMatch]
        + (if |matches| > 0 then [ConfidenceMatch(GetConfidenceLevel(MaxSimilarity(matches)))] else [])
      else [];
    var b := if hasPep && !hasSanctions then [PepMatch] else [];
    var c := if |matches| > 1 then [MultipleMatches(|matches|)] else [];
    var r := a + b + c;
    assert hasSanctions && |matches| > 0 ==> r[1].ConfidenceMatch?;
    assert |matches| > 1 ==> r[|r| - 1].MultipleMatches?;
    r
  }

  /** `calculate_aml_risk_score`: the factors' points added up and capped at 100. */
  function CalculateAmlRiskScore(matches: seq<ScoredMatch>, hasSanctions: bool, hasPep: bool): (r: AmlRisk)
    ensures 0 <= r.riskScore <= 100
    ensures r.riskLevel == CalculateRiskLevel(r.riskScore)
    ensures r.riskFactors == AmlFactors(matches, hasSanctions, hasPep)
    ensures r.riskScore == Min(100, TotalWeight(r.riskFactors))
  {
    var score := (if hasSanctions then 50 else 0)
      + (if hasSanctions && |matches| > 0 then
           (var m := MaxSimilarity(matches);
            if m >= HighConfidenceThreshold then 30 else if m >= MediumConfidenceThreshold then 15 else 5)
         else 0)
      + (if hasPep && !hasSanctions then 30 else 0)
      + (if |matches| > 1 then Min(20, |matches| * 5) else 0);
    var capped := Min(100, score);
    FactorWeights(matches, hasSanctions, hasPep);
    AmlRisk(capped, CalculateRiskLevel(capped), AmlFactors(matches, hasSanctions, hasPep))
  }

  /** The points of the recorded factors are those the score adds up. */
  lemma FactorWeights(matches: seq<ScoredMatch>, hasSanctions: bool, hasPep: bool)
    ensures TotalWeight(AmlFactors(matches, hasSanctions, hasPep))
      == (if hasSanctions then 50 else 0)
      + (if hasSanctions && |matches| > 0 then
           (var m := MaxSimilarity(matches);
            if m >= HighConfidenceThreshold then 30 else if m >= MediumConfidenceThreshold then 15 else 5)
         else 0)
      + (if hasPep && !hasSanctions then 30 else 0)
      + (if |matches| > 1 then Min(20, |matches| * 5) else 0)
  {
    var a := if hasSanctions then
        [SanctionsMatch] + (if |matches| > 0 then [ConfidenceMatch(GetConfidenceLevel(MaxSimilarity(matches)))] else [])
      else [];
    var b := if hasPep && !hasSanctions then [PepMatch] else [];
    var c := if |matches| > 1 then [MultipleMatches(|matches|)] else [];
    TotalWeightAppend(a, b);
    TotalWeightAppend(a + b, c);
    if hasSanctions && |matches| > 0 {
      assert TotalWeight(a) == 50 + a[1].Weight();
    }
  }

  lemma {:induction false} TotalWeightAppend(a: seq<Factor>, b: seq<Factor>)
    ensures TotalWeight(a + b) == TotalWeight(a) + TotalWeight(b)
  {
    if |a| == 0 {
      assert a + b == b;
    } else {
      assert (a + b)[1..] == a[1..] + b;
      TotalWeightAppend(a[1..], b);
    }
  }

  /** With no sanctions match, no PEP match and at most one match, nothing is scored. */
  lemma QuietScreening(matches: seq<ScoredMatch>)
    requires |matches| <= 1
    ensures CalculateAmlRiskScore(matches, false, false) == AmlRisk(0, Low, [])
  {
    assert AmlFactors(matches, false, false) == [] + [] + [];
  }

  /** A sanctions match on a single match scores 50 plus 30/15/5 by its similarity's confidence
      class, whatever the PEP flag says; only a high-confidence match reaches the high level. */
  lemma SanctionsScore(matches: seq<ScoredMatch>, hasPep: bool)
    requires |matches| == 1
    ensures var r := CalculateAmlRiskScore(matches, true, hasPep);
      r.riskScore == 50 + ConfidenceMatch(GetConfidenceLevel(SimilarityOf(matches[0]))).Weight()
      && r.riskLevel == (if SimilarityOf(matches[0]) >= HighConfidenceThreshold then High else Medium)
  {
    assert MaxSimilarity(matches) == SimilarityOf(matches[0]);
  }

  /** The confidence factor names the confidence class of the best similarity. */
  lemma ConfidenceFactorText(matches: seq<ScoredMatch>, hasPep: bool)
    requires |matches| > 0
    ensures AmlFactors(matches, true, hasPep)[1].Text()
      == GetConfidenceLevel(MaxSimilarity(matches)).Value() + "_confidence_match"
  {
  }
}

=== FILE: text.dfy ===
/** Python string primitives the repository relies on: `str.isspace`, `strip`, `split()`,
    `re.split` on a character class, `join`, `upper`/`lower` and `find`. */
module Text {

  /** Python's `str.isspace()`: the code points that `str.split()`, `str.strip()` and the
      regular-expression class `\s` treat as whitespace. */
  predicate IsSpace(c: char) {
    var n := c as int;
    n == 32 || 9 <= n <= 13 || 28 <= n <= 31 || n == 0x85 || n == 0xA0 || n == 0x1680
    || 0x2000 <= n <= 0x200A || n == 0x2028 || n == 0x2029 || n == 0x202F || n == 0x205F
    || n == 0x3000
  }

  predicate IsDigit(c: char) { '0' <= c <= '9' }

  predicate IsUpperLetter(c: char) { 'A' <= c <= 'Z' }

  predicate IsLowerLetter(c: char) { 'a' <= c <= 'z' }

  predicate IsAsciiLetter(c: char) { IsUpperLetter(c) || IsLowerLetter(c) }

  predicate AllDigits(s: string) { forall i :: 0 <= i < |s| ==> IsDigit(s[i]) }

  function UpperChar(c: char): char {
    if IsLowerLetter(c) then (c as int - 32) as char else c
  }

  function LowerChar(c: char): char {
    if IsUpperLetter(c) then (c as int + 32) as char else c
  }

  /** `str.upper()` on ASCII letters; every other character is kept. */
  function Upper(s: string): (r: string)
    ensures |r| == |s|
    ensures forall i :: 0 <= i < |s| ==> r[i] == UpperChar(s[i])
  {
    seq(|s|, i requires 0 <= i < |s| => UpperChar(s[i]))
  }

  /** `str.lower()` on ASCII letters; every other character is kept. */
  function Lower(s: string): (r: string)
    ensures |r| == |s|
    ensures forall i :: 0 <= i < |s| ==> r[i] == LowerChar(s[i])
  {
    seq(|s|, i requires 0 <= i < |s| => LowerChar(s[i]))
  }

  /** Upper-casing twice is upper-casing once, so comparisons after `upper()` ignore case. */
  lemma UpperIdempotent(s: string)
    ensures Upper(Upper(s)) == Upper(s)
  {
  }

  /** Upper-casing after lower-casing is upper-casing. */
  lemma UpperOfLower(s: string)
    ensures Upper(Lower(s)) == Upper(s)
  {
  }

  /** Lower-casing after upper-casing is lower-casing. */
  lemma LowerOfUpper(s: string)
    ensures Lower(Upper(s)) == Lower(s)
  {
  }

  /** Leading whitespace removed (`str.lstrip()`). */
  function TrimLeft(s: string): (r: string)
    ensures |r| <= |s| && r == s[|s| - |r|..]
    ensures forall i :: 0 <= i < |s| - |r| ==> IsSpace(s[i])
    ensures |r| > 0 ==> !IsSpace(r[0])
  {
    if |s| > 0 && IsSpace(s[0]) then TrimLeft(s[1..]) else s
  }

  /** Trailing whitespace removed (`str.rstrip()`). */
  function TrimRight(s: string): (r: string)
    ensures |r| <= |s| && r == s[..|r|]
    ensures forall i :: |r| <= i < |s| ==> IsSpace(s[i])
    ensures |r| > 0 ==> !IsSpace(r[|r| - 1])
  {
    if |s| > 0 && IsSpace(s[|s| - 1]) then TrimRight(s[..|s| - 1]) else s
  }

  /** `str.strip()`: the slice of `s` between its leading and trailing whitespace. */
  function Strip(s: string): (r: string)
    ensures |r| <= |s|
    ensures |r| > 0 ==> !IsSpace(r[0]) && !IsSpace(r[|r| - 1])
    ensures r == [] <==> forall i :: 0 <= i < |s| ==> IsSpace(s[i])
  {
    var l := TrimLeft(s);
    var r := TrimRight(l);
    StripSlice(s, l, r);
    r
  }

  lemma StripSlice(s: string, l: string, r: string)
    requires l == TrimLeft(s) && r == TrimRight(l)
    ensures r == [] ==> forall i :: 0 <= i < |s| ==> IsSpace(s[i])
  {
    if r == [] {
      assert |l| == 0;
    }
  }

  /** Upper-casing distributes over concatenation. */
  lemma UpperAppend(a: string, b: string)
    ensures Upper(a + b) == Upper(a) + Upper(b)
  {
  }

  /** Stripping commutes with ASCII upper- and lower-casing, which never touch whitespace. */
  lemma StripCase(s: string)
    ensures Strip(Upper(s)) == Upper(Strip(s))
    ensures Strip(Lower(s)) == Lower(Strip(s))
  {
    TrimLeftUpper(s);
    TrimRightUpper(TrimLeft(s));
    TrimLeftLower(s);
    TrimRightLower(TrimLeft(s));
  }

  /** Case mapping never turns a space into a non-space or back. */
  lemma SpaceCase(c: char)
    ensures IsSpace(UpperChar(c)) == IsSpace(c)
    ensures IsSpace(LowerChar(c)) == IsSpace(c)
  {
  }

  lemma {:induction false} TrimLeftUpper(s: string)
    ensures TrimLeft(Upper(s)) == Upper(TrimLeft(s))
  {
    if |s| > 0 {
      var u := Upper(s);
      SpaceCase(s[0]);
      assert u[0] == UpperChar(s[0]);
      if IsSpace(s[0]) {
        assert u[1..] == Upper(s[1..]);
        TrimLeftUpper(s[1..]);
      }
    }
  }

  lemma {:induction false} TrimLeftLower(s: string)
    ensures TrimLeft(Lower(s)) == Lower(TrimLeft(s))
  {
    if |s| > 0 {
      var u := Lower(s);
      SpaceCase(s[0]);
      assert u[0] == LowerChar(s[0]);
      if IsSpace(s[0]) {
        assert u[1..] == Lower(s[1..]);
        TrimLeftLower(s[1..]);
      }
    }
  }

  lemma {:induction false} TrimRightUpper(s: string)
    ensures TrimRight(Upper(s)) == Upper(TrimRight(s))
  {
    if |s| > 0 {
      var n := |s| - 1;
      SpaceCase(s[n]);
      if IsSpace(s[n]) {
        UpperPrefix(s, n);
        assert TrimRight(Upper(s)) == TrimRight(Upper(s[..n]));
        TrimRightUpper(s[..n]);
        assert TrimRight(s) == TrimRight(s[..n]);
      } else {
        assert !IsSpace(Upper(s)[n]);
        assert TrimRight(Upper(s)) == Upper(s);
        assert TrimRight(s) == s;
      }
    } else {
      assert Upper(s) == [];
    }
  }

  lemma UpperPrefix(s: string, n: nat)
    requires n <= |s|
    ensures Upper(s)[..n] == Upper(s[..n])
  {
  }

  lemma UpperSuffix(s: string, n: nat)
    requires n <= |s|
    ensures Upper(s)[n..] == Upper(s[n..])
  {
  }

  lemma {:induction false} TrimRightLower(s: string)
    ensures TrimRight(Lower(s)) == Lower(TrimRight(s))
  {
    if |s| > 0 {
      var n := |s| - 1;
      SpaceCase(s[n]);
      if IsSpace(s[n]) {
        LowerPrefix(s, n);
        assert TrimRight(Lower(s)) == TrimRight(Lower(s[..n]));
        TrimRightLower(s[..n]);
        assert TrimRight(s) == TrimRight(s[..n]);
      } else {
        assert !IsSpace(Lower(s)[n]);
        assert TrimRight(Lower(s)) == Lower(s);
        assert TrimRight(s) == s;
      }
    } else {
      assert Lower(s) == [];
    }
  }

  lemma LowerPrefix(s: string, n: nat)
    requires n <= |s|
    ensures Lower(s)[..n] == Lower(s[..n])
  {
  }

  /** Number of leading characters of `s` that are not separators. */
  function RunLength(s: string, sep: char -> bool): (n: nat)
    ensures n <= |s|
    ensures forall i :: 0 <= i < n ==> !sep(s[i])
    ensures n < |s| ==> sep(s[n])
  {
    if |s| == 0 || sep(s[0]) then 0 else 1 + RunLength(s[1..], sep)
  }

  predicate NoSep(t: string, sep: char -> bool) { forall i :: 0 <= i < |t| ==> !sep(t[i]) }

  /** The maximal non-empty runs of non-separator characters, left to right: Python's
      `[p for p in re.split('[...]+', s) if p]`, and `str.split()` when `sep` is `IsSpace`. */
  function Split(s: string, sep: char -> bool): (r: seq<string>)
    ensures forall k :: 0 <= k < |r| ==> |r[k]| > 0 && NoSep(r[k], sep)
    decreases |s|
  {
    if |s| == 0 then []
    else if sep(s[0]) then Split(s[1..], sep)
    else
      var n := RunLength(s, sep);
      [s[..n]] + Split(s[n..], sep)
  }

  /** Python's `str.split()` with no arguments. */
  function Words(s: string): (r: seq<string>)
    ensures forall k :: 0 <= k < |r| ==> |r[k]| > 0 && NoSep(r[k], IsSpace)
  {
    Split(s, IsSpace)
  }

  /** `sep.join(xs)`. */
  function Join(sep: string, xs: seq<string>): string
  {
    if |xs| == 0 then "" else if |xs| == 1 then xs[0] else xs[0] + sep + Join(sep, xs[1..])
  }

  /** `" ".join(xs)`. */
  function JoinSpace(xs: seq<string>): string { Join(" ", xs) }

  /** `filter(None, xs)`: the non-empty strings, in order. */
  function NonEmpty(xs: seq<string>): (r: seq<string>)
    ensures |r| <= |xs|
    ensures forall k :: 0 <= k < |r| ==> |r[k]| > 0
  {
    if |xs| == 0 then [] else if |xs[0]| > 0 then [xs[0]] + NonEmpty(xs[1..]) else NonEmpty(xs[1..])
  }

  /** No non-empty string survives filtering exactly when all are empty. */
  lemma {:induction false} NonEmptyEmptyIff(xs: seq<string>)
    ensures NonEmpty(xs) == [] <==> forall k :: 0 <= k < |xs| ==> xs[k] == ""
  {
    if |xs| > 0 {
      NonEmptyEmptyIff(xs[1..]);
      assert forall k :: 1 <= k < |xs| ==> xs[k] == xs[1..][k - 1];
    }
  }

  /** Joining non-empty strings gives "" only for none. */
  lemma JoinEmpty(sep: string, xs: seq<string>)
    requires forall k :: 0 <= k < |xs| ==> |xs[k]| > 0
    ensures Join(sep, xs) == "" <==> xs == []
  {
    if |xs| > 0 {
      assert |xs[0]| > 0;
    }
  }

  lemma NonEmptyCons(x: string, xs: seq<string>)
    ensures NonEmpty([x] + xs) == (if |x| > 0 then [x] else []) + NonEmpty(xs)
  {
    assert ([x] + xs)[1..] == xs;
  }

  /** `sep.join` of two and of three strings. */
  lemma JoinSmall(sep: string, a: string, b: string, c: string)
    ensures Join(sep, [a, b]) == a + sep + b
    ensures Join(sep, [a, b, c]) == a + sep + b + sep + c
  {
    assert [a, b][1..] == [b];
    assert [a, b, c][1..] == [b, c];
    assert [b, c][1..] == [c];
    assert Join(sep, [b, c]) == b + sep + c;
    assert a + sep + (b + sep + c) == a + sep + b + sep + c;
  }

  /** `' '.join(text.split())`: whitespace runs collapsed to one space, ends trimmed. */
  function CollapseSpaces(s: string): string { JoinSpace(Words(s)) }

  /** A string with no whitespace at either end, as `str.strip()` leaves it. */
  predicate Trimmed(s: string) { |s| == 0 || (!IsSpace(s[0]) && !IsSpace(s[|s| - 1])) }

  /** Stripping a trimmed string changes nothing. */
  lemma StripTrimmed(s: string)
    requires Trimmed(s)
    ensures Strip(s) == s
  {
  }

  /** Joining non-empty trimmed strings gives a trimmed string. */
  lemma {:induction false} JoinTrimmed(sep: string, xs: seq<string>)
    requires forall k :: 0 <= k < |xs| ==> |xs[k]| > 0 && Trimmed(xs[k])
    ensures Trimmed(Join(sep, xs))
    ensures |xs| > 0 ==> |Join(sep, xs)| > 0
  {
    if |xs| > 1 {
      JoinTrimmed(sep, xs[1..]);
      var j := Join(sep, xs);
      var rest := Join(sep, xs[1..]);
      assert j == xs[0] + sep + rest;
      assert j[0] == xs[0][0];
      assert j[|j| - 1] == rest[|rest| - 1];
    }
  }

  /** Collapsed whitespace leaves a trimmed string. */
  lemma CollapseTrimmed(s: string)
    ensures Trimmed(CollapseSpaces(s))
  {
    var ws := Words(s);
    forall k | 0 <= k < |ws|
      ensures |ws[k]| > 0 && Trimmed(ws[k])
    {
      assert NoSep(ws[k], IsSpace);
    }
    JoinTrimmed(" ", ws);
  }

  /** Whitespace collapsed: no whitespace at either end, and every whitespace character is a
      single ' ' standing between two non-whitespace characters. */
  predicate Collapsed(s: string) {
    && Trimmed(s)
    && (forall i :: 0 <= i < |s| && IsSpace(s[i]) ==> s[i] == ' ')
    && (forall i :: 0 < i < |s| ==> !DoubleSpace(s, i))
  }

  /** The characters at `i - 1` and `i` are both whitespace. */
  predicate DoubleSpace(s: string, i: int)
    requires 0 < i < |s|
  {
    IsSpace(s[i - 1]) && IsSpace(s[i])
  }

  /** Words joined by single spaces leave whitespace collapsed. */
  lemma {:induction false} JoinCollapsed(xs: seq<string>)
    requires forall k :: 0 <= k < |xs| ==> |xs[k]| > 0 && NoSep(xs[k], IsSpace)
    ensures Collapsed(JoinSpace(xs))
    ensures |xs| > 0 ==> |JoinSpace(xs)| > 0
  {
    if |xs| == 1 {
      assert NoSep(xs[0], IsSpace);
    } else if |xs| > 1 {
      var x := xs[0];
      var rest := JoinSpace(xs[1..]);
      JoinCollapsed(xs[1..]);
      var j := x + " " + rest;
      assert JoinSpace(xs) == j;
      assert NoSep(x, IsSpace);
      forall i | 0 <= i < |j| && IsSpace(j[i]) ensures j[i] == ' ' {
        if i > |x| {
          assert j[i] == rest[i - |x| - 1];
        }
      }
      forall i | 0 < i < |j| ensures !DoubleSpace(j, i) {
        if i <= |x| {
          assert j[i - 1] == x[i - 1];
        } else if i == |x| + 1 {
          assert j[i] == rest[0];
        } else {
          var t := i - |x| - 1;
          assert j[i - 1] == rest[t - 1];
          assert j[i] == rest[t];
          assert !DoubleSpace(rest, t);
        }
      }
      assert j[0] == x[0];
      assert j[|j| - 1] == rest[|rest| - 1];
    }
  }

  /** `' '.join(s.split())` leaves whitespace collapsed. */
  lemma CollapseSpacesCollapsed(s: string)
    ensures Collapsed(CollapseSpaces(s))
  {
    JoinCollapsed(Words(s));
  }

  predicate OccursAt(s: string, sub: string, i: int) {
    0 <= i <= |s| - |sub| && s[i..i + |sub|] == sub
  }

  /** Python's `sub in s` for strings. */
  predicate Contains(s: string, sub: string) {
    exists i :: 0 <= i <= |s| - |sub| && OccursAt(s, sub, i)
  }

  /** Python's `str.find(c)`: the first index of `c`, or -1. */
  function Find(s: string, c: char): (r: int)
    ensures -1 <= r < |s|
    ensures r == -1 <==> c !in s
    ensures r >= 0 ==> s[r] == c && c !in s[..r]
  {
    if |s| == 0 then -1
    else if s[0] == c then 0
    else var k := Find(s[1..], c); if k == -1 then -1 else k + 1
  }

  function DigitChar(d: int): char
    requires 0 <= d <= 9
  {
    ('0' as int + d) as char
  }

  function DigitValue(c: char): int
    requires IsDigit(c)
  {
    c as int - '0' as int
  }

  /** Python's `str(n)` for a non-negative integer. */
  function NatToString(n: nat): (r: string)
    ensures |r| > 0 && AllDigits(r)
  {
    if n < 10 then [DigitChar(n)] else NatToString(n / 10) + [DigitChar(n % 10)]
  }

  /** The decimal value of a digit string. */
  function DigitsValue(s: string): (v: nat)
    requires AllDigits(s)
  {
    if |s| == 0 then 0 else DigitsValue(s[..|s| - 1]) * 10 + DigitValue(s[|s| - 1])
  }

  /** Printing a number and reading it back gives the number. */
  lemma {:induction false} NatToStringRoundTrip(n: nat)
    ensures DigitsValue(NatToString(n)) == n
  {
    if n >= 10 {
      NatToStringRoundTrip(n / 10);
      var s := NatToString(n);
      assert s[..|s| - 1] == NatToString(n / 10);
    }
  }

  // ---------------------------------------------------------------------------
  // Joining and re-splitting

  lemma {:induction false} JoinAppend(sep: string, xs: seq<string>, ys: seq<string>)
    requires |xs| > 0 && |ys| > 0
    ensures Join(sep, xs + ys) == Join(sep, xs) + sep + Join(sep, ys)
  {
    if |xs| == 1 {
      assert xs + ys == [xs[0]] + ys;
      assert (xs + ys)[1..] == ys;
    } else {
      JoinAppend(sep, xs[1..], ys);
      assert (xs + ys)[1..] == xs[1..] + ys;
    }
  }

  lemma JoinSnoc(sep: string, xs: seq<string>, y: string)
    requires |xs| > 0
    ensures Join(sep, xs + [y]) == Join(sep, xs) + sep + y
  {
    JoinAppend(sep, xs, [y]);
  }

  /** A run of non-separators followed by a separator (or nothing) splits off as one piece. */
  lemma {:induction false} SplitLeadingRun(t: string, rest: string, sep: char -> bool)
    requires |t| > 0 && NoSep(t, sep)
    requires |rest| == 0 || sep(rest[0])
    ensures Split(t + rest, sep) == [t] + Split(rest, sep)
  {
    var s := t + rest;
    RunLengthOfPrefix(t, rest, sep);
    assert s[..|t|] == t && s[|t|..] == rest;
  }

  lemma {:induction false} RunLengthOfPrefix(t: string, rest: string, sep: char -> bool)
    requires NoSep(t, sep)
    requires |rest| == 0 || sep(rest[0])
    ensures RunLength(t + rest, sep) == |t|
  {
    if |t| > 0 {
      RunLengthOfPrefix(t[1..], rest, sep);
      assert (t + rest)[1..] == t[1..] + rest;
    }
  }

  /** Splitting around a separator character splits each side independently. */
  lemma {:induction false} SplitAround(a: string, c: char, b: string, sep: char -> bool)
    requires sep(c)
    ensures Split(a + [c] + b, sep) == Split(a, sep) + Split(b, sep)
    decreases |a|
  {
    var s := a + [c] + b;
    if |a| == 0 {
      assert s == [c] + b && s[1..] == b;
    } else if sep(a[0]) {
      SplitAround(a[1..], c, b, sep);
      assert s[1..] == a[1..] + [c] + b;
    } else {
      var m := RunLength(a, sep);
      var t, u := a[..m], a[m..];
      assert a == t + u;
      SplitAround(u, c, b, sep);
      SplitAroundRun(t, u, c, b, sep);
    }
  }

  /** The step of `SplitAround` past a leading run `t` of non-separators. */
  lemma SplitAroundRun(t: string, u: string, c: char, b: string, sep: char -> bool)
    requires |t| > 0 && NoSep(t, sep) && (|u| == 0 || sep(u[0])) && sep(c)
    requires Split(u + [c] + b, sep) == Split(u, sep) + Split(b, sep)
    ensures Split(t + u + [c] + b, sep) == Split(t + u, sep) + Split(b, sep)
  {
    var v := u + [c] + b;
    AroundShape(t, u, c, b);
    SplitLeadingRun(t, v, sep);
    SplitLeadingRun(t, u, sep);
  }

  lemma AroundShape<T>(t: seq<T>, u: seq<T>, c: T, b: seq<T>)
    ensures t + u + [c] + b == t + (u + [c] + b)
    ensures (u + [c] + b)[0] == if |u| > 0 then u[0] else c
  {
  }

  /** A single clean token splits to itself. */
  lemma SplitToken(t: string, sep: char -> bool)
    requires |t| > 0 && NoSep(t, sep)
    ensures Split(t, sep) == [t]
  {
    SplitLeadingRun(t, "", sep);
    assert t + "" == t;
  }

  /** Round trip: joining clean tokens with single spaces and splitting again gives the tokens. */
  lemma {:induction false} SplitJoinSpace(toks: seq<string>, sep: char -> bool)
    requires sep(' ')
    requires forall k :: 0 <= k < |toks| ==> |toks[k]| > 0 && NoSep(toks[k], sep)
    ensures Split(JoinSpace(toks), sep) == toks
  {
    if |toks| == 1 {
      SplitToken(toks[0], sep);
    } else if |toks| > 1 {
      SplitJoinSpace(toks[1..], sep);
      SplitToken(toks[0], sep);
      assert JoinSpace(toks) == toks[0] + [' '] + JoinSpace(toks[1..]);
      SplitAround(toks[0], ' ', JoinSpace(toks[1..]), sep);
    }
  }

  /** `str.split()` after collapsing whitespace yields the same words. */
  lemma WordsOfCollapse(s: string)
    ensures Words(CollapseSpaces(s)) == Words(s)
  {
    SplitJoinSpace(Words(s), IsSpace);
  }

  /** Splitting commutes with ASCII upper-casing when separators are case-free. */
  lemma {:induction false} SplitUpper(s: string, sep: char -> bool)
    requires forall c :: sep(UpperChar(c)) == sep(c)
    ensures |Split(Upper(s), sep)| == |Split(s, sep)|
    ensures forall k :: 0 <= k < |Split(s, sep)| ==> Split(Upper(s), sep)[k] == Upper(Split(s, sep)[k])
    decreases |s|
  {
    if |s| > 0 {
      var u := Upper(s);
      assert u[1..] == Upper(s[1..]);
      if sep(s[0]) {
        SplitUpper(s[1..], sep);
      } else {
        var n := RunLength(s, sep);
        RunLengthUpper(s, sep);
        UpperPrefix(s, n);
        UpperSuffix(s, n);
        SplitUpper(s[n..], sep);
        assert !sep(u[0]);
        assert Split(u, sep) == [Upper(s[..n])] + Split(Upper(s[n..]), sep);
        assert Split(s, sep) == [s[..n]] + Split(s[n..], sep);
        UpperCons(s[..n], Split(s[n..], sep), Split(Upper(s[n..]), sep));
      }
    }
  }

  /** Upper-casing element by element commutes with putting one more element in front. */
  lemma UpperCons(x: string, xs: seq<string>, ys: seq<string>)
    requires |ys| == |xs| && forall k :: 0 <= k < |xs| ==> ys[k] == Upper(xs[k])
    ensures var a, b := [Upper(x)] + ys, [x] + xs;
      |a| == |b| && forall k :: 0 <= k < |b| ==> a[k] == Upper(b[k])
  {
  }

  lemma {:induction false} RunLengthUpper(s: string, sep: char -> bool)
    requires forall c :: sep(UpperChar(c)) == sep(c)
    ensures RunLength(Upper(s), sep) == RunLength(s, sep)
  {
    if |s| > 0 {
      assert Upper(s)[1..] == Upper(s[1..]);
      RunLengthUpper(s[1..], sep);
    }
  }
}

=== FILE: uk_convert.dfy ===
/** The pure helpers of the UK converter: whitespace cleaning, splitting a name into first,
    middle and last parts without titles and suffixes, and the record type. */
module UkConvert {
  import opened Wrappers
  import opened Text
  import opened Seqs

  /** `clean_text`: "" for a missing or empty value, else whitespace runs collapsed to one
      space with the ends trimmed. */
  function CleanText(v: Option<string>): (r: string)
    ensures v.None? ==> r == ""
    ensures Collapsed(r)
  {
    match v
    case None => ""
    case Some(s) =>
      if |s| == 0 then ""
      else
        CollapseSpacesCollapsed(s);
        CollapseSpaces(s)
  }

  /** Cleaning keeps the whitespace-separated words. */
  lemma CleanTextWords(s: string)
    ensures Words(CleanText(Some(s))) == Words(s)
  {
    if |s| > 0 {
      WordsOfCollapse(s);
    }
  }

  /** Cleaning twice is cleaning once. */
  lemma CleanTextIdempotent(v: Option<string>)
    ensures CleanText(Some(CleanText(v))) == CleanText(v)
  {
    if v.Some? && |v.value| > 0 {
      WordsOfCollapse(v.value);
    }
  }

  /** The separators of `re.split(r'[\s,.-]+', name)`. */
  predicate IsNameSep(c: char) { IsSpace(c) || c == ',' || c == '.' || c == '-' }

  function Suffixes(): seq<string> { ["JR", "SR", "II", "III", "IV", "V"] }

  function Titles(): seq<string> {
    ["MR", "MRS", "MS", "MISS", "DR", "PROF", "SIR", "LADY", "LORD", "CAPT", "COL", "MAJ", "GEN", "REV", "FR"]
  }

  /** A token that is neither a listed suffix nor a listed title. */
  predicate IsKept(p: string) { p !in Suffixes() && p !in Titles() }

  /** The tokens `parse_name` keeps: the pieces of the cleaned, upper-cased name between runs
      of separators, without the suffixes and titles. */
  function NameTokens(full: string): (r: seq<string>)
    ensures forall k :: 0 <= k < |r| ==> |r[k]| > 0 && NoSep(r[k], IsNameSep) && IsKept(r[k])
  {
    Filter(IsKept, Split(Upper(CleanText(Some(full))), IsNameSep))
  }

  datatype UkName = UkName(name: string, firstName: string, middleName: string, lastName: string)

  function NoName(): UkName { UkName("", "", "", "") }

  /** `parse_name`. */
  function ParseName(v: Option<string>): (r: UkName)
    ensures v.None? || v == Some("") ==> r == NoName()
    ensures v.Some? ==> r.name == JoinSpace(NameTokens(v.value))
  {
    if v.None? || |v.value| == 0 then NoName()
    else
      var parts := NameTokens(v.value);
      var first := if |parts| > 0 then parts[0] else "";
      var last := if |parts| > 1 then parts[|parts| - 1] else first;
      var middle := if |parts| > 2 then JoinSpace(parts[1..|parts| - 1]) else "";
      UkName(JoinSpace(parts), first, middle, last)
  }

  /** The parts of a parsed name: one token is both first and last name with no middle name;
      from two tokens on, the first and last tokens frame the inner ones. */
  lemma ParseNameParts(s: string)
    requires |s| > 0
    ensures var toks := NameTokens(s);
      var r := ParseName(Some(s));
      (|toks| == 0 ==> r == NoName())
      && (|toks| == 1 ==> r.firstName == r.lastName == toks[0] && r.middleName == "")
      && (|toks| >= 2 ==>
            r.firstName == toks[0] && r.lastName == toks[|toks| - 1] && r.middleName == JoinSpace(toks[1..|toks| - 1]))
  {
  }

  /** Re-tokenising the name gives back the kept tokens. */
  lemma ParseNameTokens(s: string)
    ensures Split(ParseName(Some(s)).name, IsNameSep) == NameTokens(s)
  {
    SplitJoinSpace(NameTokens(s), IsNameSep);
  }

  /** From two tokens on, first, middle and last name rebuild the name. */
  lemma ParseNameRebuild(s: string)
    requires |NameTokens(s)| >= 2
    ensures var r := ParseName(Some(s));
      JoinSpace(NonEmpty([r.firstName, r.middleName, r.lastName])) == r.name
  {
    FrameRebuild(NameTokens(s));
  }

  /** The first token, the inner tokens joined and the last token, joined again, are the
      tokens joined. */
  lemma FrameRebuild(toks: seq<string>)
    requires |toks| >= 2
    requires forall k :: 0 <= k < |toks| ==> |toks[k]| > 0
    ensures var n := |toks|;
      var middle := if n > 2 then JoinSpace(toks[1..n - 1]) else "";
      JoinSpace(NonEmpty([toks[0], middle, toks[n - 1]])) == JoinSpace(toks)
  {
    var n := |toks|;
    if n == 2 {
      NonEmptyDropMiddle(toks[0], toks[1]);
      JoinSmall(" ", toks[0], toks[1], "");
      JoinTwo(toks);
    } else {
      FrameRebuildInner(toks[0], toks[1..n - 1], toks[n - 1]);
      assert toks == [toks[0]] + toks[1..n - 1] + [toks[n - 1]];
    }
  }

  lemma FrameRebuildInner(first: string, inner: seq<string>, last: string)
    requires |first| > 0 && |last| > 0 && |inner| > 0 && |inner[0]| > 0
    ensures JoinSpace(NonEmpty([first, JoinSpace(inner), last])) == JoinSpace([first] + inner + [last])
  {
    var m := JoinSpace(inner);
    assert |m| > 0;
    NonEmptyKeepThree(first, m, last);
    JoinSmall(" ", first, m, last);
    JoinSnoc(" ", [first] + inner, last);
    JoinAppend(" ", [first], inner);
  }

  /** An empty middle string is dropped. */
  lemma NonEmptyDropMiddle(a: string, c: string)
    requires |a| > 0 && |c| > 0
    ensures NonEmpty([a, "", c]) == [a, c]
  {
    assert [a, "", c][1..] == ["", c];
    assert ["", c][1..] == [c];
    assert [c][1..] == [];
    assert NonEmpty([c]) == [c];
    assert NonEmpty(["", c]) == [c];
    assert NonEmpty([a, "", c]) == [a] + [c];
  }

  /** Three non-empty strings are all kept. */
  lemma NonEmptyKeepThree(a: string, b: string, c: string)
    requires |a| > 0 && |b| > 0 && |c| > 0
    ensures NonEmpty([a, b, c]) == [a, b, c]
  {
    assert [a, b, c][1..] == [b, c];
    assert [b, c][1..] == [c];
    assert [c][1..] == [];
    assert NonEmpty([c]) == [c];
    assert NonEmpty([b, c]) == [b] + [c];
    assert NonEmpty([a, b, c]) == [a] + [b, c];
  }

  lemma JoinTwo(toks: seq<string>)
    requires |toks| == 2
    ensures JoinSpace(toks) == toks[0] + " " + toks[1]
  {
    JoinSmall(" ", toks[0], toks[1], "");
    assert toks == [toks[0], toks[1]];
  }

  /** With exactly one token, first and last name repeat it, so the three parts joined spell
      the name twice. */
  lemma ParseNameSingle(s: string)
    requires |NameTokens(s)| == 1
    ensures var r := ParseName(Some(s));
      JoinSpace(NonEmpty([r.firstName, r.middleName, r.lastName])) == r.name + " " + r.name
  {
    var t := NameTokens(s)[0];
    assert |s| > 0;
    assert ParseName(Some(s)) == UkName(t, t, "", t);
    NonEmptyDropMiddle(t, t);
    JoinSmall(" ", t, t, "");
  }

  /** The kept tokens are already upper case. */
  lemma TokensUpper(full: string)
    ensures forall k :: 0 <= k < |NameTokens(full)| ==> Upper(NameTokens(full)[k]) == NameTokens(full)[k]
  {
    var c := CleanText(Some(full));
    var pieces := Split(Upper(c), IsNameSep);
    SplitUpper(c, IsNameSep);
    forall k | 0 <= k < |pieces|
      ensures Upper(pieces[k]) == pieces[k]
    {
      UpperIdempotent(Split(c, IsNameSep)[k]);
    }
  }

  /** Joining upper-case tokens gives an upper-case string. */
  lemma {:induction false} UpperJoinSpace(toks: seq<string>)
    requires forall k :: 0 <= k < |toks| ==> Upper(toks[k]) == toks[k]
    ensures Upper(JoinSpace(toks)) == JoinSpace(toks)
  {
    if |toks| > 1 {
      UpperJoinSpace(toks[1..]);
      UpperAppend(toks[0] + " ", JoinSpace(toks[1..]));
      UpperAppend(toks[0], " ");
    }
  }

  /** Parsing the parsed name again changes nothing. */
  lemma ParseNameIdempotent(s: string)
    ensures ParseName(Some(ParseName(Some(s)).name)) == ParseName(Some(s))
  {
    var toks := NameTokens(s);
    if |s| > 0 && |toks| > 0 {
      assert |JoinSpace(toks)| > 0 by {
        assert |toks[0]| > 0;
      }
      TokensOfJoined(s);
    }
  }

  /** The kept tokens, joined by spaces, tokenise back to themselves. */
  lemma TokensOfJoined(s: string)
    ensures NameTokens(JoinSpace(NameTokens(s))) == NameTokens(s)
  {
    var toks := NameTokens(s);
    var name := JoinSpace(toks);
    CleanJoined(toks);
    TokensUpper(s);
    UpperJoinSpace(toks);
    SplitJoinSpace(toks, IsNameSep);
    FilterAll(IsKept, toks);
  }

  /** Cleaning leaves space-joined tokens unchanged. */
  lemma CleanJoined(toks: seq<string>)
    requires forall k :: 0 <= k < |toks| ==> |toks[k]| > 0 && NoSep(toks[k], IsNameSep)
    ensures CleanText(Some(JoinSpace(toks))) == JoinSpace(toks)
  {
    forall k | 0 <= k < |toks|
      ensures NoSep(toks[k], IsSpace)
    {
      assert NoSep(toks[k], IsNameSep);
    }
    SplitJoinSpace(toks, IsSpace);
  }

  // ---------------------------------------------------------------------------
  // Record type

  datatype UkType = Individual | Entity | Vessel | OtherType {
    function Value(): string {
      match this
      case Individual => "individual"
      case Entity => "entity"
      case Vessel => "vessel"
      case OtherType => "other"
    }
  }

  /** The record type from the stripped, upper-cased "Type" column, checked in order. */
  function RecordType(t: string): (r: UkType)
    ensures var u := Upper(Strip(t));
      && (r == Individual <==> Contains(u, "INDIVIDUAL"))
      && (r == Entity <==> !Contains(u, "INDIVIDUAL") && (Contains(u, "ENTITY") || Contains(u, "ORGANIZATION")))
      && (r == Vessel <==>
            !Contains(u, "INDIVIDUAL") && !Contains(u, "ENTITY") && !Contains(u, "ORGANIZATION")
            && (Contains(u, "VESSEL") || Contains(u, "SHIP") || Contains(u, "BOAT")))
  {
    var u := Upper(Strip(t));
    if Contains(u, "INDIVIDUAL") then Individual
    else if Contains(u, "ENTITY") || Contains(u, "ORGANIZATION") then Entity
    else if Contains(u, "VESSEL") || Contains(u, "SHIP") || Contains(u, "BOAT") then Vessel
    else OtherType
  }

  /** The record type ignores letter case. */
  lemma RecordTypeIgnoresCase(t: string)
    ensures RecordType(Lower(t)) == RecordType(t)
    ensures RecordType(Upper(t)) == RecordType(t)
  {
    StripCase(t);
    UpperOfLower(Strip(t));
    UpperIdempotent(Strip(t));
  }
}

=== FILE: un_convert.dfy ===
/** The pure rules of the UN converter's `parse_individual`: tag text cleaning, `join_list`,
    the full name, the aliases kept, the dates of birth, the listing date and the latest
    update date. XML elements are given as the text of the tag, `None` when it is missing. */
module UnConvert {
  import opened Wrappers
  import opened Text
  import opened Calendar
  import Seqs

  /** `extract_text`: the cleaned text of a present, non-empty tag, else the default. */
  function ExtractText(tag: Option<string>, default: string): (r: string)
    ensures tag.None? || tag == Some("") ==> r == default
    ensures tag.Some? && tag.value != "" ==> Words(r) == Words(tag.value) && Collapsed(r)
  {
    if tag.Some? && |tag.value| > 0 then
      WordsOfCollapse(tag.value);
      CollapseSpacesCollapsed(tag.value);
      CollapseSpaces(tag.value)
    else default
  }

  /** A tag's text with the default "". */
  function TagText(tag: Option<string>): (r: string)
    ensures Trimmed(r)
  {
    CollapseTrimmed(if tag.Some? then tag.value else "");
    ExtractText(tag, "")
  }

  // ---------------------------------------------------------------------------
  // join_list

  function StripAll(items: seq<string>): (r: seq<string>)
    ensures |r| == |items| && forall k :: 0 <= k < |r| ==> r[k] == Strip(items[k])
  {
    seq(|items|, k requires 0 <= k < |items| => Strip(items[k]))
  }

  /** `join_list(items, separator)`: the stripped items, blank ones dropped, joined in order. */
  function JoinList(items: seq<string>, separator: string): (r: string)
    ensures r == "" <==> forall k :: 0 <= k < |items| ==> Strip(items[k]) == ""
  {
    if |items| == 0 then "" else
      var stripped := StripAll(items);
      NonEmptyEmptyIff(stripped);
      JoinEmpty(separator, NonEmpty(stripped));
      Join(separator, NonEmpty(stripped))
  }

  /** A list of non-blank, already stripped items is joined as it stands, in order. */
  lemma JoinListClean(items: seq<string>, separator: string)
    requires forall k :: 0 <= k < |items| ==> |items[k]| > 0 && Trimmed(items[k])
    ensures JoinList(items, separator) == Join(separator, items)
  {
    forall k | 0 <= k < |items|
      ensures Strip(items[k]) == items[k]
    {
      StripTrimmed(items[k]);
    }
    assert StripAll(items) == items;
    NonEmptyAll(items);
  }

  /** Filtering out empty strings keeps a list without any. */
  lemma {:induction false} NonEmptyAll(xs: seq<string>)
    requires forall k :: 0 <= k < |xs| ==> |xs[k]| > 0
    ensures NonEmpty(xs) == xs
  {
    if |xs| > 0 {
      NonEmptyAll(xs[1..]);
      assert xs == [xs[0]] + xs[1..];
    }
  }

  /** Filtering out empty strings keeps only trimmed strings from trimmed ones. */
  lemma {:induction false} NonEmptyTrimmed(xs: seq<string>)
    requires forall k :: 0 <= k < |xs| ==> Trimmed(xs[k])
    ensures forall k :: 0 <= k < |NonEmpty(xs)| ==> Trimmed(NonEmpty(xs)[k])
  {
    if |xs| > 0 {
      NonEmptyTrimmed(xs[1..]);
      NonEmptyCons(xs[0], xs[1..]);
      assert xs == [xs[0]] + xs[1..];
    }
  }

  // ---------------------------------------------------------------------------
  // Full name

  /** The cleaned first to fourth names. */
  function NameParts(first: Option<string>, second: Option<string>, third: Option<string>,
                     fourth: Option<string>): (r: seq<string>)
    ensures |r| == 4 && forall k :: 0 <= k < 4 ==> Trimmed(r[k])
  {
    [TagText(first), TagText(second), TagText(third), TagText(fourth)]
  }

  /** The full name: the non-empty name parts joined by spaces, or the title when there are
      none, upper-cased. */
  function FullName(first: Option<string>, second: Option<string>, third: Option<string>,
                    fourth: Option<string>, title: Option<string>): (r: string)
    ensures Upper(r) == r
  {
    var name := Strip(JoinSpace(NonEmpty(NameParts(first, second, third, fourth))));
    var name' := if |name| == 0 then TagText(title) else name;
    UpperIdempotent(name');
    if |name'| > 0 then Upper(name') else ""
  }

  /** With some name part present, the full name is those parts joined, upper-cased: the
      strip does nothing and the title is not read. */
  lemma FullNameFromParts(first: Option<string>, second: Option<string>, third: Option<string>,
                          fourth: Option<string>, title: Option<string>, k: nat)
    requires k < 4 && NameParts(first, second, third, fourth)[k] != ""
    ensures FullName(first, second, third, fourth, title)
      == Upper(JoinSpace(NonEmpty(NameParts(first, second, third, fourth))))
  {
    var parts := NameParts(first, second, third, fourth);
    var kept := NonEmpty(parts);
    NonEmptyEmptyIff(parts);
    NonEmptyTrimmed(parts);
    JoinTrimmed(" ", kept);
    StripTrimmed(JoinSpace(kept));
  }

  /** With every name part blank, the full name is the title, upper-cased. */
  lemma FullNameFromTitle(first: Option<string>, second: Option<string>, third: Option<string>,
                          fourth: Option<string>, title: Option<string>)
    requires forall k :: 0 <= k < 4 ==> NameParts(first, second, third, fourth)[k] == ""
    ensures FullName(first, second, third, fourth, title) == Upper(TagText(title))
  {
    NonEmptyEmptyIff(NameParts(first, second, third, fourth));
  }

  // ---------------------------------------------------------------------------
  // Aliases

  /** An `INDIVIDUAL_ALIAS` element: its name and quality tags. */
  datatype AliasEntry = AliasEntry(aliasName: Option<string>, quality: Option<string>)

  /** The quality levels kept: "good" in any case, or none given. */
  predicate GoodQuality(quality: string) {
    Lower(quality) == "good" || Lower(quality) == ""
  }

  /** The alias an entry contributes: its upper-cased name when the name is non-empty and the
      quality is good or absent. */
  function AliasOf(e: AliasEntry): (r: Option<string>)
    ensures r.Some? <==> TagText(e.aliasName) != "" && GoodQuality(TagText(e.quality))
    ensures r.Some? ==> r.value == Upper(TagText(e.aliasName))
  {
    var name := TagText(e.aliasName);
    if |name| > 0 && GoodQuality(TagText(e.quality)) then Some(Upper(name)) else None
  }

  /** The aliases collected from the entries, in order. */
  function Aliases(es: seq<AliasEntry>): (r: seq<string>)
    ensures |r| <= |es|
  {
    if |es| == 0 then []
    else
      match AliasOf(es[0])
      case Some(a) => [a] + Aliases(es[1..])
      case None => Aliases(es[1..])
  }

  /** Every kept entry's alias is collected, and every collected alias comes from a kept entry. */
  lemma {:induction false} AliasesComplete(es: seq<AliasEntry>)
    ensures forall k :: 0 <= k < |es| && AliasOf(es[k]).Some? ==> AliasOf(es[k]).value in Aliases(es)
    ensures forall a :: a in Aliases(es) ==> exists k :: 0 <= k < |es| && AliasOf(es[k]) == Some(a)
  {
    if |es| > 0 {
      AliasesComplete(es[1..]);
      assert forall k :: 1 <= k < |es| ==> es[k] == es[1..][k - 1];
    }
  }

  /** Collecting is done entry by entry, in order: the aliases of two runs of entries are those
      of the first followed by those of the second. */
  lemma {:induction false} AliasesConcat(a: seq<AliasEntry>, b: seq<AliasEntry>)
    ensures Aliases(a + b) == Aliases(a) + Aliases(b)
  {
    if |a| == 0 {
      assert a + b == b;
    } else {
      var ab := a + b;
      assert ab[0] == a[0];
      assert ab[1..] == a[1..] + b;
      AliasesConcat(a[1..], b);
      AliasesCons(ab);
      AliasesCons(a);
      Seqs.ConcatAssoc(AliasesOne(a[0]), Aliases(a[1..]), Aliases(b));
    }
  }

  lemma AliasesCons(es: seq<AliasEntry>)
    requires |es| > 0
    ensures Aliases(es) == AliasesOne(es[0]) + Aliases(es[1..])
  {
  }

  /** What one entry contributes: its alias, if kept. */
  function AliasesOne(e: AliasEntry): seq<string> {
    if AliasOf(e).Some? then [AliasOf(e).value] else []
  }

  /** A single entry gives its own alias, if kept. */
  lemma AliasesSingle(e: AliasEntry)
    ensures Aliases([e]) == AliasesOne(e)
  {
    assert [e][1..] == [];
  }

  /** The quality test ignores letter case. */
  lemma GoodQualityIgnoresCase(q: string)
    ensures GoodQuality(Upper(q)) == GoodQuality(q)
  {
    LowerOfUpper(q);
  }

  // ---------------------------------------------------------------------------
  // Dates

  /** `strptime(s, '%Y-%m-%d')` succeeds. */
  predicate Parses(s: string) { Strptime(s).Parsed? }

  /** A date string re-emitted as YYYY-MM-DD when it parses that way, otherwise kept. */
  function StandardiseDate(s: string): (r: string)
    ensures !Parses(s) ==> r == s
  {
    match Strptime(s)
    case Parsed(d) => FormatIso(d)
    case _ => s
  }

  /** A parsed date comes back in the YYYY-MM-DD shape and still denotes the same date. */
  lemma StandardiseParsed(s: string)
    requires Parses(s)
    ensures IsIsoShape(StandardiseDate(s)) && Strptime(StandardiseDate(s)) == Strptime(s)
  {
    FormatIsoShape(Strptime(s).date);
    ParseFormatted(Strptime(s).date);
  }

  /** Standardising twice is standardising once; a date already in that shape is kept. */
  lemma StandardiseIdempotent(s: string)
    ensures StandardiseDate(StandardiseDate(s)) == StandardiseDate(s)
    ensures IsIsoShape(s) ==> StandardiseDate(s) == s
  {
    if Parses(s) {
      StandardiseParsed(s);
      FormatParsed(StandardiseDate(s));
      if IsIsoShape(s) {
        FormatParsed(s);
      }
    }
  }

  /** `listed_on`: "" without the tag, else its text standardised. */
  function ListedOn(tag: Option<string>): (r: string)
    ensures TagText(tag) == "" ==> r == ""
    ensures TagText(tag) != "" ==> r == StandardiseDate(TagText(tag))
    ensures TagText(tag) != "" && !Parses(TagText(tag)) ==> r == TagText(tag)
    ensures Parses(TagText(tag)) ==> IsIsoShape(r) && Strptime(r) == Strptime(TagText(tag))
  {
    var raw := TagText(tag);
    if |raw| == 0 then "" else
      if Parses(raw) then StandardiseParsed(raw); StandardiseDate(raw)
      else StandardiseDate(raw)
  }

  /** An `INDIVIDUAL_DATE_OF_BIRTH` element: its DATE and YEAR tags. */
  datatype DobEntry = DobEntry(date: Option<string>, year: Option<string>)

  datatype Dob = DobDate(date: string) | DobYear(year: string) | NoDob

  /** A four-digit year, as `year.isdigit() and len(year) == 4` accepts it. */
  predicate IsYear(s: string) { |s| == 4 && AllDigits(s) }

  /** A date of birth: the standardised DATE when present, else a four-digit YEAR, else none. */
  function DobOf(e: DobEntry): (r: Dob)
    ensures TagText(e.date) != "" <==> r.DobDate?
    ensures r.DobDate? ==> r.date == StandardiseDate(TagText(e.date))
    ensures r.DobYear? <==> TagText(e.date) == "" && IsYear(TagText(e.year))
    ensures r.DobYear? ==> r.year == TagText(e.year)
  {
    var date := TagText(e.date);
    if |date| > 0 then DobDate(StandardiseDate(date))
    else
      var year := TagText(e.year);
      if |year| > 0 && IsYear(year) then DobYear(year) else NoDob
  }

  /** The DATE entry wins: the YEAR tag is not read when a DATE is present. */
  lemma DobDatePrecedence(date: Option<string>, y1: Option<string>, y2: Option<string>)
    requires TagText(date) != ""
    ensures DobOf(DobEntry(date, y1)) == DobOf(DobEntry(date, y2))
  {
  }

  /** The date of birth of each entry, in order. */
  function Dobs(es: seq<DobEntry>): (r: seq<Dob>)
    ensures |r| == |es|
  {
    if |es| == 0 then [] else [DobOf(es[0])] + Dobs(es[1..])
  }

  /** Position by position, the date of birth of the entry there. */
  lemma {:induction false} DobsAt(es: seq<DobEntry>)
    ensures forall k :: 0 <= k < |es| ==> Dobs(es)[k] == DobOf(es[k])
  {
    if |es| > 0 {
      DobsAt(es[1..]);
      assert forall k :: 1 <= k < |es| ==> es[k] == es[1..][k - 1];
    }
  }

  /** The dates and the years among some dates of birth, each list in order. */
  function Collect(ds: seq<Dob>): (r: (seq<string>, seq<string>))
    ensures |r.0| + |r.1| <= |ds|
  {
    if |ds| == 0 then ([], [])
    else
      var rest := Collect(ds[1..]);
      match ds[0]
      case DobDate(d) => ([d] + rest.0, rest.1)
      case DobYear(y) => (rest.0, [y] + rest.1)
      case NoDob => rest
  }

  /** The dates and the years of birth of a list of entries, in order. */
  function DobLists(es: seq<DobEntry>): (r: (seq<string>, seq<string>))
    ensures |r.0| + |r.1| <= |es|
  {
    Collect(Dobs(es))
  }

  /** What one date of birth contributes: its date, or its year, or nothing. */
  function CollectOne(d: Dob): (seq<string>, seq<string>) {
    match d
    case DobDate(x) => ([x], [])
    case DobYear(y) => ([], [y])
    case NoDob => ([], [])
  }

  /** What one entry contributes: its date, or its year, or nothing. */
  function DobsOne(e: DobEntry): (seq<string>, seq<string>) {
    CollectOne(DobOf(e))
  }

  lemma CollectCons(ds: seq<Dob>)
    requires |ds| > 0
    ensures Collect(ds).0 == CollectOne(ds[0]).0 + Collect(ds[1..]).0
    ensures Collect(ds).1 == CollectOne(ds[0]).1 + Collect(ds[1..]).1
  {
    var rest := Collect(ds[1..]);
    match ds[0]
    case DobDate(d) =>
    case DobYear(y) =>
    case NoDob =>
      assert [] + rest.0 == rest.0 && [] + rest.1 == rest.1;
  }

  /** Collecting goes one date of birth at a time, in order. */
  lemma {:induction false} CollectConcat(a: seq<Dob>, b: seq<Dob>)
    ensures Collect(a + b).0 == Collect(a).0 + Collect(b).0
    ensures Collect(a + b).1 == Collect(a).1 + Collect(b).1
  {
    if |a| == 0 {
      assert a + b == b;
    } else {
      var ab := a + b;
      assert ab[0] == a[0];
      assert ab[1..] == a[1..] + b;
      CollectConcat(a[1..], b);
      CollectCons(ab);
      CollectCons(a);
      Seqs.ConcatAssoc(CollectOne(a[0]).0, Collect(a[1..]).0, Collect(b).0);
      Seqs.ConcatAssoc(CollectOne(a[0]).1, Collect(a[1..]).1, Collect(b).1);
    }
  }

  /** Each date and year of birth is collected, and each collected one is one of them. */
  lemma {:induction false} CollectComplete(ds: seq<Dob>)
    ensures forall k :: 0 <= k < |ds| && ds[k].DobDate? ==> ds[k].date in Collect(ds).0
    ensures forall k :: 0 <= k < |ds| && ds[k].DobYear? ==> ds[k].year in Collect(ds).1
    ensures forall d :: d in Collect(ds).0 ==> DobDate(d) in ds
    ensures forall y :: y in Collect(ds).1 ==> DobYear(y) in ds
  {
    if |ds| > 0 {
      CollectComplete(ds[1..]);
      assert forall k :: 1 <= k < |ds| ==> ds[k] == ds[1..][k - 1];
    }
  }

  lemma {:induction false} DobsConcat(a: seq<DobEntry>, b: seq<DobEntry>)
    ensures Dobs(a + b) == Dobs(a) + Dobs(b)
  {
    if |a| > 0 {
      assert (a + b)[1..] == a[1..] + b;
      DobsConcat(a[1..], b);
      Seqs.ConcatAssoc([DobOf(a[0])], Dobs(a[1..]), Dobs(b));
    } else {
      assert a + b == b;
    }
  }

  /** A single entry gives its own date or year. */
  lemma DobListsSingle(e: DobEntry)
    ensures DobLists([e]).0 == DobsOne(e).0 && DobLists([e]).1 == DobsOne(e).1
  {
    var ds := Dobs([e]);
    DobsAt([e]);
    assert ds[1..] == [];
    CollectCons(ds);
    assert DobsOne(e).0 + [] == DobsOne(e).0;
    assert DobsOne(e).1 + [] == DobsOne(e).1;
  }

  /** Collecting is done entry by entry, in order: the dates and the years of two runs of
      entries are those of the first followed by those of the second. */
  lemma DobListsConcat(a: seq<DobEntry>, b: seq<DobEntry>)
    ensures DobLists(a + b).0 == DobLists(a).0 + DobLists(b).0
    ensures DobLists(a + b).1 == DobLists(a).1 + DobLists(b).1
  {
    DobsConcat(a, b);
    CollectConcat(Dobs(a), Dobs(b));
  }

  /** Every entry's date is collected, and every collected date comes from an entry. */
  lemma DobDatesComplete(es: seq<DobEntry>)
    ensures forall k :: 0 <= k < |es| && DobOf(es[k]).DobDate? ==> DobOf(es[k]).date in DobLists(es).0
    ensures forall d :: d in DobLists(es).0 ==> exists k :: 0 <= k < |es| && DobOf(es[k]) == DobDate(d)
  {
    var ds := Dobs(es);
    CollectComplete(ds);
    DobsAt(es);
    forall d | d in DobLists(es).0
      ensures exists k :: 0 <= k < |es| && DobOf(es[k]) == DobDate(d)
    {
      var k :| 0 <= k < |ds| && ds[k] == DobDate(d);
    }
  }

  /** Every entry's year is collected, and every collected year comes from an entry. */
  lemma DobYearsComplete(es: seq<DobEntry>)
    ensures forall k :: 0 <= k < |es| && DobOf(es[k]).DobYear? ==> DobOf(es[k]).year in DobLists(es).1
    ensures forall y :: y in DobLists(es).1 ==> exists k :: 0 <= k < |es| && DobOf(es[k]) == DobYear(y)
  {
    var ds := Dobs(es);
    CollectComplete(ds);
    DobsAt(es);
    forall y | y in DobLists(es).1
      ensures exists k :: 0 <= k < |es| && DobOf(es[k]) == DobYear(y)
    {
      var k :| 0 <= k < |ds| && ds[k] == DobYear(y);
    }
  }

  /** Every year collected is four digits. */
  lemma DobYearsAreYears(es: seq<DobEntry>)
    ensures forall k :: 0 <= k < |DobLists(es).1| ==> IsYear(DobLists(es).1[k])
  {
    DobYearsComplete(es);
    forall k | 0 <= k < |DobLists(es).1| ensures IsYear(DobLists(es).1[k]) {
      var y := DobLists(es).1[k];
      assert y in DobLists(es).1;
      var j :| 0 <= j < |es| && DobOf(es[j]) == DobYear(y);
    }
  }

  // ---------------------------------------------------------------------------
  // Last updated

  function DateOf(s: string): Date
    requires Parses(s)
  {
    Strptime(s).date
  }

  /** `values[k]` is the latest parseable value among the first `n`, and the first-listed
      among those with that date. */
  predicate LatestAt(values: seq<string>, n: nat, k: nat)
    requires n <= |values|
  {
    k < n && Parses(values[k])
    && (forall j :: 0 <= j < n && Parses(values[j]) ==> !Before(DateOf(values[k]), DateOf(values[j])))
    && (forall j :: 0 <= j < k && Parses(values[j]) ==> Before(DateOf(values[j]), DateOf(values[k])))
  }

  predicate NoneParse(values: seq<string>, n: nat)
    requires n <= |values|
  {
    forall j :: 0 <= j < n ==> !Parses(values[j])
  }

  /** At most one index is the latest. */
  lemma LatestUnique(values: seq<string>, n: nat, k1: nat, k2: nat)
    requires n <= |values| && LatestAt(values, n, k1) && LatestAt(values, n, k2)
    ensures k1 == k2
  {
  }

  lemma BeforeAsymmetric(a: Date, b: Date)
    requires Before(a, b)
    ensures !Before(b, a)
  {
  }

  /** `Before` is a strict total order. */
  lemma BeforeOrder(a: Date, b: Date, c: Date)
    ensures !Before(a, a)
    ensures a == b || Before(a, b) || Before(b, a)
    ensures Before(a, b) && Before(b, c) ==> Before(a, c)
  {
  }

  /** The loop's state after the first `n` values: the index of the latest so far, if any. */
  predicate Tracks(values: seq<string>, n: nat, best: Option<nat>)
    requires n <= |values|
  {
    (best.None? ==> NoneParse(values, n)) && (best.Some? ==> LatestAt(values, n, best.value))
  }

  /** One step of the scan: a parseable value strictly later than the best so far replaces it. */
  function Scan(values: seq<string>, i: nat, best: Option<nat>): Option<nat>
    requires i < |values|
    requires best.Some? ==> best.value < i && Parses(values[best.value])
  {
    if Parses(values[i]) && (best.None? || Before(DateOf(values[best.value]), DateOf(values[i])))
    then Some(i) else best
  }

  lemma ScanTracks(values: seq<string>, i: nat, best: Option<nat>)
    requires i < |values| && Tracks(values, i, best)
    ensures Tracks(values, i + 1, Scan(values, i, best))
  {
    if Parses(values[i]) && best.Some? {
      var b := best.value;
      var di := DateOf(values[i]);
      var db := DateOf(values[b]);
      if Before(db, di) {
        forall j | 0 <= j < i && Parses(values[j])
          ensures Before(DateOf(values[j]), di)
        {
          BeforeOrder(DateOf(values[j]), db, di);
        }
        forall j | 0 <= j < i + 1 && Parses(values[j])
          ensures !Before(di, DateOf(values[j]))
        {
          BeforeOrder(DateOf(values[j]), di, di);
          if j < i {
            BeforeAsymmetric(DateOf(values[j]), di);
          }
        }
      }
    }
  }

  /** `last_updated`: the original text of the latest value that parses as YYYY-MM-DD, the
      first-listed one on a tie, and "" when none parses. */
  method LastUpdated(values: seq<string>) returns (r: string, ghost k: nat)
    ensures r == "" <==> NoneParse(values, |values|)
    ensures r != "" ==> LatestAt(values, |values|, k) && r == values[k]
  {
    var best: Option<nat> := None;
    for i := 0 to |values|
      invariant Tracks(values, i, best)
    {
      ScanTracks(values, i, best);
      best := Scan(values, i, best);
    }
    if best.Some? {
      r, k := values[best.value], best.value;
    } else {
      r, k := "", 0;
    }
  }
}

=== FILE: update_sanctions.dfy ===
/** The decision rules of `update_sanctions.py`: which OFAC files count as a successful
    download, when a conversion script counts as run, which conversions run and the exit code.
    Downloads and subprocess runs are given as their outcomes. */
module UpdateSanctions {
  import opened Wrappers
  import opened Seqs

  /** The three OFAC files, in the order they are fetched. */
  datatype OfacFile = Sdn | Alt | Add {
    function FileName(): string {
      match this
      case Sdn => "sdn.csv"
      case Alt => "alt.csv"
      case Add => "add.csv"
    }

    function Rank(): nat {
      match this
      case Sdn => 0
      case Alt => 1
      case Add => 2
    }
  }

  function OfacFiles(): seq<OfacFile> { [Sdn, Alt, Add] }

  /** `download_ofac_sanctions`: the files that downloaded, in fetch order, and success when
      there is at least one. */
  function DownloadOfac(downloaded: OfacFile -> bool): (r: (bool, seq<OfacFile>))
    ensures r.0 <==> downloaded(Sdn) || downloaded(Alt) || downloaded(Add)
    ensures forall f :: f in r.1 <==> downloaded(f)
    ensures forall j, k :: 0 <= j < k < |r.1| ==> r.1[j].Rank() < r.1[k].Rank()
    ensures !r.0 ==> r.1 == []
  {
    var files := Filter(downloaded, OfacFiles());
    DownloadedFiles(downloaded);
    if |files| > 0 then (true, files) else (false, [])
  }

  function OfacRank(f: OfacFile): int { f.Rank() }

  lemma AllOfacFiles(f: OfacFile)
    ensures f in OfacFiles()
  {
    assert OfacFiles()[f.Rank()] == f;
  }

  /** The downloaded files are exactly those that downloaded, in fetch order. */
  lemma DownloadedFiles(downloaded: OfacFile -> bool)
    ensures var files := Filter(downloaded, OfacFiles());
      (forall f :: f in files <==> downloaded(f))
      && forall j, k :: 0 <= j < k < |files| ==> files[j].Rank() < files[k].Rank()
  {
    var files := Filter(downloaded, OfacFiles());
    forall f: OfacFile
      ensures f in files <==> downloaded(f)
    {
      AllOfacFiles(f);
    }
    assert Ascending(OfacRank, OfacFiles());
    FilterAscending(downloaded, OfacRank, OfacFiles());
    forall j, k | 0 <= j < k < |files|
      ensures files[j].Rank() < files[k].Rank()
    {
      assert OfacRank(files[j]) < OfacRank(files[k]);
    }
  }

  /** How a `subprocess.run` of a conversion script ended. */
  datatype ScriptOutcome =
    | ScriptMissing     // the script file does not exist
    | TimedOut          // `TimeoutExpired` after 600 seconds
    | Exited(code: int) // the process exited with this code
    | Raised            // any other exception

  /** `run_conversion_script`: true exactly when the script exists and exits with code 0. */
  function RunConversionScript(o: ScriptOutcome): (ok: bool)
    ensures ok <==> o == Exited(0)
  {
    match o
    case Exited(code) => code == 0
    case _ => false
  }

  /** The four sources, in the order they are downloaded and converted. */
  datatype Source = Un | Ofac | Uk | Eu {
    function Rank(): nat {
      match this
      case Un => 0
      case Ofac => 1
      case Uk => 2
      case Eu => 3
    }
  }

  function Sources(): seq<Source> { [Un, Ofac, Uk, Eu] }

  /** The scripts the update runs: a source's conversion, or the combining step. */
  datatype Script = Convert(source: Source) | Combine {
    function FileName(): string {
      match this
      case Convert(Un) => "convert_un_to_csv.py"
      case Convert(Ofac) => "convert_ofac_to_csv.py"
      case Convert(Uk) => "convert_uk_to_csv.py"
      case Convert(Eu) => "convert_eu_to_csv.py"
      case Combine => "combine_sanctions.py"
    }

    /** The position in the run: the conversions by source, then combining. */
    function Rank(): nat {
      match this
      case Convert(s) => s.Rank()
      case Combine => 4
    }
  }

  /** What a run did: the scripts it ran, in order, each source's conversion result in the
      order of the results dictionary, whether combining succeeded, and the exit code. */
  datatype UpdateRun = UpdateRun(scriptsRun: seq<Script>, conversions: seq<(Source, bool)>,
                                 combined: bool, exitCode: int)

  /** A source's conversion result: false without a download, else the script's result. */
  function Conversion(downloaded: Source -> bool, run: Script -> ScriptOutcome, s: Source): bool {
    if downloaded(s) then RunConversionScript(run(Convert(s))) else false
  }

  /** The conversion scripts of the sources in `ss` whose download succeeded, in order. */
  function ConversionsRun(downloaded: Source -> bool, ss: seq<Source>): (r: seq<Script>)
    ensures var fs := Filter(downloaded, ss);
      |r| == |fs| && forall k :: 0 <= k < |r| ==> r[k] == Convert(fs[k])
    ensures forall s :: Convert(s) in r <==> s in ss && downloaded(s)
  {
    var fs := Filter(downloaded, ss);
    var r := seq(|fs|, k requires 0 <= k < |fs| => Convert(fs[k]));
    forall s | s in fs
      ensures Convert(s) in r
    {
      var i :| 0 <= i < |fs| && fs[i] == s;
      assert r[i] == Convert(s);
    }
    r
  }

  /** Conversion scripts run in the order UN, OFAC, UK, EU. */
  lemma ConversionsAscending(downloaded: Source -> bool)
    ensures var r := ConversionsRun(downloaded, Sources());
      forall j, k :: 0 <= j < k < |r| ==> r[j].Rank() < r[k].Rank()
  {
    var rank := (s: Source) => s.Rank();
    var fs := Filter(downloaded, Sources());
    assert Ascending(rank, Sources());
    FilterAscending(downloaded, rank, Sources());
    var r := ConversionsRun(downloaded, Sources());
    forall j, k | 0 <= j < k < |r|
      ensures r[j].Rank() < r[k].Rank()
    {
      assert rank(fs[j]) < rank(fs[k]);
    }
  }

  lemma AllSources(s: Source)
    ensures s in Sources()
  {
    assert Sources()[s.Rank()] == s;
  }

  /** A conversion counts as done when the download succeeded and the script exited with 0. */
  predicate Converted(downloaded: Source -> bool, run: Script -> ScriptOutcome, s: Source) {
    downloaded(s) && run(Convert(s)) == Exited(0)
  }

  /** `update_sanctions_lists(force)`: each source's conversion counts only after a
      successful download; the exit code is 0 when UN and OFAC were both downloaded and
      converted and combining succeeded. */
  function UpdateSanctionsLists(force: bool, downloaded: Source -> bool, run: Script -> ScriptOutcome)
    : (r: UpdateRun)
    ensures r.conversions == [(Un, Converted(downloaded, run, Un)), (Ofac, Converted(downloaded, run, Ofac)),
                              (Uk, Converted(downloaded, run, Uk)), (Eu, Converted(downloaded, run, Eu))]
    ensures r.combined <==> run(Combine) == Exited(0)
    ensures r.exitCode == 0 <==>
      Converted(downloaded, run, Un) && Converted(downloaded, run, Ofac) && run(Combine) == Exited(0)
    ensures r.exitCode == 0 || r.exitCode == 1
  {
    var results := [(Un, downloaded(Un)), (Ofac, downloaded(Ofac)), (Uk, downloaded(Uk)), (Eu, downloaded(Eu))];
    var conversions := [(Un, Conversion(downloaded, run, Un)), (Ofac, Conversion(downloaded, run, Ofac)),
                        (Uk, Conversion(downloaded, run, Uk)), (Eu, Conversion(downloaded, run, Eu))];
    var combined := RunConversionScript(run(Combine));
    var critical := results[0].1 && conversions[0].1 && results[1].1 && conversions[1].1;
    UpdateRun(ConversionsRun(downloaded, Sources()) + [Combine], conversions, combined,
              if critical && combined then 0 else 1)
  }

  /** A source's conversion script runs exactly when its download succeeded; combining
      always runs, once, and last. */
  lemma ScriptsRun(force: bool, downloaded: Source -> bool, run: Script -> ScriptOutcome)
    ensures var ss := UpdateSanctionsLists(force, downloaded, run).scriptsRun;
      (forall s :: Convert(s) in ss <==> downloaded(s))
      && |ss| > 0 && ss[|ss| - 1] == Combine && Combine !in ss[..|ss| - 1]
  {
    var conv := ConversionsRun(downloaded, Sources());
    var ss := conv + [Combine];
    forall s: Source
      ensures Convert(s) in ss <==> downloaded(s)
    {
      AllSources(s);
    }
    assert ss[..|ss| - 1] == conv;
  }

  /** The scripts run in the order UN, OFAC, UK, EU, combining. */
  lemma ScriptsOrder(force: bool, downloaded: Source -> bool, run: Script -> ScriptOutcome)
    ensures var ss := UpdateSanctionsLists(force, downloaded, run).scriptsRun;
      forall j, k :: 0 <= j < k < |ss| ==> ss[j].Rank() < ss[k].Rank()
  {
    var conv := ConversionsRun(downloaded, Sources());
    ConversionsAscending(downloaded);
    CombineLast(conv);
    assert UpdateSanctionsLists(force, downloaded, run).scriptsRun == conv + [Combine];
  }

  /** Combining ranks after every conversion, so appending it keeps the order. */
  lemma CombineLast(conv: seq<Script>)
    requires forall j, k :: 0 <= j < k < |conv| ==> conv[j].Rank() < conv[k].Rank()
    requires forall k :: 0 <= k < |conv| ==> conv[k].Convert?
    ensures var ss := conv + [Combine];
      forall j, k :: 0 <= j < k < |ss| ==> ss[j].Rank() < ss[k].Rank()
  {
    var ss := conv + [Combine];
    forall j, k | 0 <= j < k < |ss|
      ensures ss[j].Rank() < ss[k].Rank()
    {
      assert ss[j] == conv[j];
      if k < |conv| {
        assert ss[k] == conv[k];
      }
    }
  }

  /** The UK and EU outcomes never change the exit code. */
  lemma ExitIgnoresUkEu(force: bool, d1: Source -> bool, d2: Source -> bool,
                        r1: Script -> ScriptOutcome, r2: Script -> ScriptOutcome)
    requires d1(Un) == d2(Un) && d1(Ofac) == d2(Ofac)
    requires r1(Convert(Un)) == r2(Convert(Un)) && r1(Convert(Ofac)) == r2(Convert(Ofac))
    requires r1(Combine) == r2(Combine)
    ensures UpdateSanctionsLists(force, d1, r1).exitCode == UpdateSanctionsLists(force, d2, r2).exitCode
  {
  }

  /** The `force` argument changes nothing. */
  lemma ForceIgnored(downloaded: Source -> bool, run: Script -> ScriptOutcome)
    ensures UpdateSanctionsLists(true, downloaded, run) == UpdateSanctionsLists(false, downloaded, run)
  {
  }
}

=== FILE: validation.dfy ===
/** The KYC field validators of `FieldValidator`: each takes the raw Python value of one
    field and returns a verdict with the exact error text; `validate_kyc_fields` combines
    them. The current date and the country table are parameters. */
module Validation {
  import opened Wrappers
  import opened Text
  import opened Calendar
  import opened Countries

  /** `(is_valid, error_message)`. */
  datatype Verdict = Valid | Invalid(error: string)

  /** `(is_valid, error_message, parsed_date)`. */
  datatype DateVerdict = DateValid(date: Date) | DateInvalid(error: string)

  // ---------------------------------------------------------------------------
  // Dates

  /** The earliest accepted date, `date(1900, 1, 1)`. */
  function MinDate(): Date { Date(1900, 1, 1) }

  /** `validate_date(value, field)` with `today` standing for `date.today()`. */
  function ValidateDate(v: PyValue, field: string, today: Date): (r: DateVerdict)
    ensures v.IsFalsy() || !v.PyStr? ==> r == DateInvalid(field + " is required")
    ensures r.DateValid? ==> v.PyStr? && IsIsoShape(Strip(v.s))
    ensures r.DateValid? ==> IsValid(r.date) && !Before(r.date, MinDate()) && !Before(today, r.date)
  {
    if v.IsFalsy() || !v.PyStr? then DateInvalid(field + " is required")
    else DateTextVerdict(Strip(v.s), field, today)
  }

  /** The checks `validate_date` makes on the stripped text `s`. */
  function DateTextVerdict(s: string, field: string, today: Date): (r: DateVerdict)
    ensures r.DateValid? ==> IsIsoShape(s)
    ensures r.DateValid? ==> IsValid(r.date) && !Before(r.date, MinDate()) && !Before(today, r.date)
  {
    if !IsIsoShape(s) then DateInvalid(field + " must be in YYYY-MM-DD format")
    else
      match Strptime(s)
      case Parsed(d) =>
        if Before(d, MinDate()) then DateInvalid(field + " is too far in the past (before 1900)")
        else if Before(today, d) then DateInvalid(field + " is in the future")
        else DateValid(d)
      case _ => DateInvalid(field + " is invalid: " + StrptimeError(Strptime(s), s))
  }

  /** A date is accepted exactly when the stripped text is the `YYYY-MM-DD` form of a real
      calendar date between 1900-01-01 and today; the parsed date is that date. */
  lemma DateAcceptIff(s: string, field: string, today: Date, d: Date)
    ensures ValidateDate(PyStr(s), field, today) == DateValid(d) <==>
      IsValid(d) && Strip(s) == FormatIso(d) && !Before(d, MinDate()) && !Before(today, d)
  {
    var t := Strip(s);
    if |s| > 0 {
      assert ValidateDate(PyStr(s), field, today) == DateTextVerdict(t, field, today);
      DateTextAcceptIff(t, field, today, d);
    } else {
      assert |t| == 0;
      if IsValid(d) {
        assert |FormatIso(d)| == 10;
      }
    }
  }

  lemma DateTextAcceptIff(t: string, field: string, today: Date, d: Date)
    ensures DateTextVerdict(t, field, today) == DateValid(d) <==>
      IsValid(d) && t == FormatIso(d) && !Before(d, MinDate()) && !Before(today, d)
  {
    if DateTextVerdict(t, field, today) == DateValid(d) {
      FormatParsed(t);
    }
    if IsValid(d) && t == FormatIso(d) && !Before(d, MinDate()) && !Before(today, d) {
      FormatIsoShape(d);
      ParseFormatted(d);
    }
  }

  /** Text of the right shape but not a calendar date is reported, never raised: month 13
      fails the `%m` pattern and gives strptime's "does not match" message. */
  lemma MonthThirteenRejected(s: string, field: string, today: Date)
    requires IsIsoShape(Strip(s)) && Strip(s)[5] == '1' && Strip(s)[6] == '3'
    ensures ValidateDate(PyStr(s), field, today) ==
      DateInvalid(field + " is invalid: " + "time data '" + Strip(s) + "' does not match format '%Y-%m-%d'")
  {
    var t := Strip(s);
    assert |s| > 0;
    assert ValidateDate(PyStr(s), field, today) == DateTextVerdict(t, field, today);
    MonthThirteenText(t, field, today);
  }

  lemma MonthThirteenText(t: string, field: string, today: Date)
    requires IsIsoShape(t) && t[5] == '1' && t[6] == '3'
    ensures DateTextVerdict(t, field, today) ==
      DateInvalid(field + " is invalid: " + "time data '" + t + "' does not match format '%Y-%m-%d'")
  {
    MonthThirteenNoMatch(t);
    var e := "time data '" + t + "' does not match format '%Y-%m-%d'";
    assert DateTextVerdict(t, field, today) == DateInvalid(field + " is invalid: " + e);
  }

  // ---------------------------------------------------------------------------
  // Document type

  /** `VALID_DOCUMENT_TYPES`. */
  function DocumentTypes(): set<string> {
    {"passport", "id_card", "driving_license", "national_id", "residence_permit"}
  }

  /** `a` comes strictly before `b` in code-point order (Python's `<` on strings). */
  predicate StrLess(a: string, b: string) {
    if |a| == 0 then |b| > 0
    else if |b| == 0 then false
    else a[0] < b[0] || (a[0] == b[0] && StrLess(a[1..], b[1..]))
  }

  /** `sorted(VALID_DOCUMENT_TYPES)`. */
  function SortedDocumentTypes(): (r: seq<string>)
    ensures forall k :: 0 <= k < |r| ==> r[k] in DocumentTypes()
  {
    ["driving_license", "id_card", "national_id", "passport", "residence_permit"]
  }

  /** The listing in the error message is the set of valid types in sorted order. */
  lemma SortedDocumentTypesSorted()
    ensures forall x :: x in DocumentTypes() ==> x in SortedDocumentTypes()
    ensures forall i :: 0 <= i < |SortedDocumentTypes()| - 1 ==>
      StrLess(SortedDocumentTypes()[i], SortedDocumentTypes()[i + 1])
  {
    var r := SortedDocumentTypes();
    assert StrLess(r[0], r[1]);
    assert StrLess(r[1], r[2]);
    assert StrLess(r[2], r[3]);
    assert StrLess(r[3], r[4]);
  }

  function DocumentTypeError(): string {
    "Invalid document type. Must be one of: " + Join(", ", SortedDocumentTypes())
  }

  /** `validate_document_type`: lower-cased, then stripped, then looked up. */
  function ValidateDocumentType(v: PyValue): (r: Verdict)
    ensures v.IsFalsy() || !v.PyStr? ==> r == Invalid("Document type is required")
  {
    if v.IsFalsy() || !v.PyStr? then Invalid("Document type is required")
    else TypeVerdict(Lower(v.s))
  }

  /** The lookup `validate_document_type` makes with the lower-cased text `l`. */
  function TypeVerdict(l: string): Verdict {
    if Strip(l) in DocumentTypes() then Valid else Invalid(DocumentTypeError())
  }

  /** A document type is accepted exactly when, lower-cased and stripped, it is one of the
      five types. */
  lemma DocumentTypeAcceptIff(s: string)
    ensures ValidateDocumentType(PyStr(s)) == Valid <==> Strip(Lower(s)) in DocumentTypes()
  {
    if |s| > 0 {
      assert ValidateDocumentType(PyStr(s)) == TypeVerdict(Lower(s));
    } else {
      assert |Strip(Lower(s))| == 0;
      assert "" !in DocumentTypes();
    }
  }

  /** The five types carry no surrounding whitespace. */
  lemma DocumentTypesTrimmed(x: string)
    requires x in DocumentTypes()
    ensures |x| > 0 && Trimmed(x)
  {
  }

  /** Each of the five types is accepted, whatever its letter case. */
  lemma DocumentTypeAccepted(s: string)
    requires Lower(s) in DocumentTypes()
    ensures ValidateDocumentType(PyStr(s)) == Valid
  {
    var l := Lower(s);
    DocumentTypesTrimmed(l);
    StripTrimmed(l);
    assert ValidateDocumentType(PyStr(s)) == TypeVerdict(l);
  }

  /** The verdict ignores letter case. */
  lemma DocumentTypeIgnoresCase(s: string)
    ensures ValidateDocumentType(PyStr(s)) == ValidateDocumentType(PyStr(Upper(s)))
  {
    LowerOfUpper(s);
    TypeFollowsLower(s, Upper(s));
  }

  /** The verdict depends on the lower-cased text alone. */
  lemma TypeFollowsLower(a: string, b: string)
    requires Lower(a) == Lower(b)
    ensures ValidateDocumentType(PyStr(a)) == ValidateDocumentType(PyStr(b))
  {
    assert |a| == |Lower(a)| == |b|;
  }

  // ---------------------------------------------------------------------------
  // Nationality

  predicate IsTwoUpperLetters(u: string) {
    |u| == 2 && IsUpperLetter(u[0]) && IsUpperLetter(u[1])
  }

  const NationalityFormatError := "Nationality must be a 2-letter ISO country code (e.g., QA, PH, US)"

  /** `validate_nationality` against the country table `t`: stripped, upper-cased, checked to be
      two letters, then looked up. */
  function ValidateNationality(t: seq<Country>, v: PyValue): (r: Verdict)
    ensures v.IsFalsy() || !v.PyStr? ==> r == Invalid("Nationality is required")
    ensures r == Valid ==> v.PyStr? && IsTwoUpperLetters(Upper(Strip(v.s)))
  {
    if v.IsFalsy() || !v.PyStr? then Invalid("Nationality is required")
    else CodeVerdict(t, Upper(Strip(v.s)))
  }

  /** The checks `validate_nationality` makes on the stripped, upper-cased text `u`. */
  function CodeVerdict(t: seq<Country>, u: string): (r: Verdict)
    ensures r == Valid ==> IsTwoUpperLetters(u)
  {
    if !IsTwoUpperLetters(u) then Invalid(NationalityFormatError)
    else if !IsValidCodeIn(t, PyStr(u)) then
      Invalid("Nationality must be a valid 2 or 3-letter ISO country code (e.g., US, GBR, QA, ARE)")
    else if CountryInfoIn(t, PyStr(u)).None? then Invalid("Invalid country code")
    else Valid
  }

  /** A two-character code is a code of the table exactly when it is an alpha-2 key. */
  lemma TwoLetterCode(t: seq<Country>, u: string)
    requires |u| == 2
    ensures IsCodeOf(t, u) <==> FindAlpha2(t, u).Some?
  {
    if IsCodeOf(t, u) {
      var k :| 0 <= k < |t| && (t[k].Alpha2() == u || t[k].Alpha3() == u);
      assert t[k].Alpha2() == u;
    }
  }

  /** A nationality is accepted exactly when, stripped and upper-cased, it is two letters that
      form an alpha-2 key of the table. */
  lemma NationalityAcceptIff(t: seq<Country>, s: string)
    ensures ValidateNationality(t, PyStr(s)) == Valid <==>
      IsTwoUpperLetters(Upper(Strip(s))) && FindAlpha2(t, Upper(Strip(s))).Some?
  {
    var u := Upper(Strip(s));
    if |s| > 0 {
      NationalityOfText(t, s);
      if IsTwoUpperLetters(u) {
        UpperIdempotent(Strip(s));
        TwoLetterVerdict(t, u);
      }
    }
  }

  lemma NationalityOfText(t: seq<Country>, s: string)
    requires |s| > 0
    ensures ValidateNationality(t, PyStr(s)) == CodeVerdict(t, Upper(Strip(s)))
  {
    assert !PyStr(s).IsFalsy();
  }

  lemma TwoLetterVerdict(t: seq<Country>, u: string)
    requires IsTwoUpperLetters(u) && Upper(u) == u
    ensures CodeVerdict(t, u) == Valid <==> FindAlpha2(t, u).Some?
  {
    TwoLetterCode(t, u);
    InfoNoneIff(t, PyStr(u));
    assert IsValidCodeIn(t, PyStr(u)) <==> IsCodeOf(t, u);
  }

  /** Three-letter codes fail the format check, even those the table knows as alpha-3 codes. */
  lemma ThreeLetterNationalityRejected(t: seq<Country>, s: string)
    requires |Strip(s)| == 3
    ensures ValidateNationality(t, PyStr(s)) == Invalid(NationalityFormatError)
  {
  }

  /** The "Invalid country code" branch is unreachable: a valid code always has its info. */
  lemma NationalityNeverInvalidCode(t: seq<Country>, v: PyValue)
    ensures ValidateNationality(t, v) != Invalid("Invalid country code")
  {
    if v.PyStr? && !v.IsFalsy() {
      InfoNoneIff(t, PyStr(Upper(Strip(v.s))));
    }
  }

  // ---------------------------------------------------------------------------
  // Document number

  /** `[A-Z0-9\s\-_]`. */
  predicate IsDocumentNumberChar(c: char) {
    IsUpperLetter(c) || IsDigit(c) || IsSpace(c) || c == '-' || c == '_'
  }

  /** `validate_document_number(number, doc_type)`. The type-specific branch has no effect. */
  function ValidateDocumentNumber(v: PyValue, docType: Option<string>): (r: Verdict)
    ensures v.IsFalsy() || !v.PyStr? ==> r == Invalid("Document number is required")
    ensures r == Valid ==> v.PyStr? && 3 <= |Strip(v.s)| <= 50
  {
    if v.IsFalsy() || !v.PyStr? then Invalid("Document number is required")
    else NumberVerdict(Strip(v.s), docType)
  }

  /** The checks `validate_document_number` makes on the stripped number `n`. */
  function NumberVerdict(n: string, docType: Option<string>): (r: Verdict)
    ensures r == Valid ==> 3 <= |n| <= 50
  {
    if |n| < 3 then Invalid("Document number is too short (minimum 3 characters)")
    else if |n| > 50 then Invalid("Document number is too long (maximum 50 characters)")
    else
      var u := Upper(n);
      if !(forall i :: 0 <= i < |u| ==> IsDocumentNumberChar(u[i])) then
        Invalid("Document number contains invalid characters")
      else if docType.Some? && |docType.value| > 0 && Lower(docType.value) == "passport" then
        Valid // a leading letter is checked for, but its absence is accepted
      else Valid
  }

  /** Upper-casing first does not change which characters are allowed. */
  lemma DocumentNumberCharUpper(c: char)
    ensures IsDocumentNumberChar(UpperChar(c)) <==>
      IsAsciiLetter(c) || IsDigit(c) || IsSpace(c) || c == '-' || c == '_'
  {
  }

  /** A document number's characters: ASCII letters of either case, digits, whitespace, '-'
      and '_'. */
  predicate NumberChars(n: string) {
    forall i :: 0 <= i < |n| ==>
      IsAsciiLetter(n[i]) || IsDigit(n[i]) || IsSpace(n[i]) || n[i] == '-' || n[i] == '_'
  }

  /** A document number is accepted exactly when its stripped length is 3 to 50 and every
      character is an ASCII letter of either case, a digit, whitespace, '-' or '_'. */
  lemma DocumentNumberAcceptIff(s: string, docType: Option<string>)
    ensures ValidateDocumentNumber(PyStr(s), docType) == Valid <==>
      3 <= |Strip(s)| <= 50 && NumberChars(Strip(s))
  {
    var n := Strip(s);
    if |s| > 0 {
      assert ValidateDocumentNumber(PyStr(s), docType) == NumberVerdict(n, docType);
      NumberAcceptIff(n, docType);
    }
  }

  lemma NumberAcceptIff(n: string, docType: Option<string>)
    ensures NumberVerdict(n, docType) == Valid <==> 3 <= |n| <= 50 && NumberChars(n)
  {
    var u := Upper(n);
    forall i | 0 <= i < |n|
      ensures IsDocumentNumberChar(u[i]) <==>
        IsAsciiLetter(n[i]) || IsDigit(n[i]) || IsSpace(n[i]) || n[i] == '-' || n[i] == '_'
    {
      DocumentNumberCharUpper(n[i]);
    }
  }

  /** The document type never changes the verdict. */
  lemma DocumentNumberIgnoresType(v: PyValue, a: Option<string>, b: Option<string>)
    ensures ValidateDocumentNumber(v, a) == ValidateDocumentNumber(v, b)
  {
  }

  // ---------------------------------------------------------------------------
  // Full name

  /** `[A-Za-z\s\-\'\.]`. */
  predicate IsNameChar(c: char) {
    IsAsciiLetter(c) || IsSpace(c) || c == '-' || c == '\'' || c == '.'
  }

  /** `validate_full_name`. */
  function ValidateFullName(v: PyValue): (r: Verdict)
    ensures v.IsFalsy() || !v.PyStr? ==> r == Invalid("Full name is required")
    ensures r == Valid ==> v.PyStr? && 2 <= |Strip(v.s)| <= 100 && ' ' in Strip(v.s)
  {
    if v.IsFalsy() || !v.PyStr? then Invalid("Full name is required")
    else
      var n := Strip(v.s);
      if |n| < 2 then Invalid("Full name is too short (minimum 2 characters)")
      else if |n| > 100 then Invalid("Full name is too long (maximum 100 characters)")
      else if !(forall i :: 0 <= i < |n| ==> IsNameChar(n[i])) then
        Invalid("Full name contains invalid characters")
      else if ' ' !in n then Invalid("Full name should include first and last name")
      else Valid
  }

  /** A full name is accepted exactly when, stripped, it has 2 to 100 characters, all ASCII
      letters, whitespace, '-', apostrophes or dots, and at least one space. */
  lemma FullNameAcceptIff(s: string)
    ensures ValidateFullName(PyStr(s)) == Valid <==>
      2 <= |Strip(s)| <= 100 && (forall i :: 0 <= i < |Strip(s)| ==> IsNameChar(Strip(s)[i]))
      && (exists i :: 0 <= i < |Strip(s)| && Strip(s)[i] == ' ')
  {
  }

  // ---------------------------------------------------------------------------
  // All fields

  /** The five KYC fields, in the order they are examined. */
  datatype Field = FullName | Dob | Nationality | DocumentType | DocumentNumber {
    /** The key under which the field is reported. */
    function Name(): string {
      match this
      case FullName => "full_name"
      case Dob => "dob"
      case Nationality => "nationality"
      case DocumentType => "document_type"
      case DocumentNumber => "document_number"
    }

    /** The position of the field in the examination order. */
    function Rank(): nat {
      match this
      case FullName => 0
      case Dob => 1
      case Nationality => 2
      case DocumentType => 3
      case DocumentNumber => 4
    }
  }

  /** The result dictionary of `validate_kyc_fields`; missing fields are reported by name. */
  datatype FieldReport = FieldReport(
    isValid: bool,
    missingFields: seq<Field>,
    validationErrors: seq<string>,
    dataQualityIssues: seq<string>)

  /** Python's `not value` for an optional string. */
  predicate IsMissing(v: Option<string>) { v.None? || |v.value| == 0 }

  function AsPy(v: Option<string>): PyValue {
    if v.Some? then PyStr(v.value) else PyNone
  }

  /** The age in whole years of 365 days: `(today - dob).days // 365`. */
  function AgeInYears(dob: Date, today: Date): int
    requires IsValid(dob) && IsValid(today)
  {
    (Ordinal(today) - Ordinal(dob)) / 365
  }

  function IntToString(n: int): string {
    if n >= 0 then NatToString(n) else "-" + NatToString(-n)
  }

  /** The data-quality remarks on an accepted date of birth: at most one, present exactly when
      the age is under 16 or over 120. */
  function AgeIssues(dob: Date, today: Date): (r: seq<string>)
    requires IsValid(dob) && IsValid(today)
    ensures |r| <= 1
    ensures |r| == 1 <==> AgeInYears(dob, today) < 16 || AgeInYears(dob, today) > 120
  {
    var age := AgeInYears(dob, today);
    (if age < 16 then ["Date of birth indicates age " + IntToString(age) + " (minimum 16 expected)"] else [])
    + (if age > 120 then ["Date of birth indicates age " + IntToString(age) + " (unusually old)"] else [])
  }

  /** A field's name when it is missing. */
  function MissingName(f: Field, v: Option<string>): seq<Field> {
    if IsMissing(v) then [f] else []
  }

  /** The fields in examination order. */
  function AllFields(): seq<Field> {
    [FullName, Dob, Nationality, DocumentType, DocumentNumber]
  }

  predicate Ascending(fs: seq<Field>) {
    forall j, k :: 0 <= j < k < |fs| ==> fs[j].Rank() < fs[k].Rank()
  }

  lemma AllFieldsAscending()
    ensures Ascending(AllFields())
  {
  }

  /** The fields of `fs` whose values in `vs` are missing, in the order of `fs`. */
  function MissingOf(fs: seq<Field>, vs: seq<Option<string>>): (r: seq<Field>)
    requires |fs| == |vs|
    ensures forall k :: 0 <= k < |r| ==> r[k] in fs
  {
    if |fs| == 0 then [] else MissingName(fs[0], vs[0]) + MissingOf(fs[1..], vs[1..])
  }

  /** A field is listed exactly when its value is missing (the fields being distinct, as
      ascending fields are). */
  lemma {:induction false} MissingOfIff(fs: seq<Field>, vs: seq<Option<string>>)
    requires |fs| == |vs| && Ascending(fs)
    ensures forall i :: 0 <= i < |fs| ==> (fs[i] in MissingOf(fs, vs) <==> IsMissing(vs[i]))
  {
    if |fs| > 0 {
      MissingOfIff(fs[1..], vs[1..]);
      forall i | 1 <= i < |fs|
        ensures fs[i] in MissingOf(fs, vs) <==> IsMissing(vs[i])
      {
        assert fs[1..][i - 1] == fs[i];
        assert fs[i] != fs[0];
      }
    }
  }

  /** The missing fields keep the order of the fields. */
  lemma {:induction false} MissingOfAscending(fs: seq<Field>, vs: seq<Option<string>>)
    requires |fs| == |vs| && Ascending(fs)
    ensures Ascending(MissingOf(fs, vs))
  {
    if |fs| > 0 {
      MissingOfAscending(fs[1..], vs[1..]);
      var rest := MissingOf(fs[1..], vs[1..]);
      forall k | 0 <= k < |rest|
        ensures fs[0].Rank() < rest[k].Rank()
      {
        var j :| 0 <= j < |fs[1..]| && fs[1..][j] == rest[k];
      }
    }
  }

  /** No field is listed exactly when no value is missing. */
  lemma {:induction false} MissingOfEmptyIff(fs: seq<Field>, vs: seq<Option<string>>)
    requires |fs| == |vs|
    ensures MissingOf(fs, vs) == [] <==> forall i :: 0 <= i < |vs| ==> !IsMissing(vs[i])
  {
    if |fs| > 0 {
      MissingOfEmptyIff(fs[1..], vs[1..]);
      assert forall i :: 1 <= i < |vs| ==> vs[1..][i - 1] == vs[i];
    }
  }

  /** A present field's prefixed error when its validator rejects it. */
  function FieldError(f: Field, v: Option<string>, verdict: Verdict): seq<string> {
    if !IsMissing(v) && verdict.Invalid? then [f.Name() + ": " + verdict.error] else []
  }

  function DobVerdict(dob: Option<string>, today: Date): DateVerdict
    requires IsValid(today)
  {
    ValidateDate(AsPy(dob), "Date of birth", today)
  }

  function DobError(dob: Option<string>, today: Date): seq<string>
    requires IsValid(today)
  {
    var d := DobVerdict(dob, today);
    if !IsMissing(dob) && d.DateInvalid? then ["dob: " + d.error] else []
  }

  /** The age remarks, made only on a present and accepted date of birth. */
  function DobIssues(dob: Option<string>, today: Date): (r: seq<string>)
    requires IsValid(today)
    ensures |r| <= 1
    ensures |r| > 0 ==> !IsMissing(dob) && DobVerdict(dob, today).DateValid?
  {
    var d := DobVerdict(dob, today);
    if !IsMissing(dob) && d.DateValid? then AgeIssues(d.date, today) else []
  }

  /** The validation errors of the present fields, in examination order, each prefixed by its
      field's name. */
  function FieldErrors(
    t: seq<Country>, fullName: Option<string>, dob: Option<string>, nationality: Option<string>,
    documentType: Option<string>, documentNumber: Option<string>, today: Date): (r: seq<string>)
    requires IsValid(today)
    ensures |r| <= 5
  {
    FieldError(FullName, fullName, ValidateFullName(AsPy(fullName)))
    + DobError(dob, today)
    + FieldError(Nationality, nationality, ValidateNationality(t, AsPy(nationality)))
    + FieldError(DocumentType, documentType, ValidateDocumentType(AsPy(documentType)))
    + FieldError(DocumentNumber, documentNumber,
                 ValidateDocumentNumber(AsPy(documentNumber), documentType))
  }

  /** `validate_kyc_fields` with `today` for the current date and `t` for the country table. */
  function ValidateKycFields(
    t: seq<Country>, fullName: Option<string>, dob: Option<string>, nationality: Option<string>,
    documentType: Option<string>, documentNumber: Option<string>, today: Date): (r: FieldReport)
    requires IsValid(today)
    ensures |r.validationErrors| <= 5 && |r.dataQualityIssues| <= 1
    ensures |r.dataQualityIssues| > 0 ==> !IsMissing(dob) && DobVerdict(dob, today).DateValid?
  {
    var issues := DobIssues(dob, today);
    var missing := MissingOf(AllFields(), [fullName, dob, nationality, documentType, documentNumber]);
    var errors := FieldErrors(t, fullName, dob, nationality, documentType, documentNumber, today);
    FieldReport(|missing| == 0 && |errors| == 0, missing, errors, issues)
  }

  /** A field is listed as missing exactly when it is absent or empty, and the missing fields
      are listed in examination order, each once. */
  lemma KycMissingFields(
    t: seq<Country>, fullName: Option<string>, dob: Option<string>, nationality: Option<string>,
    documentType: Option<string>, documentNumber: Option<string>, today: Date)
    requires IsValid(today)
    ensures var m := ValidateKycFields(t, fullName, dob, nationality, documentType, documentNumber, today).missingFields;
      var values := [fullName, dob, nationality, documentType, documentNumber];
      (forall i :: 0 <= i < 5 ==> (AllFields()[i] in m <==> IsMissing(values[i])))
      && forall j, k :: 0 <= j < k < |m| ==> m[j].Rank() < m[k].Rank()
  {
    AllFieldsAscending();
    MissingOfIff(AllFields(), [fullName, dob, nationality, documentType, documentNumber]);
    MissingOfAscending(AllFields(), [fullName, dob, nationality, documentType, documentNumber]);
  }

  /** A present field gives no error exactly when its validator accepts it. */
  lemma FieldErrorEmpty(f: Field, x: string, verdict: Verdict)
    requires |x| > 0
    ensures FieldError(f, Some(x), verdict) == [] <==> verdict == Valid
  {
  }

  /** With every field present, no error is reported exactly when every validator accepts. */
  lemma PresentErrors(t: seq<Country>, fullName: string, dob: string, nationality: string,
    documentType: string, documentNumber: string, today: Date)
    requires IsValid(today)
    requires |fullName| > 0 && |dob| > 0 && |nationality| > 0 && |documentType| > 0 && |documentNumber| > 0
    ensures FieldErrors(t, Some(fullName), Some(dob), Some(nationality), Some(documentType),
                        Some(documentNumber), today) == []
      <==>
      ValidateFullName(PyStr(fullName)) == Valid
      && ValidateDate(PyStr(dob), "Date of birth", today).DateValid?
      && ValidateNationality(t, PyStr(nationality)) == Valid
      && ValidateDocumentType(PyStr(documentType)) == Valid
      && ValidateDocumentNumber(PyStr(documentNumber), Some(documentType)) == Valid
  {
    var e1 := FieldError(FullName, Some(fullName), ValidateFullName(PyStr(fullName)));
    var e2 := DobError(Some(dob), today);
    var e3 := FieldError(Nationality, Some(nationality), ValidateNationality(t, PyStr(nationality)));
    var e4 := FieldError(DocumentType, Some(documentType), ValidateDocumentType(PyStr(documentType)));
    var e5 := FieldError(DocumentNumber, Some(documentNumber),
                         ValidateDocumentNumber(PyStr(documentNumber), Some(documentType)));
    assert FieldErrors(t, Some(fullName), Some(dob), Some(nationality), Some(documentType),
                       Some(documentNumber), today) == e1 + e2 + e3 + e4 + e5;
    FieldErrorEmpty(FullName, fullName, ValidateFullName(PyStr(fullName)));
    DobErrorEmpty(dob, today);
    FieldErrorEmpty(Nationality, nationality, ValidateNationality(t, PyStr(nationality)));
    FieldErrorEmpty(DocumentType, documentType, ValidateDocumentType(PyStr(documentType)));
    FieldErrorEmpty(DocumentNumber, documentNumber,
                    ValidateDocumentNumber(PyStr(documentNumber), Some(documentType)));
    ConcatEmpty5(e1, e2, e3, e4, e5);
  }

  /** A present date of birth gives no error exactly when it is accepted. */
  lemma DobErrorEmpty(dob: string, today: Date)
    requires |dob| > 0 && IsValid(today)
    ensures DobError(Some(dob), today) == [] <==> ValidateDate(PyStr(dob), "Date of birth", today).DateValid?
  {
  }

  lemma ConcatEmpty5(a: seq<string>, b: seq<string>, c: seq<string>, d: seq<string>, e: seq<string>)
    ensures a + b + c + d + e == [] <==> a == [] && b == [] && c == [] && d == [] && e == []
  {
    assert |a + b + c + d + e| == |a| + |b| + |c| + |d| + |e|;
  }

  predicate AllPresent(fullName: Option<string>, dob: Option<string>, nationality: Option<string>,
    documentType: Option<string>, documentNumber: Option<string>)
  {
    !IsMissing(fullName) && !IsMissing(dob) && !IsMissing(nationality)
    && !IsMissing(documentType) && !IsMissing(documentNumber)
  }

  /** The fields never pass while one is missing. */
  lemma KycNeedsAllPresent(
    t: seq<Country>, fullName: Option<string>, dob: Option<string>, nationality: Option<string>,
    documentType: Option<string>, documentNumber: Option<string>, today: Date)
    requires IsValid(today)
    ensures ValidateKycFields(t, fullName, dob, nationality, documentType, documentNumber, today).isValid
      ==> AllPresent(fullName, dob, nationality, documentType, documentNumber)
  {
    var values := [fullName, dob, nationality, documentType, documentNumber];
    MissingOfEmptyIff(AllFields(), values);
    assert values[0] == fullName && values[1] == dob && values[2] == nationality;
    assert values[3] == documentType && values[4] == documentNumber;
  }

  lemma NoneMissing(a: Option<string>, b: Option<string>, c: Option<string>, d: Option<string>,
    e: Option<string>)
    requires AllPresent(a, b, c, d, e)
    ensures MissingOf(AllFields(), [a, b, c, d, e]) == []
  {
    var values := [a, b, c, d, e];
    MissingOfEmptyIff(AllFields(), values);
  }

  /** With all five fields present, they pass exactly when each validator accepts its field;
      the age remarks play no part. */
  lemma KycValidIff(t: seq<Country>, fullName: string, dob: string, nationality: string,
    documentType: string, documentNumber: string, today: Date)
    requires IsValid(today)
    requires |fullName| > 0 && |dob| > 0 && |nationality| > 0 && |documentType| > 0 && |documentNumber| > 0
    ensures ValidateKycFields(t, Some(fullName), Some(dob), Some(nationality), Some(documentType),
                              Some(documentNumber), today).isValid
      <==>
      ValidateFullName(PyStr(fullName)) == Valid
      && ValidateDate(PyStr(dob), "Date of birth", today).DateValid?
      && ValidateNationality(t, PyStr(nationality)) == Valid
      && ValidateDocumentType(PyStr(documentType)) == Valid
      && ValidateDocumentNumber(PyStr(documentNumber), Some(documentType)) == Valid
  {
    NoneMissing(Some(fullName), Some(dob), Some(nationality), Some(documentType), Some(documentNumber));
    PresentErrors(t, fullName, dob, nationality, documentType, documentNumber, today);
    var r := ValidateKycFields(t, Some(fullName), Some(dob), Some(nationality), Some(documentType),
                               Some(documentNumber), today);
    assert r.missingFields == [];
    assert r.isValid <==> FieldErrors(t, Some(fullName), Some(dob), Some(nationality), Some(documentType),
                                      Some(documentNumber), today) == [];
  }
}

=== FILE: wrappers.dfy ===
/** Optional values and small generic sequence helpers shared by every module. */
module Wrappers {

  /** Python's `None` versus a present value. */
  datatype Option<+T> = None | Some(value: T) {

    /** The value, or `default` when absent. */
    function GetOr(default: T): T {
      match this
      case Some(v) => v
      case None => default
    }
  }

  /** A Python value as the validators see it: `None`, a `str`, or any other object
      (a number, a NaN, a list...) whose truthiness is recorded. */
  datatype PyValue = PyNone | PyStr(s: string) | PyOther(truthy: bool) {

    /** Python's `not value`. */
    predicate IsFalsy() {
      match this
      case PyNone => true
      case PyStr(s) => |s| == 0
      case PyOther(t) => !t
    }
  }

  function Max(a: int, b: int): int { if a >= b then a else b }

  function Min(a: int, b: int): int { if a <= b then a else b }
}

/** Order-preserving filtering of sequences. */
module Seqs {

  /** The elements of `s` that satisfy `p`, in their original order (a Python list comprehension with an `if`). */
  function Filter<T>(p: T -> bool, s: seq<T>): (r: seq<T>)
    ensures |r| <= |s|
    ensures forall k :: 0 <= k < |r| ==> p(r[k]) && r[k] in s
    ensures forall x :: x in s && p(x) ==> x in r
  {
    if |s| == 0 then []
    else if p(s[0]) then [s[0]] + Filter(p, s[1..])
    else Filter(p, s[1..])
  }

  /** Filtering is empty exactly when no element qualifies. */
  lemma FilterEmptyIff<T>(p: T -> bool, s: seq<T>)
    ensures Filter(p, s) == [] <==> forall x :: x in s ==> !p(x)
  {
    if Filter(p, s) != [] {
      assert p(Filter(p, s)[0]) && Filter(p, s)[0] in s;
    }
  }

  /** `s` is strictly ascending by `rank`. */
  predicate Ascending<T>(rank: T -> int, s: seq<T>) {
    forall j, k :: 0 <= j < k < |s| ==> rank(s[j]) < rank(s[k])
  }

  /** Filtering keeps an order: a sequence strictly ascending by `rank` stays so. */
  lemma {:induction false} FilterAscending<T>(p: T -> bool, rank: T -> int, s: seq<T>)
    requires Ascending(rank, s)
    ensures Ascending(rank, Filter(p, s))
  {
    if |s| > 0 {
      var t := Filter(p, s[1..]);
      FilterAscending(p, rank, s[1..]);
      FilterAbove(p, rank, s[1..], rank(s[0]));
      if p(s[0]) {
        AscendingCons(rank, s[0], t);
      }
    }
  }

  /** A lower bound on the ranks of a sequence bounds those of its filtering. */
  lemma FilterAbove<T>(p: T -> bool, rank: T -> int, s: seq<T>, lo: int)
    requires forall k :: 0 <= k < |s| ==> lo < rank(s[k])
    ensures forall k :: 0 <= k < |Filter(p, s)| ==> lo < rank(Filter(p, s)[k])
  {
    var t := Filter(p, s);
    forall k | 0 <= k < |t|
      ensures lo < rank(t[k])
    {
      assert t[k] in s;
    }
  }

  /** An element below everything in an ascending sequence can go in front. */
  lemma AscendingCons<T>(rank: T -> int, x: T, t: seq<T>)
    requires Ascending(rank, t)
    requires forall k :: 0 <= k < |t| ==> rank(x) < rank(t[k])
    ensures Ascending(rank, [x] + t)
  {
    var r := [x] + t;
    forall j, k | 0 <= j < k < |r|
      ensures rank(r[j]) < rank(r[k])
    {
      assert r[k] == t[k - 1];
      if j > 0 {
        assert r[j] == t[j - 1];
      }
    }
  }

  /** Filtering by `q` and then by `p` is filtering once by their conjunction `pq`. */
  lemma {:induction false} FilterFilter<T>(p: T -> bool, q: T -> bool, pq: T -> bool, s: seq<T>)
    requires forall x :: pq(x) == (q(x) && p(x))
    ensures Filter(p, Filter(q, s)) == Filter(pq, s)
  {
    if |s| > 0 {
      FilterFilter(p, q, pq, s[1..]);
      if q(s[0]) {
        assert Filter(q, s)[1..] == Filter(q, s[1..]);
      }
    }
  }

  lemma ConcatAssoc<T>(a: seq<T>, b: seq<T>, c: seq<T>)
    ensures a + (b + c) == (a + b) + c
  {
  }

  /** Filtering keeps everything when every element qualifies. */
  lemma {:induction false} FilterAll<T>(p: T -> bool, s: seq<T>)
    requires forall k :: 0 <= k < |s| ==> p(s[k])
    ensures Filter(p, s) == s
  {
    if |s| > 0 {
      FilterAll(p, s[1..]);
    }
  }
}
